=== FILE: README.md ===
# Sruvaan agents, rule-based path, in Dafny

Sruvaan is a pipeline of six agents. A free-text payment instruction passes
through them in this order:

1. the prompter, which extracts an intent and entities;
2. the cryptor, which does field-wise "HKP" obfuscation and attaches a
   Proof-of-Protocol (PoP) signature;
3. the decryptor, which gates the record on that signature and unwraps it;
4. the mimic, which forges a look-alike record;
5. the prober, which scores how much the forgery leaks;
6. the calibrator, which proposes new encryption parameters and a
   calibration mode.

Every agent first asks a language model. When the model returns nothing, the
agent falls back to deterministic rules. This project models that
**rule-based path** of every agent, the records they exchange, and the
two-pass chaining of the main pipeline.

## How the model is built

- **Modules follow the source files.**
  - `Prompter`, `Cryptor`, `Decryptor`, `Mimicus`, `Probator` and
    `Praeceptor` are the agents.
  - `Schemas` holds the seven records and their field defaults.
  - `Pipeline` chains the agents.
  - `Tags` holds the obfuscated field names, written with code-point escapes.
    For example, the intent field "Ωα" starts with U+2126 OHM SIGN, as in the
    source.
- **Helper modules.**
  - `Text`: substring tests, ASCII lower-casing, `str.strip`, decimal and hex
    rendering.
  - `Dicts`: insertion-ordered string dicts.
  - `Json`: `json.dumps(..., sort_keys=True)`.
  - `Repr`: Python's `repr` of strings and of string dicts, escapes included.
    It gives the text that `str(entities)` searches.
  - `Primitives`: hashing and float rendering.
- **Dicts.** A Python `dict` whose order matters (entities, encrypted fields,
  forged fields) is a `Dicts.Dict`: a duplicate-free key order plus a map.
  `Put` has Python's assignment semantics: it replaces a value in place, or
  appends a new key. Score and parameter dicts are `map<string, real>`.
- **Floats** are reals.
- **Hashing and float rendering.** SHA-256 and `str(float)` are the two
  functions of `Primitives.Oracles`, passed in as arguments, so every
  property holds for every hash function. `Primitives.Digest` gives every
  digest the shape of a real one: 64 lowercase hex digits.
- **Randomness and the clock.** Each random draw (`secrets.token_hex`,
  `randbelow`, `random.randint`, `choice`, `uniform`) and each clock reading is
  an explicit argument. The draws are grouped in the `*Draws` records. Their
  `ValidDraws` predicates state the source's ranges.
- **Errors.** The decryptor's `ValueError` is the `ValueError` case of
  `Decryptor.Outcome`.

## What the proofs establish

- **Signing and verification agree.** The decryptor recomputes exactly the
  signature the cryptor attached. So a freshly encrypted record is never
  refused, whatever the hash function. The signature depends only on the
  dict's entries, not on their insertion order.
- **The decryptor misreads entity names.** `field_name[4:]` strips four code
  points from the three-code-point prefix "βΞ_". Every recovered entity name
  therefore loses its first letter: "βΞ_amount" reads back as "mount". The
  model follows the code as written.
- **Consequences downstream.** A decrypted record never has an "amount" or a
  "to_account" entity. So the mimic never forges entity imitations, the
  forgery passes every pattern check of the prober, and the leakage score is
  0.6 + 0.3·recovery − 0.2·drift.
  - With the draws in their ranges, the score is in [0.47, 0.66].
  - Protection is "active", so no feedback is requested.
  - The mode is "recalibrate" or "aggressive_recalibrate".
  - `Pipeline.RunPipeline` proves this for both passes and for every
    instruction.
  - It also proves the integration test's assertions from the cryptor on,
    for every instruction. The record is accepted, the role tag is "Γ5", the
    intent is "transfer", the grade is "Level-5", the record is queued, and
    the forgery is a mimic attempt. The decrypted record has at least one
    entity exactly when the prompter extracted one, so the test's
    `len(entities) > 0` fails for an instruction with no amount or account,
    such as "Transfer money".
  - It states that the second pass encrypts under the parameters the first
    pass's calibrator proposed.
- **Decryption is a placeholder table.** A field is never actually decrypted.
  `decrypt_field` returns one of six fixed strings.
  - Derived keys are "HKP_" plus hex digits, and ciphertexts are hex digits
    and "_". So on the cryptor's own output every key test fails, and every
    entity decrypts to "default_value".
- **The account test reads the dict's text.** `"account" in
  str(entities).lower()` is modelled over `repr`'s output, escapes included.
  When every key and value is written as it is, the test reduces to a test of
  the keys and values. An escape can complete the word, though: `\x1a`
  followed by "ccount" reads "account".
- **The prompter's regular expressions are modelled twice.**
  - A declarative predicate says what a match is.
  - A search scans in the order Python's backtracking matcher does. For the
    destination pattern, the greedy `\s+` gives back characters and the lazy
    group `[A-Za-z\s]+?` grows.
  - Lemmas prove the search finds a match exactly when one exists. Its
    contract pins down which match it reports.

## Model

| member | source | states |
|---|---|---|
| `Prompter.ExtractIntent` | src/prompter.py:131-143 | The intent is one of four labels. It is send_email exactly when the lower-cased text contains "mail" (an "email" test adds nothing), even if "send" or "transfer" also occur. It is transfer exactly when there is no "mail" but "transfer", "send" or "move" occurs, then book_flight, and otherwise "unknown", the empty text included. |
| `Prompter.IntentIgnoresCase` | src/prompter.py:133 | Lower-casing the instruction first never changes the intent. |
| `Prompter.FindAmount` | src/prompter.py:151-152 | The search for `\$(\d{1,3},\d{3})` reports a genuine match with no match at any earlier position, and reports none only when there is no match from that position on. |
| `Prompter.FindAmountComplete` | src/prompter.py:151-153 | The amount search succeeds exactly when the pattern occurs somewhere. |
| `Prompter.AmountValue` | src/prompter.py:154-155 | The amount is the matched digits before and after the comma, run together, then " USD". It is all digits up to the suffix. |
| `Prompter.ExtractedAmount` | src/prompter.py:150-155 | The "amount" entity is present exactly when the pattern occurs. It holds the leftmost match, without the comma, plus " USD". |
| `Prompter.FirstPair` | src/prompter.py:158-166 | Reports the first known (to, from) pair, in test order, both of whose numbers occur, or none when no pair occurs. |
| `Prompter.AccountEntities` | src/prompter.py:157-169 | Keeps the amount entry. "to_account" and "from_account" are set together, exactly when a known pair occurs, and hold the first such pair. "account" is set exactly when no pair fired and the single known number occurs. |
| `Prompter.ExtractedAccounts` | src/prompter.py:158-169 | The same first-match account rules hold of the complete entity dict. |
| `Prompter.SpacedWordCheck` | src/prompter.py:172 | Checking `\s+from` or `\s+account` by taking the whole whitespace run gives exactly the regex alternative's verdict. |
| `Prompter.LazyGroupEnd` | src/prompter.py:172 | The lazy group `[A-Za-z\s]+?` stops at the first position where an alternative `\s+from`, `\s+account` or `$` matches, and fails only if there is none. |
| `Prompter.GreedyFrom` | src/prompter.py:172 | The greedy `\s+` after "to" gives back one character at a time and settles on the longest run after which the group can match. |
| `Prompter.MatchAt` | src/prompter.py:172 | With "to" at a given position, it reports the match the backtracking matcher finds: the latest group start, then the earliest group end. It reports none only when no match starts there. |
| `Prompter.FindDestination` | src/prompter.py:172-173 | `re.search` for the destination pattern: the leftmost starting position, resolved as the matcher does. |
| `Prompter.FindDestinationComplete` | src/prompter.py:172-174 | The destination search succeeds exactly when the pattern occurs somewhere. |
| `Prompter.DestinationValue` | src/prompter.py:175 | The destination is the captured group with its surrounding whitespace stripped: a slice of the group whose margins on both sides are all whitespace, and which neither starts nor ends with whitespace. |
| `Text.Strip` | src/prompter.py:175 | `str.strip()` returns the part of the string between its leading and trailing whitespace: a slice whose margins are all whitespace, neither starting nor ending with whitespace, empty exactly when the string is all whitespace. |
| `Prompter.ExtractedDestination` | src/prompter.py:171-175 | The "destination" entity is present exactly when the pattern occurs, and holds the stripped group of the reported match. |
| `Prompter.ExtractEntities` | src/prompter.py:146-177 | Only the five entity names ever appear. |
| `Prompter.RunPrompter` | src/prompter.py:104-128 | The fallback output: the extracted intent, the entities (amount present iff the pattern occurs, accounts iff a known pair occurs), auth level "L4", status "ready for execution", and the clock reading plus "Z". |
| `Cryptor.ThetaOrDefault` | src/cryptor.py:162-167 | Without parameters, the defaults are entropy 0.5, cipher strength 0.8 and role decay 0.5. Otherwise the caller's map is used unchanged. |
| `Cryptor.DeriveRoleKey` | src/cryptor.py:187-202 | The key is "HKP_" plus 8 lowercase hex digits (12 characters). The digits are the digest prefix of field name, auth level and rendered cipher strength (0.8 when absent). Entropy and role decay never reach it. |
| `Cryptor.EncryptField` | src/cryptor.py:205-222 | The ciphertext is 4 uppercase hex digits that encode the random token, then "_", then the first 12 hex digits of the digest of value, "_" and key. |
| `Cryptor.GammaValue` | src/cryptor.py:181 | "$γΦ" holds "BXR_Λ" and two digits that read back as the draw. |
| `Cryptor.NodeValue` | src/cryptor.py:182 | "Node_ζτ" holds "E", two digits that read back as the draw, and "_Tau". |
| `Cryptor.EncryptEntities` | src/cryptor.py:176-178 | The entity loop adds exactly one "βΞ_" tag per entity name. |
| `Cryptor.EntityEncrypted` | src/cryptor.py:176-178 | Every entity lands under "βΞ_" plus its name, encrypted from its own value under the key derived from its own name. |
| `Cryptor.ApplyHkpEncryption` | src/cryptor.py:150-184 | The keys are exactly "Ωα", "βΞ_"+k for every entity k, "$γΦ" and "Node_ζτ". |
| `Cryptor.ApplyHkpEncryptionSize` | src/cryptor.py:169-184 | The map has one entry per entity and three more. |
| `Cryptor.ApplyHkpEncryptionIntent` | src/cryptor.py:172-182 | "Ωα" holds the intent encrypted under the key derived from "intent", and the two decoy fields have their fixed shapes. |
| `Cryptor.ApplyHkpEncryptionEntity` | src/cryptor.py:176-178 | After the decoys are added, each entity is still encrypted from its own value under its own key. |
| `Cryptor.EncryptionDependsOnlyOnCipherStrength` | src/cryptor.py:200 | Two parameter maps that agree on the cipher strength, or both lack it, produce identical encrypted fields. |
| `Cryptor.GeneratePopSignature` | src/cryptor.py:225-238 | The signature is 12 lowercase hex digits: the digest prefix of the sorted-key JSON of the fields. |
| `Cryptor.PopSignatureIgnoresInsertionOrder` | src/cryptor.py:236 | Dicts with the same entries, inserted in any order, get the same signature. |
| `Cryptor.AddProtocolMetadata` | src/cryptor.py:131-134 | Adds "Role=Γ5" ↦ "HKP-derived" and "Time=∆τ" ↦ the time tag. Every other field is untouched, and there are two more entries when both tags are new. |
| `Cryptor.RunCryptor` | src/cryptor.py:122-147 | Role tag "Γ5" and the given time tag. The fields are the encrypted ones plus the two metadata fields. The signature covers the map after the metadata is added. |
| `Cryptor.RunCryptorKeepsEncryption` | src/cryptor.py:128-134 | The metadata tags are new, so the record has one entry per entity and five more, and every encrypted field keeps its ciphertext. |
| `Json.Dumps` | src/cryptor.py:236 | The serialisation is printable ASCII, as with `ensure_ascii`. |
| `Json.DumpsIgnoresInsertionOrder` | src/decryptor.py:114 | Thanks to `sort_keys`, the serialisation depends only on the dict's entries. |
| `Decryptor.VerifyPopSignature` | src/decryptor.py:102-116 | Verification succeeds exactly when the expected signature is the one the cryptor computes for the same fields, so a freshly signed record always verifies. |
| `Decryptor.DecryptionKey` | src/decryptor.py:157-171 | Always "HKP_" plus 8 hex digits, derived at level "L4" with cipher strength 0.8. |
| `Decryptor.DecryptionKeyMatchesCryptor` | src/decryptor.py:133-151 | The decryption key is the cryptor's key when the request used level "L4" and cipher strength 0.8 (or none). |
| `Decryptor.DecryptField` | src/decryptor.py:174-205 | The result is one of six fixed strings, chosen by the first test that holds in branch order: intent, amount, then account with "to" before "from", else "default_value". |
| `Decryptor.DerivedKeyDecrypt` | src/decryptor.py:192-205 | Under a derived key, no key test ever fires, so the result depends on the value alone. |
| `Decryptor.CipherTextDecryptsToDefault` | src/decryptor.py:192-205 | Any ciphertext the cryptor produces decrypts to "default_value" under any derived key. |
| `Decryptor.RecoveredName` | src/decryptor.py:150 | `field_name[4:]` is the entity name without its first character ("βΞ_amount" gives "mount"). |
| `Decryptor.DecryptEntities` | src/decryptor.py:148-152 | The loop adds one entry per recovered name of a "βΞ_" field, and nothing for other fields. |
| `Decryptor.DecryptIntent` | src/decryptor.py:140-145 | "intent" is always present, whether or not "Ωα" is. |
| `Decryptor.DecryptHkpFields` | src/decryptor.py:119-154 | The keys are "intent" plus the recovered names of the "βΞ_" fields. The role tag is not read. |
| `Decryptor.DecryptHkpFieldsPlaceholders` | src/decryptor.py:139-152 | Every decrypted value, whatever the fields hold, is one of the six placeholders. |
| `Decryptor.DecryptIgnoresOtherFields` | src/decryptor.py:140-152 | Setting any field other than "Ωα" or a "βΞ_" field, new or existing, leaves the decrypted fields unchanged. |
| `Decryptor.AuthGrade` | src/decryptor.py:93 | "Level-" plus the role tag's last character when that is 1 to 5, else "Level-4". |
| `Decryptor.RunDecryptor` | src/decryptor.py:65-99 | `ValueError` "Invalid Proof-of-Protocol signature" exactly when verification fails, before any field is read. Otherwise: intent "transfer" whatever was decrypted; the entities are the recovered names minus "intent"; the grade comes from the role tag; the time tag is kept; the status is "queued". |
| `Decryptor.VerificationIgnoresTags` | src/decryptor.py:79-81 | Changing the role tag or the time tag never changes whether a record is refused. |
| `Mimicus.MimicIntentValue` | src/mimicus.py:140 | "ZYNQ_∆" plus the drawn two-digit number. |
| `Mimicus.BlockValue` | src/mimicus.py:141 | "blk_M", a digit, "Z", a digit; the digits read back as the draws. |
| `Mimicus.MimicGammaValue` | src/mimicus.py:142 | "AKR_Ξ" plus the zero-padded draw. |
| `Mimicus.PsiValue` | src/mimicus.py:146 | The drawn number followed by "K". |
| `Mimicus.SigmaValue` | src/mimicus.py:147 | "Λ" followed by the drawn digit. |
| `Mimicus.FakeAmountValue` | src/mimicus.py:153-154 | "fake_", the number, "_USD": the replace turns only the separator into "_", and no space remains. |
| `Mimicus.AccountNumber` | src/mimicus.py:158 | Four four-digit groups joined by dashes, each reading back as its draw. |
| `Mimicus.SpoofAccountValue` | src/mimicus.py:159 | "spoof_" followed by the forged account number. |
| `Mimicus.MimicTimeValue` | src/mimicus.py:163 | A July 2025 time stamp whose day, hour and minute read back as the draws, seconds "00", suffix "Z". |
| `Mimicus.MimicKeysPresence` | src/mimicus.py:140-163 | The amount imitation is forged exactly when "amount" is an entity, and the account imitation exactly when "to_account" is. "Role=Γ3" and "Time=∆τ" are always forged, and "Role=Γ5" never is. |
| `Mimicus.MimicOrderDistinct` | src/mimicus.py:140-163 | Every assignment is to a fresh key, so the forged dict has all its fields in assignment order. |
| `Mimicus.GenerateMimicFields` | src/mimicus.py:127-165 | The keys are the eight fixed fields plus exactly the imitations called for. The order and every value depend only on the draws and on whether "amount" and "to_account" are entities. |
| `Mimicus.AnalyzeMimicVulnerabilities` | src/mimicus.py:168-199 | Three scores in [0, 1]. Structure exposure is 0.2 per entity, capped at 0.8, and 0 exactly for no entities. Semantic leakage is in {0, 0.3, 0.6, 0.9}. It is at least 0.6 iff "amount" is an entity. It holds the 0.3 part iff the lower-cased `str(entities)` mentions "account", escapes and quotes included. Predictability is 0.7 iff the intent is transfer, payment or send. |
| `Mimicus.PlainEntitiesMentionAccount` | src/mimicus.py:192-193 | When `repr` writes every key and value as it is, the dict's text mentions "account" exactly when some lower-cased key or value does. |
| `Mimicus.EscapeCompletesAccount` | src/mimicus.py:192-193 | Without that condition the two tests differ. A key of U+001A followed by "ccount" is written `'\x1account'`, so the text mentions "account" while no key or value does. |
| `Repr.EscapeChar` | src/mimicus.py:192 | A character is written as itself exactly when it is not the quote or a backslash and is printable. The quote and the backslash are written behind a backslash; tab, newline and carriage return as `\t`, `\n`, `\r`; any other character as `\x`, `\u` or `\U` (by code point up to 0xff, 0xffff, beyond) followed by 2, 4 or 8 lower-case hex digits that read back as its code point. |
| `Repr.EscapePlainBody` | src/mimicus.py:192 | A string of plain characters is written unchanged between the quotes. |
| `Repr.ReprDictMentions` | src/mimicus.py:192-193 | For a dict of plain strings, a word free of quotes, colons, commas, spaces and braces occurs in the lower-cased `str(d)` exactly when it occurs in some lower-cased key or value. |
| `Mimicus.RunMimicus` | src/mimicus.py:113-124 | Spoof status "mimic_attempt", with the generated fields. |
| `Probator.CountPresent` | src/probator.py:159-161 | Counts the expected fields present: the full count exactly when all are present, 0 exactly when none is. |
| `Probator.CountPresentCounts` | src/probator.py:159-161 | Over names listed once each, the count is the number of listed names that are keys. |
| `Probator.StructureFidelityCounts` | src/probator.py:159-161 | Structure fidelity is the number of the four distinct expected fields (intent, block, gamma, node) that are keys of the record, over four. |
| `Probator.PatternScore` | src/probator.py:169-179 | In [0, 1]. It is 1 exactly when all four prefix and substring tests pass, and 0 exactly when none does. |
| `Probator.MappingScore` | src/probator.py:183-189 | 0.4 for each of the two imitation fields present. |
| `Probator.AnalyzeLeakagePatterns` | src/probator.py:135-191 | Exactly the five factors, each in [0, 1]. Entity recovery is positive iff "Ωα" is present, and then it is the draw. Structure fidelity is the present share of the four expected fields, 1 iff all are present. Drift is the draw. Pattern and mapping scores are as above. |
| `Probator.CalculateLeakageScore` | src/probator.py:194-222 | In [0, 1]. It equals the weighted sum exactly when that sum is in [0, 1], and is clamped to 1 above and 0 below. |
| `Probator.FactorsInRangeNeedNoClamp` | src/probator.py:205-222 | With every factor present and in [0, 1], the weights sum to 1, so the score is the unclamped weighted sum. |
| `Probator.MissingFactorIsNeutral` | src/probator.py:214-220 | An absent factor scores as 0, except semantic drift, which scores as 1. |
| `Probator.ScoreMonotone` | src/probator.py:213-222 | More of any factor, or less drift, never lowers the score. |
| `Probator.AssessHkpProtection` | src/probator.py:225-250 | "active" exactly when "Role=Γ3" and "Time=∆τ" are both present. "inactive" exactly when none of "Role=Γ5", "Time=∆τ" and "pop_signature" is present. "partial" otherwise. |
| `Probator.RunProbator` | src/probator.py:114-132 | The details are the analysed factors, exactly the five. The score is in [0, 1] and equals the unclamped weighted sum. Protection is the marker rule's verdict: "active" iff "Role=Γ3" and "Time=∆τ" are present, "inactive" iff no protocol marker is, "partial" otherwise. |
| `Praeceptor.ScoreAdjustment` | src/praeceptor.py:157-166 | Above 0.5, a positive adjustment up to its cap. At or below 0.5, the proportional "optimisation", never negative, so its -0.1 floor never applies. |
| `Praeceptor.Calibrate` | src/praeceptor.py:149-186 | Exactly the three parameters, starting from the fixed bases. Entropy is in [0.5, 1] and at least 0.6 on high recovery. Cipher strength is in [0.8, 1] and at least 0.9 on high fidelity. Role decay is in [0.4, 1]. Both entropy and cipher strength rise above their bases when the score exceeds 0.5. |
| `Praeceptor.CalibrateParameters` | src/praeceptor.py:139-192 | Exactly entropy, cipher strength and role decay, each within its clamp. Entropy is at least 0.5 and cipher strength at least 0.8. |
| `Praeceptor.CalibrationReadsOnlyFourValues` | src/praeceptor.py:155-181 | Assessments that agree on the score and the three detail values read get the same parameters. |
| `Praeceptor.MissingDriftLowersRoleDecay` | src/praeceptor.py:179-181 | A missing semantic drift reads as 0 and lowers role decay by 0.1. |
| `Praeceptor.DetermineCalibrationMode` | src/praeceptor.py:195-214 | The five bands, each stated as an if-and-only-if over the score. |
| `Praeceptor.ModeMonotone` | src/praeceptor.py:205-214 | The mode is the one at the score's severity, and a higher score never gives a less severe mode. |
| `Praeceptor.StrongCount` | src/praeceptor.py:256-272 | Counts "strong" verdicts: the count is the number of occurrences of "strong" in the list, all exactly when it is the list's length, none exactly when it is 0. |
| `Praeceptor.AnalyzeHkpEffectiveness` | src/praeceptor.py:217-274 | Each protection is strong exactly when its metric is present and below its threshold. An absent metric counts as weak. The overall score is the number of strong verdicts over three, in {0, 1/3, 2/3, 1}: 1 iff all three are strong, 0 iff all are weak. |
| `Praeceptor.RunPraeceptor` | src/praeceptor.py:118-136 | Exactly the three parameters within their bounds. The mode is the one at the score's severity. Feedback is requested exactly when protection is not "active". |
| `Pipeline.DecryptedEntitiesPresent` | src/decryptor.py:88 | An accepted cryptor record over prompter entities decrypts to at least one entity exactly when there was one. No entity name reads back as "intent", so dropping "intent" keeps every recovered name. |
| `Decryptor.RecoveredNamesHold` | src/decryptor.py:147-151 | Every "βΞ_" field of the record contributes its recovered name to the decrypted fields. |
| `Pipeline.DecryptedEntitiesMisnamed` | src/decryptor.py:148-152 | A record the cryptor wrote for prompter entities, once accepted, decrypts without an "amount" or "to_account" entity. |
| `Pipeline.PlainForgeryScore` | src/probator.py:135-222 | A forgery without imitations scores exactly 0.6 + 0.3·recovery − 0.2·drift, in [0.47, 0.66], with protection "active". |
| `Pipeline.PassOnMisreadRecord` | src/main_pipeline.py:110-113 | Once such a record is accepted, the rest of the pass gives a score in [0.47, 0.66], active protection, no feedback, and mode recalibrate or aggressive_recalibrate. |
| `Pipeline.Encrypt` | src/main_pipeline.py:109 | The record is the cryptor's output for the prompt. It has role "Γ5", carries the signature of its own fields, and holds only fields the cryptor writes. Every entity of the prompt has its "βΞ_" tag among the fields. |
| `Pipeline.Downstream` | src/main_pipeline.py:110-113 | Over a record with role "Γ5", signed over its own fields and holding only fields the cryptor writes, the pass completes. The decryptor accepts the record; the decrypted record, the forgery, the assessment and the update are the decryptor's, the mimic's, the prober's and the calibrator's outputs, each on the stage before. It gives intent "transfer", grade "Level-5", status "queued", "mimic_attempt", a score in [0, 1] and a mode among the five. Over prompter entities it also gives the middle band, active protection, no feedback and a middle mode. The decrypted record has an entity exactly when the prompt has one. |
| `Pipeline.RunPass` | src/main_pipeline.py:109-113 | The record is the cryptor's output for the prompt under the given parameters, and the pass never stops at the decryptor. It gives role tag "Γ5", intent "transfer", grade "Level-5", status "queued", "mimic_attempt", a score in [0, 1] and a mode among the five. Over prompter entities it also gives the middle band, active protection, no feedback and a middle mode. |
| `Pipeline.RunPipeline` | src/main_pipeline.py:96-125 | For every instruction both passes complete. The first pass's record is the cryptor's output for the prompter's output under the initial parameters or the defaults; the second pass's is its output under the parameters the first pass's calibrator proposed. The first pass meets the integration test's assertions from the cryptor on: role "Γ5", intent "transfer", grade "Level-5", status "queued", "mimic_attempt". In both passes the decrypted record has an entity exactly when the prompter extracted one, so `len(entities) > 0` holds only for such instructions. Both passes have active protection, score in [0.47, 0.66], request no feedback, and pick recalibrate or aggressive_recalibrate. |

## Left out

- The language-model branches of every agent, and the exceptions raised only
  when no fallback is allowed: they are network calls with unconstrained
  output, so the model starts where the fallback starts.
- The language-model client and the configuration loader: network, environment
  and file I/O.
- The wiring, logging and printing of the main pipeline, the demo scripts, the
  top-level copies of the cryptor and prompter, and the prompt templates. They
  hold no logic of the agents. Only the stage order of the main pipeline is
  modelled.
- SHA-256's internals: the hash is an argument, of which nothing but its
  output shape is used.
- `secrets`, `random` and `datetime.utcnow`: every draw and clock reading is an
  argument within the source's range. The mimic's draws are one record of
  independent values rather than one stream consumed in order.
- IEEE floating point: scores and parameters are exact reals.
- `Praeceptor.CalibrateParameters`: does not model the final
  `round(..., 3)`, because rounding to three decimals is a float-formatting
  detail. The bounds it states hold before rounding.
- `Cryptor.DeriveRoleKey`: `str(float)` of the cipher strength is the
  `floatStr` argument, because Python's shortest-repr float formatting is not
  modelled.
- `Prompter.ExtractIntent`: `str.lower()` is modelled on ASCII letters only.
  The few non-ASCII characters that Python lower-cases to ASCII letters
  (such as the Kelvin sign) are not, because Unicode case mapping is not
  modelled.
- `Decryptor.DecryptField`: lower-cases the key on ASCII letters only, for
  the same reason. The keys it receives are derived keys, which are ASCII.
- `Prompter.FindAmount`: `\d` matches the ASCII digits only, while Python's
  `\d` also accepts other Unicode decimal digits. Unicode digit classes are
  not modelled.
- `Mimicus.AnalyzeMimicVulnerabilities`: whether a character from U+0100 on
  is printable, and so written as itself by `repr`, is the `wide` argument,
  because the Unicode character database is not modelled. `str.lower()` is
  modelled on ASCII letters only. No other character lower-cases to a letter
  of "account", so the test is not affected.
- `Pipeline.RunPass`: states the cryptor's record and what the pass yields,
  not the decryptor-to-calibrator chain. That chain is the contract of
  `Pipeline.Downstream`, which the pass runs on the cryptor's record; keeping
  it out of the pass's contract keeps the two-pass proof small.
- `Pipeline.RunPipeline`: states each pass's cryptor record and outcomes, not
  the chain from the decryptor on, for the same reason.
- The integration test's prompter assertions: the model states the
  prompter's rules for every instruction, but not the test's particular
  instruction as an instance, because its pattern searches are costly to
  evaluate in the prover.
- The requested instruction language: the rule-based prompter never reads it,
  and neither does the model.

=== FILE: cryptor.dfy ===
/** The cryptor's rule-based path: field-wise "HKP" encryption under keys derived
    from the field name, the authentication level and the cipher strength,
    followed by the Proof-of-Protocol signature over the sorted field map. */
module Cryptor {
  import opened Text
  import opened Dicts
  import opened Primitives
  import opened Tags
  import opened Schemas
  import Json

  /** The `secrets` draws of one encryption: one `token_hex(2)` value per
      encrypted field (the intent first, then each entity in order) and the two
      `randbelow(100)` values for the "$γΦ" and "Node_ζτ" fields. */
  datatype CryptorDraws = CryptorDraws(tokens: seq<nat>, gammaSuffix: nat, nodeSuffix: nat)

  /** Two random bytes each. */
  predicate ValidTokens(tokens: seq<nat>) {
    forall i :: 0 <= i < |tokens| ==> tokens[i] < 0x10000
  }

  predicate ValidDraws(r: CryptorDraws, entityCount: nat) {
    && |r.tokens| == entityCount + 1
    && ValidTokens(r.tokens)
    && r.gammaSuffix < 100
    && r.nodeSuffix < 100
  }

  /** The parameters used when the caller passes none. */
  function DefaultTheta(): map<string, real> {
    map["entropy" := 0.5, "cipher_strength" := 0.8, "role_decay" := 0.5]
  }

  /** `theta_params`, or the defaults when the caller passes none. */
  function ThetaOrDefault(thetaParams: Option<map<string, real>>): (theta: map<string, real>)
    ensures thetaParams.Some? ==> theta == thetaParams.value
    ensures thetaParams.None? ==> theta == map["entropy" := 0.5, "cipher_strength" := 0.8, "role_decay" := 0.5]
  {
    if thetaParams.None? then DefaultTheta() else thetaParams.value
  }

  /** `theta_params.get('cipher_strength', 0.8)`. */
  function CipherStrength(theta: map<string, real>): real {
    if "cipher_strength" in theta then theta["cipher_strength"] else 0.8
  }

  /** A derived key: "HKP_" and eight lowercase hexadecimal digits. */
  predicate IsHkpKey(k: string) {
    |k| == 12 && k[..4] == "HKP_" && AllLowerHex(k[4..])
  }

  /** A field ciphertext: four uppercase hex digits, "_", twelve lowercase hex digits. */
  predicate IsCipherText(c: string) {
    |c| == 17 && AllUpperHex(c[..4]) && c[4] == '_' && AllLowerHex(c[5..])
  }

  /** "BXR_Λ" and two decimal digits. */
  predicate IsGammaValue(v: string) {
    |v| == 7 && v[..5] == GammaValuePrefix && AllDigits(v[5..])
  }

  /** "E", two decimal digits, "_Tau". */
  predicate IsNodeValue(v: string) {
    |v| == 7 && v[0] == 'E' && AllDigits(v[1..3]) && v[3..] == "_Tau"
  }

  /** The role-scoped key of one field. Only the field name, the authentication
      level and the cipher strength reach the hash (entropy and role decay never
      do); the key is "HKP_" followed by the first eight hex digits of the digest. */
  function DeriveRoleKey(o: Oracles, fieldName: string, authLevel: string, theta: map<string, real>): (key: string)
    ensures IsHkpKey(key)
    ensures key[4..] == Digest(o, fieldName + "_" + authLevel + "_" + o.floatStr(CipherStrength(theta)))[..8]
  {
    "HKP_" + HexDigest(o, fieldName + "_" + authLevel + "_" + o.floatStr(CipherStrength(theta)), 8)
  }

  /** `c` is what encrypting `value` under `key` yields, whatever the random
      prefix: a well-formed ciphertext whose tail is the first twelve hex digits
      of the hash of the value joined to the key. */
  predicate EncryptsUnder(o: Oracles, c: string, value: string, key: string) {
    IsCipherText(c) && c[5..] == Digest(o, value + "_" + key)[..12]
  }

  /** Encrypts one value: a random uppercase prefix from `token_hex(2)`, "_", and
      the first twelve hex digits of the hash of the value joined to the key. */
  function EncryptField(o: Oracles, value: string, key: string, token: nat): (c: string)
    requires token < 0x10000
    ensures EncryptsUnder(o, c, value, key)
    ensures HexStringValue(c[..4]) == token
  {
    var prefix := Hex4(token, true);
    var c := prefix + "_" + HexDigest(o, value + "_" + key, 12);
    assert c[..4] == prefix;
    c
  }

  /** The tags "βΞ_" + k of the names k. */
  function EntityTags(names: seq<string>): set<string> {
    if names == [] then {} else {EntityPrefix + names[0]} + EntityTags(names[1..])
  }

  lemma {:induction false} EntityTagInjective(a: string, b: string)
    requires EntityPrefix + a == EntityPrefix + b
    ensures a == b
  {
    assert a == (EntityPrefix + a)[|EntityPrefix|..];
    assert b == (EntityPrefix + b)[|EntityPrefix|..];
  }

  /** "βΞ_" + k is an entity tag exactly when k is one of the names. */
  lemma {:induction false} EntityTagMember(names: seq<string>, k: string)
    ensures EntityPrefix + k in EntityTags(names) <==> k in names
  {
    if names != [] {
      if EntityPrefix + k == EntityPrefix + names[0] {
        EntityTagInjective(k, names[0]);
      }
      EntityTagMember(names[1..], k);
    }
  }

  /** Every entity tag starts with "β"; a tag starting otherwise is none. */
  lemma {:induction false} NotAnEntityTag(t: string, names: seq<string>)
    requires t != [] && t[0] != EntityPrefix[0]
    ensures t !in EntityTags(names)
  {
    if names != [] {
      assert (EntityPrefix + names[0])[0] == EntityPrefix[0];
      NotAnEntityTag(t, names[1..]);
    }
  }

  /** The ciphertext of one entity value under the key derived from its name. */
  function EntityCipher(o: Oracles, name: string, value: string, authLevel: string,
                        theta: map<string, real>, token: nat): (c: string)
    requires token < 0x10000
    ensures EncryptsUnder(o, c, value, DeriveRoleKey(o, name, authLevel, theta))
  {
    EncryptField(o, value, DeriveRoleKey(o, name, authLevel, theta), token)
  }

  /** The loop over `entities.items()`, from the entity `names[0]` on: sets
      "βΞ_" + k for every name k, in order, one token per entity. */
  function EncryptEntities(o: Oracles, acc: Dict, entities: Dict, names: seq<string>, authLevel: string,
                           theta: map<string, real>, tokens: seq<nat>): (r: Dict)
    requires forall k :: k in names ==> k in Keys(entities)
    requires |tokens| == |names| && ValidTokens(tokens)
    ensures Keys(r) == Keys(acc) + EntityTags(names)
    decreases |names|
  {
    if names == [] then acc
    else
      var k := names[0];
      var next := Put(acc, EntityPrefix + k, EntityCipher(o, k, Get(entities, k), authLevel, theta, tokens[0]));
      EncryptEntities(o, next, entities, names[1..], authLevel, theta, tokens[1..])
  }

  /** Fields that are not entity tags keep the value they had before the loop. */
  lemma {:induction false} EntitiesKeepOthers(o: Oracles, acc: Dict, entities: Dict, names: seq<string>, authLevel: string,
                                              theta: map<string, real>, tokens: seq<nat>, k: string)
    requires forall k :: k in names ==> k in Keys(entities)
    requires |tokens| == |names| && ValidTokens(tokens)
    requires k in Keys(acc) && k !in EntityTags(names)
    ensures Get(EncryptEntities(o, acc, entities, names, authLevel, theta, tokens), k) == Get(acc, k)
    decreases |names|
  {
    if names != [] {
      var n := names[0];
      var next := Put(acc, EntityPrefix + n, EntityCipher(o, n, Get(entities, n), authLevel, theta, tokens[0]));
      EntitiesKeepOthers(o, next, entities, names[1..], authLevel, theta, tokens[1..], k);
    }
  }

  /** Every entity lands under its tag as the ciphertext of its own value under
      the key derived from its own name. */
  lemma {:induction false} EntityEncrypted(o: Oracles, acc: Dict, entities: Dict, names: seq<string>, authLevel: string,
                                           theta: map<string, real>, tokens: seq<nat>, x: string)
    requires forall k :: k in names ==> k in Keys(entities)
    requires |tokens| == |names| && ValidTokens(tokens)
    requires Distinct(names) && x in names
    ensures EntityPrefix + x in Keys(EncryptEntities(o, acc, entities, names, authLevel, theta, tokens))
    ensures EncryptsUnder(o, Get(EncryptEntities(o, acc, entities, names, authLevel, theta, tokens), EntityPrefix + x),
                          Get(entities, x), DeriveRoleKey(o, x, authLevel, theta))
    decreases |names|
  {
    var n := names[0];
    var next := Put(acc, EntityPrefix + n, EntityCipher(o, n, Get(entities, n), authLevel, theta, tokens[0]));
    DistinctTail(names);
    if x == n {
      EntityTagMember(names[1..], x);
      EntitiesKeepOthers(o, next, entities, names[1..], authLevel, theta, tokens[1..], EntityPrefix + x);
    } else {
      EntityEncrypted(o, next, entities, names[1..], authLevel, theta, tokens[1..], x);
    }
  }

  /** With distinct names and no clash with the fields already present, every
      entity adds exactly one new entry. */
  lemma {:induction false} EntitiesAppended(o: Oracles, acc: Dict, entities: Dict, names: seq<string>, authLevel: string,
                                            theta: map<string, real>, tokens: seq<nat>)
    requires forall k :: k in names ==> k in Keys(entities)
    requires |tokens| == |names| && ValidTokens(tokens)
    requires Distinct(names) && Keys(acc) !! EntityTags(names)
    ensures Len(EncryptEntities(o, acc, entities, names, authLevel, theta, tokens)) == Len(acc) + |names|
    decreases |names|
  {
    if names != [] {
      var n := names[0];
      var next := Put(acc, EntityPrefix + n, EntityCipher(o, n, Get(entities, n), authLevel, theta, tokens[0]));
      DistinctTail(names);
      EntityTagMember(names[1..], n);
      assert EntityTags(names) == {EntityPrefix + n} + EntityTags(names[1..]);
      assert Keys(next) == Keys(acc) + {EntityPrefix + n};
      assert Keys(next) !! EntityTags(names[1..]);
      EntitiesAppended(o, next, entities, names[1..], authLevel, theta, tokens[1..]);
    }
  }

  /** The one-entry dict holding the encrypted intent. */
  function IntentEntry(o: Oracles, input: SemanticPromptOut, theta: map<string, real>, token: nat): (r: Dict)
    requires token < 0x10000
    ensures Keys(r) == {IntentTag} && Len(r) == 1
    ensures EncryptsUnder(o, Get(r, IntentTag), input.intent, DeriveRoleKey(o, "intent", input.authLevel, theta))
  {
    Put(Empty, IntentTag, EncryptField(o, input.intent, DeriveRoleKey(o, "intent", input.authLevel, theta), token))
  }

  /** The intent under "Ωα", then the entities. */
  function EncryptPayload(o: Oracles, input: SemanticPromptOut, theta: map<string, real>, tokens: seq<nat>): (r: Dict)
    requires |tokens| == Len(input.entities) + 1 && ValidTokens(tokens)
    ensures Keys(r) == {IntentTag} + EntityTags(input.entities.order)
  {
    EncryptEntities(o, IntentEntry(o, input, theta, tokens[0]), input.entities, input.entities.order,
                    input.authLevel, theta, tokens[1..])
  }

  /** The intent field keeps its ciphertext: the entity loop never writes "Ωα". */
  lemma {:induction false} PayloadIntent(o: Oracles, input: SemanticPromptOut, theta: map<string, real>, tokens: seq<nat>)
    requires |tokens| == Len(input.entities) + 1 && ValidTokens(tokens)
    ensures Get(EncryptPayload(o, input, theta, tokens), IntentTag) == Get(IntentEntry(o, input, theta, tokens[0]), IntentTag)
  {
    NotAnEntityTag(IntentTag, input.entities.order);
    EntitiesKeepOthers(o, IntentEntry(o, input, theta, tokens[0]), input.entities, input.entities.order,
                       input.authLevel, theta, tokens[1..], IntentTag);
  }

  /** The value of "$γΦ": "BXR_Λ" and two digits. */
  function GammaValue(suffix: nat): (v: string)
    requires suffix < 100
    ensures IsGammaValue(v) && DecimalValue(v[5..]) == suffix
  {
    var v := GammaValuePrefix + Pad2(suffix);
    assert v[5..] == Pad2(suffix);
    v
  }

  /** The value of "Node_ζτ": "E", two digits, "_Tau". */
  function NodeValue(suffix: nat): (v: string)
    requires suffix < 100
    ensures IsNodeValue(v) && DecimalValue(v[1..3]) == suffix
  {
    var v := "E" + Pad2(suffix) + "_Tau";
    assert v[1..3] == Pad2(suffix);
    v
  }

  /** The two decoy fields: "$γΦ" and "Node_ζτ" with their random suffixes. */
  function AddDecoys(p: Dict, gammaSuffix: nat, nodeSuffix: nat): (r: Dict)
    requires gammaSuffix < 100 && nodeSuffix < 100
    ensures Keys(r) == Keys(p) + {GammaTag, NodeTag}
    ensures Get(r, GammaTag) == GammaValue(gammaSuffix) && Get(r, NodeTag) == NodeValue(nodeSuffix)
    ensures forall k :: k in Keys(p) && k != GammaTag && k != NodeTag ==> Get(r, k) == Get(p, k)
    ensures GammaTag !in Keys(p) && NodeTag !in Keys(p) ==> Len(r) == Len(p) + 2
  {
    assert |GammaTag| != |NodeTag|;
    Put(Put(p, GammaTag, GammaValue(gammaSuffix)), NodeTag, NodeValue(nodeSuffix))
  }

  /** The field map of one request, before the protocol metadata: the intent
      under "Ωα", each entity under "βΞ_" + its name, and the two decoy fields. */
  function ApplyHkpEncryption(o: Oracles, input: SemanticPromptOut,
                              thetaParams: Option<map<string, real>>, draws: CryptorDraws): (r: Dict)
    requires ValidDraws(draws, Len(input.entities))
    ensures Keys(r) == {IntentTag} + EntityTags(input.entities.order) + {GammaTag, NodeTag}
  {
    var payload := EncryptPayload(o, input, ThetaOrDefault(thetaParams), draws.tokens);
    AddDecoys(payload, draws.gammaSuffix, draws.nodeSuffix)
  }

  /** The three fixed tags are distinct and none of them is an entity tag. */
  lemma {:induction false} FixedTagsDistinct(names: seq<string>)
    ensures IntentTag != GammaTag && IntentTag != NodeTag && GammaTag != NodeTag
    ensures IntentTag !in EntityTags(names) && GammaTag !in EntityTags(names)
    ensures NodeTag !in EntityTags(names)
  {
    NotAnEntityTag(IntentTag, names);
    NotAnEntityTag(GammaTag, names);
    NotAnEntityTag(NodeTag, names);
  }

  /** The map has one entry per entity and three more. */
  lemma {:induction false} ApplyHkpEncryptionSize(o: Oracles, input: SemanticPromptOut,
                               thetaParams: Option<map<string, real>>, draws: CryptorDraws)
    requires ValidDraws(draws, Len(input.entities))
    ensures Len(ApplyHkpEncryption(o, input, thetaParams, draws)) == Len(input.entities) + 3
  {
    var theta := ThetaOrDefault(thetaParams);
    FixedTagsDistinct(input.entities.order);
    EntitiesAppended(o, IntentEntry(o, input, theta, draws.tokens[0]), input.entities, input.entities.order,
                     input.authLevel, theta, draws.tokens[1..]);
  }

  /** The intent is encrypted under the key derived from "intent", and the decoys
      have their fixed shapes. */
  lemma {:induction false} ApplyHkpEncryptionIntent(o: Oracles, input: SemanticPromptOut,
                                 thetaParams: Option<map<string, real>>, draws: CryptorDraws)
    requires ValidDraws(draws, Len(input.entities))
    ensures var r := ApplyHkpEncryption(o, input, thetaParams, draws);
      && EncryptsUnder(o, Get(r, IntentTag), input.intent, DeriveRoleKey(o, "intent", input.authLevel, ThetaOrDefault(thetaParams)))
      && IsGammaValue(Get(r, GammaTag)) && IsNodeValue(Get(r, NodeTag))
  {
    FixedTagsDistinct(input.entities.order);
    PayloadIntent(o, input, ThetaOrDefault(thetaParams), draws.tokens);
  }

  /** Within the payload, entity x is encrypted from its own value under the
      key derived from its own name. */
  lemma {:induction false} PayloadEntity(o: Oracles, input: SemanticPromptOut, theta: map<string, real>,
                                         tokens: seq<nat>, x: string)
    requires |tokens| == Len(input.entities) + 1 && ValidTokens(tokens)
    requires x in Keys(input.entities)
    ensures var p := EncryptPayload(o, input, theta, tokens);
      && EntityPrefix + x in Keys(p)
      && EncryptsUnder(o, Get(p, EntityPrefix + x), Get(input.entities, x), DeriveRoleKey(o, x, input.authLevel, theta))
  {
    EntityEncrypted(o, IntentEntry(o, input, theta, tokens[0]), input.entities, input.entities.order,
                    input.authLevel, theta, tokens[1..], x);
  }

  /** Entity x is encrypted from its own value under the key derived from its own
      name. */
  lemma {:induction false} ApplyHkpEncryptionEntity(o: Oracles, input: SemanticPromptOut,
                                 thetaParams: Option<map<string, real>>, draws: CryptorDraws, x: string)
    requires ValidDraws(draws, Len(input.entities))
    requires x in Keys(input.entities)
    ensures var r := ApplyHkpEncryption(o, input, thetaParams, draws);
      && EntityPrefix + x in Keys(r)
      && EncryptsUnder(o, Get(r, EntityPrefix + x), Get(input.entities, x), DeriveRoleKey(o, x, input.authLevel, ThetaOrDefault(thetaParams)))
  {
    var theta := ThetaOrDefault(thetaParams);
    PayloadEntity(o, input, theta, draws.tokens, x);
    EntityTagNotFixed(x);
  }

  /** An entity tag is none of the fixed tags. */
  lemma {:induction false} EntityTagNotFixed(x: string)
    ensures EntityPrefix + x != IntentTag && EntityPrefix + x != GammaTag && EntityPrefix + x != NodeTag
    ensures EntityPrefix + x != RoleG5Tag && EntityPrefix + x != TimeTag
  {
    assert (EntityPrefix + x)[0] == EntityPrefix[0];
  }

  /** Proof-of-Protocol signature: the first twelve hex digits of the hash of the
      sorted-key JSON serialisation of the field map. */
  function GeneratePopSignature(o: Oracles, fields: Dict): (sig: string)
    ensures |sig| == 12 && AllLowerHex(sig)
    ensures sig == Digest(o, Json.Dumps(fields))[..12]
  {
    HexDigest(o, Json.Dumps(fields), 12)
  }

  /** The signature is a function of the map's entries alone: inserting the same
      entries in another order yields the same signature. */
  lemma {:induction false} PopSignatureIgnoresInsertionOrder(o: Oracles, d: Dict, e: Dict)
    requires SameEntries(d, e)
    ensures GeneratePopSignature(o, d) == GeneratePopSignature(o, e)
  {
    Json.DumpsIgnoresInsertionOrder(d, e);
  }

  /** `encrypted_fields.update({"Role=Γ5": "HKP-derived", "Time=∆τ": time_tag})`. */
  function AddProtocolMetadata(fields: Dict, timeTag: string): (r: Dict)
    ensures Keys(r) == Keys(fields) + {RoleG5Tag, TimeTag}
    ensures Get(r, RoleG5Tag) == "HKP-derived" && Get(r, TimeTag) == timeTag
    ensures forall k :: k in Keys(fields) && k != RoleG5Tag && k != TimeTag ==> Get(r, k) == Get(fields, k)
    ensures RoleG5Tag !in Keys(fields) && TimeTag !in Keys(fields) ==> Len(r) == Len(fields) + 2
  {
    assert RoleG5Tag[0] != TimeTag[0];
    Put(Put(fields, RoleG5Tag, "HKP-derived"), TimeTag, timeTag)
  }

  /** The rule-based cryptor: encrypt, append "Role=Γ5" and "Time=∆τ", sign the
      completed map, and tag the record with role "Γ5" and the time stamp. */
  function RunCryptor(o: Oracles, input: SemanticPromptOut, thetaParams: Option<map<string, real>>,
                      draws: CryptorDraws, timeTag: string): (r: EncryptedOutput)
    requires ValidDraws(draws, Len(input.entities))
    ensures r.roleTag == RoleG5 && r.timeTag == timeTag
    ensures Keys(r.encryptedFields) == Keys(ApplyHkpEncryption(o, input, thetaParams, draws)) + {RoleG5Tag, TimeTag}
    ensures Get(r.encryptedFields, RoleG5Tag) == "HKP-derived"
    ensures Get(r.encryptedFields, TimeTag) == timeTag
    ensures r.popSignature == GeneratePopSignature(o, r.encryptedFields)
  {
    var completed := AddProtocolMetadata(ApplyHkpEncryption(o, input, thetaParams, draws), timeTag);
    EncryptedOutput(completed, RoleG5, GeneratePopSignature(o, completed), timeTag)
  }

  /** Neither metadata tag is among the encrypted fields' tags. */
  lemma {:induction false} MetadataTagsFresh(names: seq<string>)
    ensures RoleG5Tag !in {IntentTag} + EntityTags(names) + {GammaTag, NodeTag}
    ensures TimeTag !in {IntentTag} + EntityTags(names) + {GammaTag, NodeTag}
  {
    assert RoleG5Tag[0] == 'R' && TimeTag[0] == 'T';
    assert IntentTag[0] != 'R' && GammaTag[0] != 'R' && NodeTag[0] != 'R';
    assert IntentTag[0] != 'T' && GammaTag[0] != 'T' && NodeTag[0] != 'T';
    NotAnEntityTag(RoleG5Tag, names);
    NotAnEntityTag(TimeTag, names);
  }

  /** The metadata fields are new: the record keeps every encrypted field and
      holds one entry per entity and five more. */
  lemma {:induction false} RunCryptorKeepsEncryption(o: Oracles, input: SemanticPromptOut, thetaParams: Option<map<string, real>>,
                                  draws: CryptorDraws, timeTag: string)
    requires ValidDraws(draws, Len(input.entities))
    ensures var fields := ApplyHkpEncryption(o, input, thetaParams, draws);
      var r := RunCryptor(o, input, thetaParams, draws, timeTag);
      && Len(r.encryptedFields) == Len(input.entities) + 5
      && forall k :: k in Keys(fields) ==> Get(r.encryptedFields, k) == Get(fields, k)
  {
    var fields := ApplyHkpEncryption(o, input, thetaParams, draws);
    EncryptionLacksMetadata(o, input, thetaParams, draws);
    ApplyHkpEncryptionSize(o, input, thetaParams, draws);
    assert RunCryptor(o, input, thetaParams, draws, timeTag).encryptedFields == AddProtocolMetadata(fields, timeTag);
  }

  lemma {:induction false} EncryptionLacksMetadata(o: Oracles, input: SemanticPromptOut,
                                                   thetaParams: Option<map<string, real>>, draws: CryptorDraws)
    requires ValidDraws(draws, Len(input.entities))
    ensures RoleG5Tag !in Keys(ApplyHkpEncryption(o, input, thetaParams, draws))
    ensures TimeTag !in Keys(ApplyHkpEncryption(o, input, thetaParams, draws))
  {
    MetadataTagsFresh(input.entities.order);
  }

  lemma {:induction false} EntitiesDependOnlyOnCipherStrength(o: Oracles, acc: Dict, entities: Dict, names: seq<string>,
                                                            authLevel: string, t1: map<string, real>, t2: map<string, real>,
                                                            tokens: seq<nat>)
    requires forall k :: k in names ==> k in Keys(entities)
    requires |tokens| == |names| && ValidTokens(tokens)
    requires CipherStrength(t1) == CipherStrength(t2)
    ensures EncryptEntities(o, acc, entities, names, authLevel, t1, tokens)
         == EncryptEntities(o, acc, entities, names, authLevel, t2, tokens)
    decreases |names|
  {
    if names != [] {
      var n := names[0];
      var c := EntityCipher(o, n, Get(entities, n), authLevel, t1, tokens[0]);
      assert c == EntityCipher(o, n, Get(entities, n), authLevel, t2, tokens[0]);
      EntitiesDependOnlyOnCipherStrength(o, Put(acc, EntityPrefix + n, c), entities, names[1..], authLevel, t1, t2, tokens[1..]);
    }
  }

  /** Of the parameters only the cipher strength reaches the ciphertexts: two
      parameter maps that agree on it (or both lack it) encrypt identically. */
  lemma {:induction false} EncryptionDependsOnlyOnCipherStrength(o: Oracles, input: SemanticPromptOut,
                                              t1: map<string, real>, t2: map<string, real>, draws: CryptorDraws)
    requires ValidDraws(draws, Len(input.entities))
    requires CipherStrength(t1) == CipherStrength(t2)
    ensures ApplyHkpEncryption(o, input, Some(t1), draws) == ApplyHkpEncryption(o, input, Some(t2), draws)
  {
    assert IntentEntry(o, input, t1, draws.tokens[0]) == IntentEntry(o, input, t2, draws.tokens[0]);
    EntitiesDependOnlyOnCipherStrength(o, IntentEntry(o, input, t1, draws.tokens[0]), input.entities, input.entities.order,
                                       input.authLevel, t1, t2, draws.tokens[1..]);
  }
}

=== FILE: decryptor.dfy ===
/** The decryptor: a Proof-of-Protocol check that gates everything, then the
    unwrapping of the "βΞ_" fields through a fixed placeholder table, and the
    audit record with its authorisation grade. */
module Decryptor {
  import opened Text
  import opened Dicts
  import opened Primitives
  import opened Tags
  import opened Schemas
  import Json
  import Cryptor

  /** A result, or the `ValueError` the source raises. */
  datatype Outcome<T> = Ok(value: T) | ValueError(message: string)

  /** Recomputes the signature from the fields alone and compares. */
  function VerifyPopSignature(o: Oracles, fields: Dict, expected: string): (ok: bool)
    ensures ok <==> expected == Cryptor.GeneratePopSignature(o, fields)
  {
    HexDigest(o, Json.Dumps(fields), 12) == expected
  }

  /** The parameters every decryption key is derived with, whatever the cryptor used. */
  function DecryptionTheta(): map<string, real> {
    map["entropy" := 0.5, "cipher_strength" := 0.8, "role_decay" := 0.5]
  }

  /** The key for one field: the cryptor's derivation at level "L4" and
      cipher strength 0.8. */
  function DecryptionKey(o: Oracles, fieldName: string): (key: string)
    ensures Cryptor.IsHkpKey(key)
    ensures key[4..] == Digest(o, fieldName + "_L4_" + o.floatStr(0.8))[..8]
  {
    assert fieldName + "_" + "L4" + "_" == fieldName + "_L4_";
    Cryptor.DeriveRoleKey(o, fieldName, "L4", DecryptionTheta())
  }

  /** A decryption key is the key the cryptor used exactly when the request
      carried level "L4" and cipher strength 0.8 (or none). */
  lemma {:induction false} DecryptionKeyMatchesCryptor(o: Oracles, fieldName: string, authLevel: string, theta: map<string, real>)
    requires authLevel == "L4" && Cryptor.CipherStrength(theta) == 0.8
    ensures DecryptionKey(o, fieldName) == Cryptor.DeriveRoleKey(o, fieldName, authLevel, theta)
  {
    assert Cryptor.CipherStrength(DecryptionTheta()) == 0.8;
  }

  /** The six strings `decrypt_field` can return. */
  const IntentPlaceholder: string := "transfer"
  const AmountPlaceholder: string := "75000 USD"
  const ToAccountPlaceholder: string := "7395-8845-2291"
  const FromAccountPlaceholder: string := "1559-6623-4401"
  const AccountPlaceholder: string := "1234-5678-9012-3456"
  const DefaultPlaceholder: string := "default_value"
  const Placeholders: set<string> := {IntentPlaceholder, AmountPlaceholder, ToAccountPlaceholder,
                                      FromAccountPlaceholder, AccountPlaceholder, DefaultPlaceholder}

  predicate IntentCase(value: string, key: string) {
    Contains(value, IntentTag) || Contains(Lower(key), "intent")
  }

  predicate AmountCase(value: string, key: string) {
    Contains(Lower(key), "amount") || Contains(value, AmountTag)
  }

  /** No value is actually decrypted: the result is a placeholder chosen by the
      first of these tests, in order, that holds. */
  function DecryptField(value: string, key: string): (r: string)
    ensures r in Placeholders
    ensures r == IntentPlaceholder <==> IntentCase(value, key)
    ensures r == AmountPlaceholder <==> !IntentCase(value, key) && AmountCase(value, key)
    ensures r == ToAccountPlaceholder <==>
      !IntentCase(value, key) && !AmountCase(value, key) && Contains(Lower(key), "account") && Contains(Lower(key), "to")
    ensures r == FromAccountPlaceholder <==>
      !IntentCase(value, key) && !AmountCase(value, key) && Contains(Lower(key), "account")
      && !Contains(Lower(key), "to") && Contains(Lower(key), "from")
    ensures r == DefaultPlaceholder <==>
      !IntentCase(value, key) && !AmountCase(value, key) && !Contains(Lower(key), "account")
  {
    var k := Lower(key);
    ContainsPrefix(k, "to", "_account");
    ContainsPrefix(k, "from", "_account");
    assert "to" + "_account" == "to_account" && "from" + "_account" == "from_account";
    if Contains(value, IntentTag) || Contains(k, "intent") then IntentPlaceholder
    else if Contains(k, "amount") || Contains(value, AmountTag) then AmountPlaceholder
    else if Contains(k, "account") then
      if Contains(k, "to") || Contains(k, "to_account") then ToAccountPlaceholder
      else if Contains(k, "from") || Contains(k, "from_account") then FromAccountPlaceholder
      else AccountPlaceholder
    else DefaultPlaceholder
  }

  /** The characters of a lower-cased derived key: "hkp_" and lowercase hex digits. */
  const KeyAlphabet: set<char> := {'h', 'k', 'p', '_', '0', '1', '2', '3', '4', '5', '6', '7', '8', '9',
                                   'a', 'b', 'c', 'd', 'e', 'f'}

  lemma {:induction false} LowerKeyAlphabet(key: string)
    requires Cryptor.IsHkpKey(key)
    ensures Over(Lower(key), KeyAlphabet)
  {
    forall i | 0 <= i < |key| ensures Lower(key)[i] in KeyAlphabet {
      if i >= 4 {
        assert key[i] == key[4..][i - 4];
      } else {
        assert key[i] == "HKP_"[i];
      }
    }
  }

  /** A derived key never mentions a field name: the key tests never fire, and
      the result depends on the value alone. */
  lemma {:induction false} DerivedKeyDecrypt(value: string, key: string)
    requires Cryptor.IsHkpKey(key)
    ensures DecryptField(value, key) ==
      if Contains(value, IntentTag) then IntentPlaceholder
      else if Contains(value, AmountTag) then AmountPlaceholder
      else DefaultPlaceholder
  {
    LowerKeyAlphabet(key);
    AbsentOutsideAlphabet(Lower(key), "intent", KeyAlphabet, 0);
    AbsentOutsideAlphabet(Lower(key), "amount", KeyAlphabet, 1);
    AbsentOutsideAlphabet(Lower(key), "account", KeyAlphabet, 3);
  }

  /** The characters of a ciphertext: hex digits of both cases and "_". */
  const CipherAlphabet: set<char> := {'_', '0', '1', '2', '3', '4', '5', '6', '7', '8', '9',
                                      'a', 'b', 'c', 'd', 'e', 'f', 'A', 'B', 'C', 'D', 'E', 'F'}

  lemma {:induction false} CipherTextAlphabet(c: string)
    requires Cryptor.IsCipherText(c)
    ensures Over(c, CipherAlphabet)
  {
    forall i | 0 <= i < |c| ensures c[i] in CipherAlphabet {
      if i < 4 {
        assert c[i] == c[..4][i];
      } else if i > 4 {
        assert c[i] == c[5..][i - 5];
      }
    }
  }

  /** A ciphertext the cryptor produced decrypts, under any derived key, to
      "default_value": it contains neither "Ωα" nor "βΞ_amount". */
  lemma {:induction false} CipherTextDecryptsToDefault(c: string, key: string)
    requires Cryptor.IsCipherText(c) && Cryptor.IsHkpKey(key)
    ensures DecryptField(c, key) == DefaultPlaceholder
  {
    DerivedKeyDecrypt(c, key);
    CipherTextAlphabet(c);
    AbsentOutsideAlphabet(c, IntentTag, CipherAlphabet, 0);
    AbsentOutsideAlphabet(c, AmountTag, CipherAlphabet, 0);
  }

  /** `field_name[4:]`: the entity name read back from a field name. The prefix
      "βΞ_" is three characters long, so the slice also drops the entity name's
      first character: "βΞ_amount" yields "mount". */
  function RecoveredName(fieldName: string): (name: string)
    ensures StartsWith(fieldName, EntityPrefix) && |fieldName| > |EntityPrefix| ==>
      fieldName == EntityPrefix + [fieldName[3]] + name
    ensures forall e :: fieldName == EntityPrefix + e ==> name == SliceFrom(e, 1)
  {
    SliceFrom(fieldName, 4)
  }

  /** The recovered names of the "βΞ_" fields among `names`. */
  function RecoveredNames(names: seq<string>): set<string> {
    if names == [] then {}
    else if StartsWith(names[0], EntityPrefix) then {RecoveredName(names[0])} + RecoveredNames(names[1..])
    else RecoveredNames(names[1..])
  }

  /** Every "βΞ_" field in the list contributes its recovered name. */
  lemma {:induction false} RecoveredNamesHold(names: seq<string>, f: string)
    requires f in names && StartsWith(f, EntityPrefix)
    ensures RecoveredName(f) in RecoveredNames(names)
  {
    if names[0] != f {
      RecoveredNamesHold(names[1..], f);
    }
  }

  /** The loop over `encrypted_fields.items()`: every "βΞ_" field is decrypted
      under the key of its recovered name and stored under that name; a later
      field with the same recovered name overwrites an earlier one. */
  function DecryptEntities(o: Oracles, acc: Dict, fields: Dict, names: seq<string>): (r: Dict)
    requires forall k :: k in names ==> k in Keys(fields)
    ensures Keys(r) == Keys(acc) + RecoveredNames(names)
    decreases |names|
  {
    if names == [] then acc
    else
      var n := names[0];
      var next :=
        if StartsWith(n, EntityPrefix) then
          var name := RecoveredName(n);
          Put(acc, name, DecryptField(Get(fields, n), DecryptionKey(o, name)))
        else acc;
      DecryptEntities(o, next, fields, names[1..])
  }

  /** The decrypted intent, or "transfer" when there is no "Ωα" field. */
  function DecryptIntent(o: Oracles, fields: Dict): (r: Dict)
    ensures Keys(r) == {"intent"}
  {
    if IntentTag in Keys(fields) then Put(Empty, "intent", DecryptField(Get(fields, IntentTag), DecryptionKey(o, "intent")))
    else Put(Empty, "intent", IntentPlaceholder)
  }

  /** `decrypt_hkp_fields`: "intent" first, then one entry per recovered name.
      The role tag is accepted and never read. */
  function DecryptHkpFields(o: Oracles, fields: Dict, roleTag: string): (r: Dict)
    ensures Keys(r) == {"intent"} + RecoveredNames(fields.order)
  {
    DecryptEntities(o, DecryptIntent(o, fields), fields, fields.order)
  }

  /** Every decrypted value is one of the six placeholders. */
  lemma {:induction false} DecryptedValuesArePlaceholders(o: Oracles, acc: Dict, fields: Dict, names: seq<string>, k: string)
    requires forall k :: k in names ==> k in Keys(fields)
    requires k in Keys(DecryptEntities(o, acc, fields, names)) && k !in Keys(acc)
    ensures Get(DecryptEntities(o, acc, fields, names), k) in Placeholders
    decreases |names|
  {
    var n := names[0];
    if StartsWith(n, EntityPrefix) && RecoveredName(n) == k {
      var next := Put(acc, k, DecryptField(Get(fields, n), DecryptionKey(o, k)));
      assert Get(next, k) in Placeholders;
      PlaceholdersStay(o, next, fields, names[1..], k);
    } else {
      var next :=
        if StartsWith(n, EntityPrefix) then
          Put(acc, RecoveredName(n), DecryptField(Get(fields, n), DecryptionKey(o, RecoveredName(n))))
        else acc;
      assert k !in Keys(next);
      DecryptedValuesArePlaceholders(o, next, fields, names[1..], k);
    }
  }

  /** Once a placeholder, always a placeholder. */
  lemma {:induction false} PlaceholdersStay(o: Oracles, acc: Dict, fields: Dict, names: seq<string>, k: string)
    requires forall k :: k in names ==> k in Keys(fields)
    requires k in Keys(acc)
    requires Get(acc, k) in Placeholders
    ensures Get(DecryptEntities(o, acc, fields, names), k) in Placeholders
    decreases |names|
  {
    if names != [] {
      var n := names[0];
      var next :=
        if StartsWith(n, EntityPrefix) then
          Put(acc, RecoveredName(n), DecryptField(Get(fields, n), DecryptionKey(o, RecoveredName(n))))
        else acc;
      PlaceholdersStay(o, next, fields, names[1..], k);
    }
  }

  /** Whatever the fields hold, every decrypted value is one of the six placeholders. */
  lemma {:induction false} DecryptHkpFieldsPlaceholders(o: Oracles, fields: Dict, roleTag: string, k: string)
    requires k in Keys(DecryptHkpFields(o, fields, roleTag))
    ensures Get(DecryptHkpFields(o, fields, roleTag), k) in Placeholders
  {
    var start := DecryptIntent(o, fields);
    if k in Keys(start) {
      PlaceholdersStay(o, start, fields, fields.order, k);
    } else {
      DecryptedValuesArePlaceholders(o, start, fields, fields.order, k);
    }
  }

  /** Decryption reads the fields only at the "βΞ_" names. */
  lemma {:induction false} DecryptEntitiesReadsEntityFields(o: Oracles, acc: Dict, f1: Dict, f2: Dict, names: seq<string>)
    requires forall k :: k in names ==> k in Keys(f1) && k in Keys(f2)
    requires forall k :: k in names && StartsWith(k, EntityPrefix) ==> Get(f1, k) == Get(f2, k)
    ensures DecryptEntities(o, acc, f1, names) == DecryptEntities(o, acc, f2, names)
    decreases |names|
  {
    if names != [] {
      var n := names[0];
      var next :=
        if StartsWith(n, EntityPrefix) then
          Put(acc, RecoveredName(n), DecryptField(Get(f1, n), DecryptionKey(o, RecoveredName(n))))
        else acc;
      DecryptEntitiesReadsEntityFields(o, next, f1, f2, names[1..]);
    }
  }

  /** A trailing field that is no "βΞ_" field adds nothing. */
  lemma {:induction false} DecryptEntitiesSkipsTail(o: Oracles, acc: Dict, fields: Dict, names: seq<string>, k: string)
    requires forall j :: j in names + [k] ==> j in Keys(fields)
    requires !StartsWith(k, EntityPrefix)
    ensures DecryptEntities(o, acc, fields, names + [k]) == DecryptEntities(o, acc, fields, names)
    decreases |names|
  {
    if names == [] {
      assert ([] + [k])[1..] == [];
    } else {
      assert (names + [k])[1..] == names[1..] + [k];
      var n := names[0];
      var next :=
        if StartsWith(n, EntityPrefix) then
          Put(acc, RecoveredName(n), DecryptField(Get(fields, n), DecryptionKey(o, RecoveredName(n))))
        else acc;
      DecryptEntitiesSkipsTail(o, next, fields, names[1..], k);
    }
  }

  /** Only "Ωα" and the "βΞ_" fields are read: setting any other field, new or
      old, leaves the decrypted fields as they were. */
  lemma {:induction false} DecryptIgnoresOtherFields(o: Oracles, fields: Dict, roleTag: string, k: string, v: string)
    requires k != IntentTag && !StartsWith(k, EntityPrefix)
    ensures DecryptHkpFields(o, Put(fields, k, v), roleTag) == DecryptHkpFields(o, fields, roleTag)
  {
    var g := Put(fields, k, v);
    assert DecryptIntent(o, g) == DecryptIntent(o, fields);
    var start := DecryptIntent(o, fields);
    if k in Keys(fields) {
      DecryptEntitiesReadsEntityFields(o, start, g, fields, fields.order);
    } else {
      DecryptEntitiesReadsEntityFields(o, start, g, fields, fields.order);
      DecryptEntitiesSkipsTail(o, start, g, fields.order, k);
    }
  }

  /** `inp.role_tag[-1]` made a grade when it is one of 1..5, "Level-4" otherwise. */
  function AuthGrade(roleTag: string): (g: string)
    ensures g in {"Level-1", "Level-2", "Level-3", "Level-4", "Level-5"}
    ensures roleTag != [] && '1' <= roleTag[|roleTag| - 1] <= '5' ==> g == "Level-" + [roleTag[|roleTag| - 1]]
    ensures roleTag == [] || !('1' <= roleTag[|roleTag| - 1] <= '5') ==> g == "Level-4"
  {
    if roleTag != [] && '1' <= roleTag[|roleTag| - 1] <= '5' then
      var c := roleTag[|roleTag| - 1];
      assert c == '1' || c == '2' || c == '3' || c == '4' || c == '5';
      assert "Level-" + ['1'] == "Level-1" && "Level-" + ['2'] == "Level-2" && "Level-" + ['3'] == "Level-3";
      assert "Level-" + ['4'] == "Level-4" && "Level-" + ['5'] == "Level-5";
      "Level-" + [c]
    else "Level-4"
  }

  /** The rule-based decryptor. A record whose signature does not match its
      fields is refused before any field is read; otherwise the intent is
      reported as "transfer" whatever was decrypted, the decrypted "intent" entry
      is dropped from the entities, and the record is queued. */
  function RunDecryptor(o: Oracles, inp: EncryptedOutput): (r: Outcome<DecryptedFieldsOut>)
    ensures r.ValueError? <==> inp.popSignature != Cryptor.GeneratePopSignature(o, inp.encryptedFields)
    ensures r.ValueError? ==> r.message == "Invalid Proof-of-Protocol signature"
    ensures r.Ok? ==> && r.value.intent == IntentPlaceholder
                      && Keys(r.value.entities) == RecoveredNames(inp.encryptedFields.order) - {"intent"}
                      && r.value.authGrade == AuthGrade(inp.roleTag)
                      && r.value.timeIssued == inp.timeTag
                      && r.value.execStatus == "queued"
  {
    if !VerifyPopSignature(o, inp.encryptedFields, inp.popSignature) then
      ValueError("Invalid Proof-of-Protocol signature")
    else
      var decrypted := DecryptHkpFields(o, inp.encryptedFields, inp.roleTag);
      Ok(DecryptedFieldsOut(IntentPlaceholder, Remove(decrypted, "intent"), AuthGrade(inp.roleTag), inp.timeTag, "queued"))
  }

  /** The role and time tags never decide whether a record is refused. */
  lemma {:induction false} VerificationIgnoresTags(o: Oracles, inp: EncryptedOutput, roleTag: string, timeTag: string)
    ensures RunDecryptor(o, inp).Ok? == RunDecryptor(o, inp.(roleTag := roleTag, timeTag := timeTag)).Ok?
  {
  }
}

=== FILE: dicts.dfy ===
/** Python dictionaries with string keys and string values. A Python dict
    remembers insertion order, and the agents depend on that order (it decides
    the order in which fields are encrypted and decrypted), so a dict is
    modelled as its key list in insertion order together with the mapping
    itself. Assignment to an existing key keeps its position; a new key goes
    last, as in Python. */
module Dicts {

  /** No element occurs twice. */
  predicate Distinct(s: seq<string>) {
    forall i, j :: 0 <= i < j < |s| ==> s[i] != s[j]
  }

  /** A list without repetitions: its head is not in its tail, which is again without repetitions. */
  lemma {:induction false} DistinctTail(s: seq<string>)
    requires Distinct(s) && s != []
    ensures s[0] !in s[1..] && Distinct(s[1..])
  {
    assert forall i :: 0 <= i < |s| - 1 ==> s[1..][i] == s[i + 1];
  }

  /** The key list and the mapping of a dict. */
  datatype Entries = Entries(order: seq<string>, values: map<string, string>)

  /** The key list holds every key of the mapping exactly once. */
  predicate WellFormed(e: Entries) {
    && Distinct(e.order)
    && (forall k :: k in e.values ==> k in e.order)
    && (forall k :: k in e.order ==> k in e.values)
  }

  type Dict = e: Entries | WellFormed(e) witness Entries([], map[])

  /** `{}` */
  const Empty: Dict := Entries([], map[])

  /** `d.keys()` as a set. */
  function Keys(d: Dict): set<string> {
    d.values.Keys
  }

  /** `len(d)` */
  function Len(d: Dict): nat {
    |d.order|
  }

  /** `d[k]` */
  function Get(d: Dict, k: string): string
    requires k in Keys(d)
  {
    d.values[k]
  }

  /** `d.get(k, default)` */
  function GetOr(d: Dict, k: string, default: string): string {
    if k in Keys(d) then Get(d, k) else default
  }

  /** `d[k] = v`: an existing entry keeps its position, a new one goes last. */
  function Put(d: Dict, k: string, v: string): (r: Dict)
    ensures Keys(r) == Keys(d) + {k}
    ensures Get(r, k) == v
    ensures forall j :: j in Keys(d) && j != k ==> Get(r, j) == Get(d, j)
    ensures r.order == if k in Keys(d) then d.order else d.order + [k]
  {
    if k in d.values then Entries(d.order, d.values[k := v])
    else Entries(d.order + [k], d.values[k := v])
  }

  /** `s` with every occurrence of `k` dropped, the rest in order. */
  function Without(s: seq<string>, k: string): (r: seq<string>)
    ensures forall j :: j in r <==> j in s && j != k
    ensures Distinct(s) ==> Distinct(r)
  {
    if s == [] then []
    else if s[0] == k then Without(s[1..], k)
    else
      var r := [s[0]] + Without(s[1..], k);
      assert Distinct(s) ==> Distinct(r) by {
        if Distinct(s) {
          assert s[0] !in s[1..];
        }
      }
      r
  }

  /** `{j: v for j, v in d.items() if j != k}` */
  function Remove(d: Dict, k: string): (r: Dict)
    ensures Keys(r) == Keys(d) - {k}
    ensures forall j :: j in Keys(r) ==> Get(r, j) == Get(d, j)
  {
    Entries(Without(d.order, k), d.values - {k})
  }

  /** Two dicts hold the same entries, whatever their insertion order. */
  predicate SameEntries(d: Dict, e: Dict) {
    d.values == e.values
  }

  /** `len(d)` is the number of keys. */
  lemma {:induction false} LenIsKeyCount(d: Dict)
    ensures Len(d) == |Keys(d)|
  {
    DistinctCount(d.order);
    assert Elems(d.order) == Keys(d);
  }

  /** The elements of a key list. */
  function Elems(s: seq<string>): set<string> {
    set x | x in s
  }

  lemma {:induction false} DistinctCount(s: seq<string>)
    requires Distinct(s)
    ensures |Elems(s)| == |s|
  {
    if s != [] {
      DistinctCount(s[1..]);
      assert Elems(s) == {s[0]} + Elems(s[1..]);
      assert s[0] !in Elems(s[1..]);
    }
  }

  /* ---------- Key order: Python's `<` on str and `sorted` ---------- */

  /** Python's `a < b` on strings: lexicographic by code point, a proper prefix first. */
  predicate Below(a: string, b: string) {
    if a == [] then b != []
    else if b == [] then false
    else if a[0] == b[0] then Below(a[1..], b[1..])
    else a[0] < b[0]
  }

  lemma {:induction false} BelowIrreflexive(a: string)
    ensures !Below(a, a)
  {
    if a != [] {
      BelowIrreflexive(a[1..]);
    }
  }

  lemma {:induction false} BelowTransitive(a: string, b: string, c: string)
    requires Below(a, b) && Below(b, c)
    ensures Below(a, c)
  {
    if a != [] && b != [] && c != [] && a[0] == b[0] && b[0] == c[0] {
      BelowTransitive(a[1..], b[1..], c[1..]);
    }
  }

  lemma {:induction false} BelowTotal(a: string, b: string)
    requires a != b
    ensures Below(a, b) || Below(b, a)
  {
    if a != [] && b != [] && a[0] == b[0] {
      assert a == [a[0]] + a[1..] && b == [b[0]] + b[1..];
      BelowTotal(a[1..], b[1..]);
    }
  }

  lemma {:induction false} BelowAsymmetric(a: string, b: string)
    requires Below(a, b)
    ensures !Below(b, a)
  {
    if Below(b, a) {
      BelowTransitive(a, b, a);
      BelowIrreflexive(a);
    }
  }

  predicate StrictlySorted(s: seq<string>) {
    forall i, j :: 0 <= i < j < |s| ==> Below(s[i], s[j])
  }

  /** Insert `k` into a sorted list of keys. */
  function Insert(k: string, s: seq<string>): (r: seq<string>)
    ensures |r| == |s| + 1
    ensures Elems(r) == Elems(s) + {k}
    ensures StrictlySorted(s) && k !in s ==> StrictlySorted(r)
  {
    if s == [] then [k]
    else if Below(k, s[0]) then
      var r := [k] + s;
      assert StrictlySorted(s) ==> StrictlySorted(r) by {
        if StrictlySorted(s) {
          forall i, j | 0 <= i < j < |r| ensures Below(r[i], r[j]) {
            if i == 0 && j > 1 {
              BelowTransitive(k, s[0], s[j - 1]);
            }
          }
        }
      }
      r
    else
      var t := Insert(k, s[1..]);
      var r := [s[0]] + t;
      assert Elems(r) == {s[0]} + Elems(t);
      assert Elems(s) == {s[0]} + Elems(s[1..]) by { assert s == [s[0]] + s[1..]; }
      assert StrictlySorted(s) && k !in s ==> StrictlySorted(r) by {
        if StrictlySorted(s) && k !in s {
          assert StrictlySorted(s[1..]);
          assert k != s[0];
          BelowTotal(k, s[0]);
          forall j | 0 <= j < |t| ensures Below(s[0], t[j]) {
            assert t[j] in Elems(s[1..]) + {k};
          }
        }
      }
      r
  }

  /** Python `sorted(ks)`. */
  function Sort(ks: seq<string>): (r: seq<string>)
    ensures |r| == |ks|
    ensures Elems(r) == Elems(ks)
    ensures Distinct(ks) ==> StrictlySorted(r)
  {
    if ks == [] then []
    else
      var t := Sort(ks[1..]);
      assert ks[0] !in ks[1..] ==> ks[0] !in t by {
        assert ks[0] in t ==> ks[0] in Elems(t);
      }
      Insert(ks[0], t)
  }

  /** The keys of `d` in code-point order, as `json.dumps(..., sort_keys=True)` emits them. */
  function SortedKeys(d: Dict): (r: seq<string>)
    ensures Elems(r) == Keys(d)
    ensures StrictlySorted(r)
  {
    Sort(d.order)
  }

  lemma {:induction false} SortedKeysAreKeys(d: Dict)
    ensures forall k :: k in SortedKeys(d) ==> k in Keys(d)
  {
    var ks := SortedKeys(d);
    forall k | k in ks ensures k in Keys(d) { assert k in Elems(ks); }
  }

  /** Two strictly sorted lists with the same elements are the same list. */
  lemma {:induction false} SortedWithSameElementsEqual(a: seq<string>, b: seq<string>)
    requires StrictlySorted(a) && StrictlySorted(b)
    requires Elems(a) == Elems(b)
    ensures a == b
  {
    if a != [] {
      assert a[0] in Elems(a);
    }
    if b != [] {
      assert b[0] in Elems(b);
    }
    if a != [] && b != [] {
      assert a[0] in Elems(b);
      assert b[0] in Elems(a);
      if a[0] != b[0] {
        var i :| 0 <= i < |b| && b[i] == a[0];
        var j :| 0 <= j < |a| && a[j] == b[0];
        assert Below(b[0], a[0]);
        assert Below(a[0], b[0]);
        BelowAsymmetric(a[0], b[0]);
      }
      forall x | x in a[1..] ensures x in b[1..] {
        var i :| 1 <= i < |a| && a[i] == x;
        assert Below(a[0], x);
        BelowIrreflexive(x);
        assert x in Elems(b);
      }
      forall x | x in b[1..] ensures x in a[1..] {
        var i :| 1 <= i < |b| && b[i] == x;
        assert Below(b[0], x);
        BelowIrreflexive(x);
        assert x in Elems(a);
      }
      assert Elems(a[1..]) == Elems(b[1..]);
      SortedWithSameElementsEqual(a[1..], b[1..]);
      assert a == [a[0]] + a[1..] && b == [b[0]] + b[1..];
    }
  }

  /** The sorted key list depends only on the key set, never on insertion order. */
  lemma {:induction false} SortedKeysCanonical(d: Dict, e: Dict)
    requires Keys(d) == Keys(e)
    ensures SortedKeys(d) == SortedKeys(e)
  {
    SortedWithSameElementsEqual(SortedKeys(d), SortedKeys(e));
  }
}

=== FILE: json.dfy ===
/** `json.dumps(d, sort_keys=True)` for a dict of strings, with Python's
    defaults: `ensure_ascii=True` and the separators ", " and ": ". */
module Json {
  import opened Text
  import opened Dicts

  predicate IsPrintableAscii(c: char) { ' ' <= c <= '~' }

  predicate AllPrintableAscii(s: string) { forall i :: 0 <= i < |s| ==> IsPrintableAscii(s[i]) }

  /** One character inside a JSON string literal. Printable ASCII other than the
      quote and the backslash stands for itself; the five control characters with
      short escapes use them; everything else becomes `\uXXXX`, and a character
      beyond the Basic Multilingual Plane becomes a UTF-16 surrogate pair. */
  function EscapeChar(c: char): (r: string)
    ensures AllPrintableAscii(r)
  {
    if c == '\\' then "\\\\"
    else if c == '"' then "\\\""
    else if IsPrintableAscii(c) then [c]
    else if c == '\U{8}' then "\\b"
    else if c == '\U{c}' then "\\f"
    else if c == '\n' then "\\n"
    else if c == '\r' then "\\r"
    else if c == '\t' then "\\t"
    else if c as int < 0x10000 then "\\u" + Hex4(c as int, false)
    else
      var n := c as int - 0x10000;
      "\\u" + Hex4(0xD800 + n / 0x400, false) + "\\u" + Hex4(0xDC00 + n % 0x400, false)
  }

  /** The body of a JSON string literal. */
  function Escape(s: string): (r: string)
    ensures AllPrintableAscii(r)
  {
    if s == [] then "" else EscapeChar(s[0]) + Escape(s[1..])
  }

  /** `"key": "value"`. */
  function Item(d: Dict, k: string): (r: string)
    requires k in Keys(d)
    ensures AllPrintableAscii(r)
  {
    "\"" + Escape(k) + "\": \"" + Escape(Get(d, k)) + "\""
  }

  /** The items for the keys `ks`, in that order, separated by ", ". */
  function Items(d: Dict, ks: seq<string>): (r: string)
    requires forall k :: k in ks ==> k in Keys(d)
    ensures AllPrintableAscii(r)
  {
    if ks == [] then ""
    else if |ks| == 1 then Item(d, ks[0])
    else Item(d, ks[0]) + ", " + Items(d, ks[1..])
  }

  /** `json.dumps(d, sort_keys=True)`. */
  function Dumps(d: Dict): (r: string)
    ensures AllPrintableAscii(r)
  {
    SortedKeysAreKeys(d);
    "{" + Items(d, SortedKeys(d)) + "}"
  }

  lemma {:induction false} ItemsSameEntries(d: Dict, e: Dict, ks: seq<string>)
    requires SameEntries(d, e)
    requires forall k :: k in ks ==> k in Keys(d)
    ensures Items(d, ks) == Items(e, ks)
  {
    if |ks| > 1 {
      ItemsSameEntries(d, e, ks[1..]);
    }
  }

  /** The serialisation depends only on a dict's entries: two dicts that hold the
      same entries, inserted in any order, serialise identically. */
  lemma {:induction false} DumpsIgnoresInsertionOrder(d: Dict, e: Dict)
    requires SameEntries(d, e)
    ensures Dumps(d) == Dumps(e)
  {
    SortedKeysCanonical(d, e);
    SortedKeysAreKeys(d);
    ItemsSameEntries(d, e, SortedKeys(d));
  }
}

=== FILE: mimicus.dfy ===
/** The mimic agent's rule-based path: it forges a record that imitates the
    shape of an encrypted record (same obfuscated tags, look-alike values) while
    carrying no information about the real one, plus a vulnerability estimate
    of a decrypted record. The random draws are explicit arguments. */
module Mimicus {
  import opened Text
  import opened Dicts
  import opened Tags
  import opened Schemas
  import Repr

  /** The random draws of one forged record, in the order the source draws
      them. `fakeAmount` and `fakeAccount` are only used when the decrypted
      record has an "amount" or a "to_account" entity. */
  datatype MimicDraws = MimicDraws(
    intentNumber: nat,
    blockM: nat,
    blockZ: nat,
    gammaNumber: nat,
    nodeIndex: nat,
    psiNumber: nat,
    sigmaNumber: nat,
    fakeAmount: nat,
    fakeAccount: seq<nat>,
    day: nat,
    hour: nat,
    minute: nat)

  /** The ranges of `random.randint` and `random.choice` in the source. */
  predicate ValidDraws(d: MimicDraws) {
    && 10 <= d.intentNumber <= 99
    && 1 <= d.blockM <= 9
    && 1 <= d.blockZ <= 9
    && 1 <= d.gammaNumber <= 99
    && d.nodeIndex < |NodeChoices|
    && 50 <= d.psiNumber <= 100
    && 1 <= d.sigmaNumber <= 9
    && 1000 <= d.fakeAmount <= 99999
    && |d.fakeAccount| == 4
    && (forall i :: 0 <= i < 4 ==> 1000 <= d.fakeAccount[i] <= 9999)
    && 1 <= d.day <= 31
    && d.hour <= 23
    && d.minute <= 59
  }

  /** The four node names a forged record picks from. */
  const NodeChoices: seq<string> := ["E23_Kai", "E99_Lam", "E45_Mu", "E67_Nu"]

  /** The role marker value of every forged record. */
  const MimicRole: string := "mimic-derived"

  /** "ZYNQ_∆<n>": a forged intent reading back as the drawn two-digit number. */
  function MimicIntentValue(n: nat): (v: string)
    requires 10 <= n <= 99
    ensures |v| == 8 && v[..6] == MimicIntentPrefix
    ensures AllDigits(v[6..]) && DecimalValue(v[6..]) == n
  {
    var v := MimicIntentPrefix + Decimal(n);
    assert v[6..] == Decimal(n);
    v
  }

  /** "blk_M<m>Z<z>": a forged block whose two digits read back as the draws. */
  function BlockValue(m: nat, z: nat): (v: string)
    requires 1 <= m <= 9 && 1 <= z <= 9
    ensures |v| == 8 && v[..5] == "blk_M" && v[6] == 'Z'
    ensures IsDigit(v[5]) && DigitValue(v[5]) == m
    ensures IsDigit(v[7]) && DigitValue(v[7]) == z
  {
    "blk_M" + Decimal(m) + "Z" + Decimal(z)
  }

  /** "AKR_Ξ<nn>": a forged gamma value with a zero-padded two-digit number. */
  function MimicGammaValue(n: nat): (v: string)
    requires 1 <= n <= 99
    ensures |v| == 7 && v[..5] == MimicGammaPrefix
    ensures AllDigits(v[5..]) && DecimalValue(v[5..]) == n
  {
    var v := MimicGammaPrefix + Pad2(n);
    assert v[5..] == Pad2(n);
    v
  }

  /** "<n>K" */
  function PsiValue(n: nat): (v: string)
    requires 50 <= n <= 100
    ensures 3 <= |v| && v[|v| - 1] == 'K'
    ensures AllDigits(v[..|v| - 1]) && DecimalValue(v[..|v| - 1]) == n
  {
    var v := Decimal(n) + "K";
    assert v[..|v| - 1] == Decimal(n);
    v
  }

  /** "Λ<n>" */
  function SigmaValue(n: nat): (v: string)
    requires 1 <= n <= 9
    ensures |v| == 2 && v[..1] == Lambda
    ensures IsDigit(v[1]) && DigitValue(v[1]) == n
  {
    Lambda + Decimal(n)
  }

  /** In a digit string followed by " USD" the only space is the separator. */
  lemma {:induction false} UnderscoreInAmount(digits: string)
    requires AllDigits(digits)
    ensures ReplaceChar(digits + " USD", ' ', '_') == digits + "_USD"
  {
    var s := digits + " USD";
    var r := ReplaceChar(s, ' ', '_');
    assert forall i :: 0 <= i < |digits| ==> s[i] == digits[i] && IsDigit(s[i]);
    assert forall i :: 0 <= i < |s| ==> r[i] == (digits + "_USD")[i];
  }

  /** `"fake_" + f"{n} USD".replace(' ', '_')`: the space becomes an underscore
      and nothing else changes, since a number has no spaces. */
  function FakeAmountValue(n: nat): (v: string)
    ensures v == "fake_" + Decimal(n) + "_USD"
    ensures forall i :: 0 <= i < |v| ==> v[i] != ' '
  {
    var digits := Decimal(n);
    UnderscoreInAmount(digits);
    "fake_" + ReplaceChar(digits + " USD", ' ', '_')
  }

  /** Four four-digit groups joined by dashes. */
  function AccountNumber(parts: seq<nat>): (v: string)
    requires |parts| == 4
    requires forall i :: 0 <= i < 4 ==> 1000 <= parts[i] <= 9999
    ensures |v| == 19
    ensures v[4] == '-' && v[9] == '-' && v[14] == '-'
    ensures forall g :: 0 <= g < 4 ==> AllDigits(v[5 * g..5 * g + 4]) && DecimalValue(v[5 * g..5 * g + 4]) == parts[g]
  {
    var a, b, c, d := Decimal(parts[0]), Decimal(parts[1]), Decimal(parts[2]), Decimal(parts[3]);
    var v := a + "-" + b + "-" + c + "-" + d;
    assert v[0..4] == a && v[5..9] == b && v[10..14] == c && v[15..19] == d;
    v
  }

  /** "spoof_" followed by a forged account number. */
  function SpoofAccountValue(parts: seq<nat>): (v: string)
    requires |parts| == 4
    requires forall i :: 0 <= i < 4 ==> 1000 <= parts[i] <= 9999
    ensures |v| == 25 && v[..6] == "spoof_" && v[6..] == AccountNumber(parts)
  {
    "spoof_" + AccountNumber(parts)
  }

  /** "2025-07-<dd>T<hh>:<mm>:00Z": a forged issue time in July 2025 whose
      day, hour and minute read back as the draws. */
  function MimicTimeValue(day: nat, hour: nat, minute: nat): (v: string)
    requires 1 <= day <= 31 && hour <= 23 && minute <= 59
    ensures |v| == 20 && v[..8] == "2025-07-" && v[10] == 'T' && v[13] == ':' && v[16..] == ":00Z"
    ensures AllDigits(v[8..10]) && DecimalValue(v[8..10]) == day
    ensures AllDigits(v[11..13]) && DecimalValue(v[11..13]) == hour
    ensures AllDigits(v[14..16]) && DecimalValue(v[14..16]) == minute
  {
    var v := "2025-07-" + Pad2(day) + "T" + Pad2(hour) + ":" + Pad2(minute) + ":00Z";
    assert v[8..10] == Pad2(day) && v[11..13] == Pad2(hour) && v[14..16] == Pad2(minute);
    v
  }

  /** The six forged fields every mimic record starts with. */
  const CoreMimicTags: set<string> := {IntentTag, BlockTag, GammaTag, NodeTag, PsiTag, SigmaTag}

  /** The keys a forged record holds: the six core fields, the two protocol
      markers, and the entity imitations the decrypted record calls for. */
  function MimicKeys(hasAmount: bool, hasToAccount: bool): set<string> {
    CoreMimicTags + {RoleG3Tag, TimeTag}
      + (if hasAmount then {AmountMimicTag} else {})
      + (if hasToAccount then {AccountMimicTag} else {})
  }

  /** An entity imitation is forged exactly when the decrypted record calls
      for it; the protocol markers always are, the genuine role marker never. */
  lemma {:induction false} MimicKeysPresence(hasAmount: bool, hasToAccount: bool)
    ensures AmountMimicTag in MimicKeys(hasAmount, hasToAccount) <==> hasAmount
    ensures AccountMimicTag in MimicKeys(hasAmount, hasToAccount) <==> hasToAccount
    ensures RoleG3Tag in MimicKeys(hasAmount, hasToAccount) && TimeTag in MimicKeys(hasAmount, hasToAccount)
    ensures RoleG5Tag !in MimicKeys(hasAmount, hasToAccount)
  {
    assert AmountMimicTag[0] == AccountMimicTag[0] == BlockTag[0] == '\U{3b2}';
    assert |BlockTag| == 2 && |AmountMimicTag| == 15 && |AccountMimicTag| == 16;
    assert RoleG5Tag[5] == '\U{393}' && RoleG3Tag[6] != RoleG5Tag[6];
    assert IntentTag[0] != '\U{3b2}' && GammaTag[0] != '\U{3b2}' && NodeTag[0] != '\U{3b2}';
    assert PsiTag[0] != '\U{3b2}' && SigmaTag[0] != '\U{3b2}' && RoleG3Tag[0] != '\U{3b2}' && TimeTag[0] != '\U{3b2}';
  }

  /** The forged field names in the order the source assigns them. */
  function MimicOrder(hasAmount: bool, hasToAccount: bool): (s: seq<string>)
    ensures forall k :: k in s <==> k in MimicKeys(hasAmount, hasToAccount)
    ensures |s| == 8 + (if hasAmount then 1 else 0) + (if hasToAccount then 1 else 0)
  {
    [IntentTag, BlockTag, GammaTag, NodeTag, PsiTag, SigmaTag]
      + (if hasAmount then [AmountMimicTag] else [])
      + (if hasToAccount then [AccountMimicTag] else [])
      + [RoleG3Tag, TimeTag]
  }

  /** No forged field is assigned twice: the names differ in their first
      character, except the block field and the two entity imitations, which
      differ in length. */
  lemma {:induction false} MimicOrderDistinct(hasAmount: bool, hasToAccount: bool)
    ensures Distinct(MimicOrder(hasAmount, hasToAccount))
  {
    var s := MimicOrder(hasAmount, hasToAccount);
    forall i, j | 0 <= i < j < |s| ensures s[i] != s[j] {
      assert 0 < |s[i]| && 0 < |s[j]|;
      assert s[i][0] != s[j][0] || |s[i]| != |s[j]|;
    }
  }

  /** The values of the fields every forged record has, each rendered from the draws. */
  function FixedMimicValues(d: MimicDraws): (v: map<string, string>)
    requires ValidDraws(d)
    ensures v.Keys == MimicKeys(false, false)
  {
    map[
      IntentTag := MimicIntentValue(d.intentNumber),
      BlockTag := BlockValue(d.blockM, d.blockZ),
      GammaTag := MimicGammaValue(d.gammaNumber),
      NodeTag := NodeChoices[d.nodeIndex],
      PsiTag := PsiValue(d.psiNumber),
      SigmaTag := SigmaValue(d.sigmaNumber),
      RoleG3Tag := MimicRole,
      TimeTag := MimicTimeValue(d.day, d.hour, d.minute)]
  }

  /** The value of every forged field, the entity imitations included. */
  function MimicValues(hasAmount: bool, hasToAccount: bool, d: MimicDraws): (v: map<string, string>)
    requires ValidDraws(d)
    ensures v.Keys == MimicKeys(hasAmount, hasToAccount)
  {
    var fixed := FixedMimicValues(d);
    var withAmount := if hasAmount then fixed[AmountMimicTag := FakeAmountValue(d.fakeAmount)] else fixed;
    if hasToAccount then withAmount[AccountMimicTag := SpoofAccountValue(d.fakeAccount)] else withAmount
  }

  /** `generate_mimic_fields`: the forged record, the dict that the source's
      successive assignments to fresh keys build. It depends on the decrypted
      record only through whether it has an "amount" and a "to_account" entity;
      every value comes from the draws. */
  function GenerateMimicFields(input: DecryptedFieldsOut, d: MimicDraws): (r: Dict)
    requires ValidDraws(d)
    ensures Keys(r) == MimicKeys("amount" in Keys(input.entities), "to_account" in Keys(input.entities))
    ensures r.order == MimicOrder("amount" in Keys(input.entities), "to_account" in Keys(input.entities))
    ensures r.values == MimicValues("amount" in Keys(input.entities), "to_account" in Keys(input.entities), d)
  {
    var hasAmount := "amount" in Keys(input.entities);
    var hasToAccount := "to_account" in Keys(input.entities);
    var e := Entries(MimicOrder(hasAmount, hasToAccount), MimicValues(hasAmount, hasToAccount, d));
    MimicOrderDistinct(hasAmount, hasToAccount);
    assert WellFormed(e);
    e
  }

  /** Python `"account" in str(entities).lower()`: the word occurs in the
      lower-cased text of the dict, quotes and escapes included. Lower-casing
      is on ASCII letters; no other character lower-cases to a letter of the
      word. `wide` is Python's printability of characters from U+0100 on. */
  predicate MentionsAccount(entities: Dict, wide: char -> bool) {
    Contains(Lower(Repr.ReprDict(entities, wide)), "account")
  }

  /** When `repr` writes every key and value as it is, the dict mentions
      "account" exactly when one of its keys or values does. */
  lemma {:induction false} PlainEntitiesMentionAccount(entities: Dict, wide: char -> bool)
    requires forall k :: k in Keys(entities) ==> Repr.AllPlain(k, wide) && Repr.AllPlain(Get(entities, k), wide)
    ensures MentionsAccount(entities, wide) <==>
      exists k :: k in Keys(entities) && (Contains(Lower(k), "account") || Contains(Lower(Get(entities, k)), "account"))
  {
    Repr.ReprDictMentions(entities, wide, "account");
  }

  /** Lower-casing keeps a mention of "account". */
  lemma {:induction false} LowerKeepsAccount(a: string, b: string)
    ensures Contains(Lower(a + "account" + b), "account")
  {
    LowerConcat(a, "account");
    LowerConcat(a + "account", b);
    assert Lower("account") == "account";
    ContainsMiddle(Lower(a), "account", Lower(b));
  }

  /** `repr` writes the control character U+001A as `\x1a`. */
  lemma {:induction false} ControlCharEscape(wide: char -> bool)
    ensures Repr.EscapeChar(0x1a as char, '\'', wide) == "\\x1a"
  {
    assert HexDigits(0x1a, 2, false) == "1a";
  }

  lemma {:induction false} ControlKeyQuote()
    ensures Repr.QuoteFor([0x1a as char] + "ccount") == '\''
  {
    var key := [0x1a as char] + "ccount";
    assert forall i :: 0 <= i < |key| ==> key[i] != '\'';
  }

  lemma {:induction false} PlainCcount(wide: char -> bool)
    ensures Repr.EscapeBody("ccount", '\'', wide) == "ccount"
  {
    assert Repr.AllPlain("ccount", wide);
    Repr.EscapePlainBody("ccount", '\'', wide);
  }

  /** The key made of U+001A and "ccount" is written `'\x1account'`. */
  lemma {:induction false} ControlKeyRepr(wide: char -> bool)
    ensures Repr.ReprStr([0x1a as char] + "ccount", wide) == "'\\x1" + "account" + "'"
  {
    var key := [0x1a as char] + "ccount";
    ControlKeyQuote();
    ControlCharEscape(wide);
    PlainCcount(wide);
    assert key[0] == 0x1a as char && key[1..] == "ccount";
    assert Repr.EscapeBody(key, '\'', wide) == "\\x1a" + "ccount";
    EscapedKeySpelling();
  }

  lemma {:induction false} EscapedKeySpelling()
    ensures ['\''] + ("\\x1a" + "ccount") + ['\''] == "'\\x1" + "account" + "'"
  {
  }

  /** A one-item dict text around a key text `a + w + b`, regrouped around `w`. */
  lemma {:induction false} ItemAroundWord(a: string, w: string, b: string, v: string)
    ensures "{" + (a + w + b) + ": " + v + "}" == ("{" + a) + w + (b + ": " + v + "}")
  {
  }

  /** The dict holding the single entry `key: "x"`. */
  function SingleEntry(key: string): (d: Dict)
    ensures d.order == [key] && Keys(d) == {key} && Get(d, key) == "x"
  {
    Entries([key], map[key := "x"])
  }

  /** A dict of one entry whose key is written around "account" mentions it. */
  lemma {:induction false} KeyWrittenAroundAccount(d: Dict, a: string, b: string, wide: char -> bool)
    requires |d.order| == 1
    requires Repr.ReprStr(d.order[0], wide) == a + "account" + b
    ensures MentionsAccount(d, wide)
  {
    var v := Repr.ReprStr(Get(d, d.order[0]), wide);
    Repr.ReprSingle(d, wide);
    ItemAroundWord(a, "account", b, v);
    LowerKeepsAccount("{" + a, b + ": " + v + "}");
  }

  /** An escape can complete the word: a key made of the control character
      U+001A and "ccount" is written `'\x1account'`, so the dict mentions
      "account" although neither its key nor its value holds the word. */
  lemma {:induction false} EscapeCompletesAccount(wide: char -> bool)
    ensures var key := [0x1a as char] + "ccount";
      && MentionsAccount(SingleEntry(key), wide)
      && !exists k :: k in Keys(SingleEntry(key))
                      && (Contains(Lower(k), "account") || Contains(Lower(Get(SingleEntry(key), k)), "account"))
  {
    var key := [0x1a as char] + "ccount";
    ControlKeyRepr(wide);
    KeyWrittenAroundAccount(SingleEntry(key), "'\\x1", "'", wide);
    ControlKeyLacksAccount();
  }

  /** Neither the key U+001A and "ccount" nor the value "x" holds "account". */
  lemma {:induction false} ControlKeyLacksAccount()
    ensures !Contains(Lower([0x1a as char] + "ccount"), "account")
    ensures !Contains(Lower("x"), "account")
  {
    assert Lower([0x1a as char] + "ccount")[0] == 0x1a as char;
  }

  /** The intents the source treats as predictable financial actions. */
  const PredictableIntents: set<string> := {"transfer", "payment", "send"}

  /** `analyze_mimic_vulnerabilities`: three scores in [0, 1]. Structure
      exposure grows by 0.2 per entity up to 0.8; semantic leakage is 0.6 for an
      amount plus 0.3 for an account mention; pattern predictability is 0.7 for
      the common financial intents. */
  function AnalyzeMimicVulnerabilities(input: DecryptedFieldsOut, wide: char -> bool): (v: map<string, real>)
    ensures v.Keys == {"structure_exposure", "semantic_leakage", "pattern_predictability"}
    ensures forall k :: k in v ==> 0.0 <= v[k] <= 1.0
    ensures v["structure_exposure"] == 0.0 <==> Len(input.entities) == 0
    ensures Len(input.entities) >= 4 ==> v["structure_exposure"] == 0.8
    ensures Len(input.entities) < 4 ==> v["structure_exposure"] == Len(input.entities) as real * 0.2
    ensures v["semantic_leakage"] >= 0.6 <==> "amount" in Keys(input.entities)
    ensures v["semantic_leakage"] in {0.0, 0.3, 0.6, 0.9}
    ensures (v["semantic_leakage"] == 0.3 || v["semantic_leakage"] == 0.9) <==> MentionsAccount(input.entities, wide)
    ensures v["pattern_predictability"] == (if input.intent in PredictableIntents then 0.7 else 0.0)
  {
    var n := Len(input.entities);
    var exposure := if n > 0 then (if 0.8 <= n as real * 0.2 then 0.8 else n as real * 0.2) else 0.0;
    var leakage := (if "amount" in Keys(input.entities) then 0.6 else 0.0)
                 + (if MentionsAccount(input.entities, wide) then 0.3 else 0.0);
    var predictability := if input.intent in PredictableIntents then 0.7 else 0.0;
    map["structure_exposure" := exposure, "semantic_leakage" := leakage, "pattern_predictability" := predictability]
  }

  /** `run_mimicus` on its rule-based path. */
  function RunMimicus(input: DecryptedFieldsOut, d: MimicDraws): (r: MimicOutput)
    requires ValidDraws(d)
    ensures r.spoofStatus == "mimic_attempt"
    ensures Keys(r.mimicFields) == MimicKeys("amount" in Keys(input.entities), "to_account" in Keys(input.entities))
    ensures r.mimicFields.values == MimicValues("amount" in Keys(input.entities), "to_account" in Keys(input.entities), d)
  {
    MimicOutput(GenerateMimicFields(input, d), "mimic_attempt")
  }
}

=== FILE: pipeline.dfy ===
/** The six agents chained as the main pipeline chains them: prompter,
    cryptor, decryptor, mimic, prober, calibrator, and then a second pass from
    the cryptor on, under the parameters the calibrator proposed. Randomness,
    the clock and the hash function are arguments, one set of draws per pass. */
module Pipeline {
  import opened Text
  import opened Dicts
  import opened Tags
  import opened Primitives
  import opened Schemas
  import Prompter
  import Cryptor
  import Decryptor
  import Mimicus
  import Probator
  import Praeceptor

  /** The draws of one pass: the cryptor's tokens and decoy suffixes, its time
      tag, the mimic's numbers and the prober's two uniform draws. */
  datatype PassDraws = PassDraws(
    cryptor: Cryptor.CryptorDraws,
    timeTag: string,
    mimic: Mimicus.MimicDraws,
    probe: Probator.ProbeDraws)

  predicate ValidPassDraws(d: PassDraws, entityCount: nat) {
    && Cryptor.ValidDraws(d.cryptor, entityCount)
    && Mimicus.ValidDraws(d.mimic)
    && Probator.ValidDraws(d.probe)
  }

  /** What one pass produces, agent by agent. */
  datatype Pass = Pass(
    encrypted: EncryptedOutput,
    decrypted: DecryptedFieldsOut,
    forged: MimicOutput,
    leakage: LeakageVectorOut,
    update: ThetaUpdate)

  /** The field names the cryptor emits: the intent, the two decoys, the
      protocol markers and one "βΞ_" tag per entity. */
  predicate CryptorField(f: string, names: seq<string>) {
    f in {IntentTag, GammaTag, NodeTag, RoleG5Tag, TimeTag} || f in Cryptor.EntityTags(names)
  }

  /** Every entity tag is the prefix followed by one of the names. */
  lemma {:induction false} EntityTagShape(names: seq<string>, f: string)
    requires f in Cryptor.EntityTags(names)
    ensures exists i :: 0 <= i < |names| && f == EntityPrefix + names[i]
  {
    if f != EntityPrefix + names[0] {
      EntityTagShape(names[1..], f);
      var i :| 0 <= i < |names[1..]| && f == EntityPrefix + names[1..][i];
      assert f == EntityPrefix + names[i + 1];
    }
  }

  /** Every name the decryptor reads back from the cryptor's fields is an
      entity name with its first character dropped. */
  lemma {:induction false} RecoveredFromEntity(order: seq<string>, names: seq<string>, x: string)
    requires forall f :: f in order ==> CryptorField(f, names)
    requires x in Decryptor.RecoveredNames(order)
    ensures exists i :: 0 <= i < |names| && x == SliceFrom(names[i], 1)
  {
    var f := order[0];
    assert CryptorField(f, names);
    if StartsWith(f, EntityPrefix) && x == Decryptor.RecoveredName(f) {
      assert f[0] == EntityPrefix[0];
      assert f !in {IntentTag, GammaTag, NodeTag, RoleG5Tag, TimeTag};
      EntityTagShape(names, f);
      var i :| 0 <= i < |names| && f == EntityPrefix + names[i];
      assert x == SliceFrom(names[i], 1);
    } else {
      RecoveredFromEntity(order[1..], names, x);
    }
  }

  /** None of the entity names the prompter can extract reads back, with its
      first character dropped, as "amount" or "to_account". */
  lemma {:induction false} PrompterNamesMisread(e: string)
    requires e in Prompter.EntityKeys
    ensures SliceFrom(e, 1) != "amount" && SliceFrom(e, 1) != "to_account"
    ensures SliceFrom(e, 1) != "intent"
  {
    assert SliceFrom(e, 1) in {"mount", "o_account", "rom_account", "ccount", "estination"};
  }

  /** Every key of a dict whose key set is the cryptor's is one of its fields. */
  lemma {:induction false} OrderedCryptorFields(fields: Dict, names: seq<string>)
    requires Keys(fields) == {IntentTag} + Cryptor.EntityTags(names) + {GammaTag, NodeTag} + {RoleG5Tag, TimeTag}
    ensures forall f :: f in fields.order ==> CryptorField(f, names)
  {
  }

  /** Every field the cryptor emits, in its order, is one of its fields. */
  lemma {:induction false} CryptorFields(o: Oracles, prompt: SemanticPromptOut, theta: Option<map<string, real>>,
                                         draws: Cryptor.CryptorDraws, timeTag: string)
    requires Cryptor.ValidDraws(draws, Len(prompt.entities))
    ensures forall f :: f in Cryptor.RunCryptor(o, prompt, theta, draws, timeTag).encryptedFields.order
                        ==> CryptorField(f, prompt.entities.order)
  {
    var fields := Cryptor.RunCryptor(o, prompt, theta, draws, timeTag).encryptedFields;
    OrderedCryptorFields(fields, prompt.entities.order);
  }

  /** A record decrypted from the cryptor's fields for entities the prompter
      can extract has neither an "amount" nor a "to_account" entity, whatever
      the instruction said: the decryptor's `[4:]` slice drops the first letter
      of every entity name. */
  lemma {:induction false} DecryptedEntitiesMisnamed(o: Oracles, encrypted: EncryptedOutput, names: seq<string>,
                                                     decrypted: DecryptedFieldsOut)
    requires forall f :: f in encrypted.encryptedFields.order ==> CryptorField(f, names)
    requires forall i :: 0 <= i < |names| ==> names[i] in Prompter.EntityKeys
    requires Decryptor.RunDecryptor(o, encrypted) == Decryptor.Ok(decrypted)
    ensures "amount" !in Keys(decrypted.entities) && "to_account" !in Keys(decrypted.entities)
  {
    var order := encrypted.encryptedFields.order;
    assert Keys(decrypted.entities) <= Decryptor.RecoveredNames(order);
    forall x | x in Keys(decrypted.entities) ensures x != "amount" && x != "to_account" {
      RecoveredFromEntity(order, names, x);
      var i :| 0 <= i < |names| && x == SliceFrom(names[i], 1);
      PrompterNamesMisread(names[i]);
    }
  }

  /** The decrypted record has an entity exactly when the instruction gave
      one: every entity the cryptor tagged reads back under a name that is not
      "intent", so the decryptor keeps it, and with no entity tagged no field
      reads back at all. */
  lemma {:induction false} DecryptedEntitiesPresent(o: Oracles, encrypted: EncryptedOutput, names: seq<string>,
                                                    decrypted: DecryptedFieldsOut)
    requires forall f :: f in encrypted.encryptedFields.order ==> CryptorField(f, names)
    requires forall e :: e in names ==> e in Prompter.EntityKeys && EntityPrefix + e in Keys(encrypted.encryptedFields)
    requires Decryptor.RunDecryptor(o, encrypted) == Decryptor.Ok(decrypted)
    ensures Len(decrypted.entities) > 0 <==> names != []
  {
    var order := encrypted.encryptedFields.order;
    if names != [] {
      var f := EntityPrefix + names[0];
      assert f[..|EntityPrefix|] == EntityPrefix;
      Decryptor.RecoveredNamesHold(order, f);
      PrompterNamesMisread(names[0]);
      assert Decryptor.RecoveredName(f) in Keys(decrypted.entities);
    } else if Len(decrypted.entities) > 0 {
      var x := decrypted.entities.order[0];
      assert x in Keys(decrypted.entities);
      RecoveredFromEntity(order, names, x);
    }
  }

  /** Where the checked fields of a plain forgery come from. */
  lemma {:induction false} ForgedFields(md: Mimicus.MimicDraws)
    requires Mimicus.ValidDraws(md)
    ensures var v := Mimicus.MimicValues(false, false, md);
      && IntentTag in v && v[IntentTag] == Mimicus.MimicIntentValue(md.intentNumber)
      && BlockTag in v && v[BlockTag] == Mimicus.BlockValue(md.blockM, md.blockZ)
      && GammaTag in v && v[GammaTag] == Mimicus.MimicGammaValue(md.gammaNumber)
      && NodeTag in v && v[NodeTag] == Mimicus.NodeChoices[md.nodeIndex]
  {
    assert Mimicus.MimicValues(false, false, md) == Mimicus.FixedMimicValues(md);
  }

  /** Each forged value has the shape the prober's pattern check looks for. */
  lemma {:induction false} ForgedValuesMatch(md: Mimicus.MimicDraws)
    requires Mimicus.ValidDraws(md)
    ensures StartsWith(Mimicus.MimicIntentValue(md.intentNumber), "ZYNQ")
    ensures Contains(Mimicus.BlockValue(md.blockM, md.blockZ), "blk_")
    ensures Contains(Mimicus.MimicGammaValue(md.gammaNumber), "AKR_")
    ensures Contains(Mimicus.NodeChoices[md.nodeIndex], "E")
  {
    var intent := Mimicus.MimicIntentValue(md.intentNumber);
    assert intent[..4] == MimicIntentPrefix[..4] == "ZYNQ";
    assert OccursAt(Mimicus.BlockValue(md.blockM, md.blockZ), "blk_", 0);
    var gamma := Mimicus.MimicGammaValue(md.gammaNumber);
    assert gamma[..4] == MimicGammaPrefix[..4] == "AKR_";
    assert OccursAt(gamma, "AKR_", 0);
    assert OccursAt(Mimicus.NodeChoices[md.nodeIndex], "E", 0);
  }

  /** The pattern checks the prober applies all pass on a forged record. */
  lemma {:induction false} ForgeryMatchesPatterns(fields: Dict, md: Mimicus.MimicDraws)
    requires Mimicus.ValidDraws(md)
    requires fields.values == Mimicus.MimicValues(false, false, md)
    ensures Probator.PatternScore(fields) == 1.0
  {
    ForgedFields(md);
    ForgedValuesMatch(md);
  }

  /** A forged record without entity imitations passes every pattern check
      and carries both protocol markers, so the prober finds the structure
      complete, the patterns consistent and no field mapping: the score is
      0.6 + 0.3 * recovery - 0.2 * drift, between 0.47 and 0.66. */
  lemma {:induction false} PlainForgeryScore(forged: MimicOutput, md: Mimicus.MimicDraws, pd: Probator.ProbeDraws)
    requires Mimicus.ValidDraws(md) && Probator.ValidDraws(pd)
    requires Keys(forged.mimicFields) == Mimicus.MimicKeys(false, false)
    requires forged.mimicFields.values == Mimicus.MimicValues(false, false, md)
    ensures var r := Probator.RunProbator(forged, pd);
      && r.leakageScore == 0.6 + 0.3 * pd.entityRecovery - 0.2 * pd.semanticDrift
      && 0.47 <= r.leakageScore <= 0.66
      && r.hkProtection == "active"
  {
    var fields := forged.mimicFields;
    Mimicus.MimicKeysPresence(false, false);
    var keys := Mimicus.MimicKeys(false, false);
    assert IntentTag in keys && BlockTag in keys && GammaTag in keys && NodeTag in keys;
    assert forall k :: k in Probator.ExpectedFields ==> k in Keys(fields);
    ForgeryMatchesPatterns(fields, md);
    var details := Probator.AnalyzeLeakagePatterns(fields, pd);
    assert details[Probator.StructureFidelity] == 1.0;
    assert details[Probator.FieldMappingAccuracy] == 0.0;
    assert Probator.RawLeakageScore(details) == 0.6 + 0.3 * pd.entityRecovery - 0.2 * pd.semanticDrift;
  }

  /** A decrypted record without "amount" and "to_account" entities is
      forged without entity imitations. */
  lemma {:induction false} PlainForgery(decrypted: DecryptedFieldsOut, md: Mimicus.MimicDraws)
    requires Mimicus.ValidDraws(md)
    requires "amount" !in Keys(decrypted.entities) && "to_account" !in Keys(decrypted.entities)
    ensures Keys(Mimicus.RunMimicus(decrypted, md).mimicFields) == Mimicus.MimicKeys(false, false)
    ensures Mimicus.RunMimicus(decrypted, md).mimicFields.values == Mimicus.MimicValues(false, false, md)
  {
  }

  /** A score in [0.47, 0.66] with active protection calls for a middle
      calibration mode and for no feedback. */
  lemma {:induction false} MiddleScoreCalibration(leakage: LeakageVectorOut)
    requires 0.47 <= leakage.leakageScore <= 0.66 && leakage.hkProtection == "active"
    ensures Praeceptor.RunPraeceptor(leakage).mode in {"recalibrate", "aggressive_recalibrate"}
    ensures !Praeceptor.RunPraeceptor(leakage).hkFeedback
  {
    assert Praeceptor.Severity(leakage.leakageScore) in {2, 3};
  }

  /** From a decrypted record without "amount" and "to_account" entities on:
      a plain forgery, a score in [0.47, 0.66], active protection, no feedback,
      and a middle calibration mode. */
  lemma {:induction false} PassAfterMisreadDecryption(decrypted: DecryptedFieldsOut, d: PassDraws)
    requires Mimicus.ValidDraws(d.mimic) && Probator.ValidDraws(d.probe)
    requires "amount" !in Keys(decrypted.entities) && "to_account" !in Keys(decrypted.entities)
    ensures var forged := Mimicus.RunMimicus(decrypted, d.mimic);
      var leakage := Probator.RunProbator(forged, d.probe);
      var update := Praeceptor.RunPraeceptor(leakage);
      && 0.47 <= leakage.leakageScore <= 0.66
      && leakage.hkProtection == "active"
      && !update.hkFeedback
      && update.mode in {"recalibrate", "aggressive_recalibrate"}
  {
    var forged := Mimicus.RunMimicus(decrypted, d.mimic);
    PlainForgery(decrypted, d.mimic);
    PlainForgeryScore(forged, d.mimic, d.probe);
    MiddleScoreCalibration(Probator.RunProbator(forged, d.probe));
  }

  /** Once the decryptor accepts a record the cryptor wrote for entities the
      prompter extracts, the rest of the pass lands in the middle band. */
  lemma {:induction false} PassOnMisreadRecord(o: Oracles, encrypted: EncryptedOutput, entities: Dict,
                                               decrypted: DecryptedFieldsOut, d: PassDraws)
    requires Mimicus.ValidDraws(d.mimic) && Probator.ValidDraws(d.probe)
    requires forall f :: f in encrypted.encryptedFields.order ==> CryptorField(f, entities.order)
    requires Keys(entities) <= Prompter.EntityKeys
    requires Decryptor.RunDecryptor(o, encrypted) == Decryptor.Ok(decrypted)
    ensures var forged := Mimicus.RunMimicus(decrypted, d.mimic);
      var leakage := Probator.RunProbator(forged, d.probe);
      var update := Praeceptor.RunPraeceptor(leakage);
      && 0.47 <= leakage.leakageScore <= 0.66
      && leakage.hkProtection == "active"
      && !update.hkFeedback
      && update.mode in {"recalibrate", "aggressive_recalibrate"}
  {
    var names := entities.order;
    assert forall i :: 0 <= i < |names| ==> names[i] in Prompter.EntityKeys by {
      forall i | 0 <= i < |names| ensures names[i] in Prompter.EntityKeys {
        assert names[i] in Keys(entities);
      }
    }
    DecryptedEntitiesMisnamed(o, encrypted, names, decrypted);
    PassAfterMisreadDecryption(decrypted, d);
  }

  /** The cryptor's role tag "Γ5" grades as level 5. */
  lemma {:induction false} RoleG5Grade()
    ensures Decryptor.AuthGrade(RoleG5) == "Level-5"
  {
    assert RoleG5[|RoleG5| - 1] == '5';
  }

  /** The cryptor's step of a pass: a record with role "Γ5", signed over its
      own fields, every field one the cryptor writes. */
  method Encrypt(o: Oracles, prompt: SemanticPromptOut, theta: Option<map<string, real>>, d: PassDraws)
    returns (encrypted: EncryptedOutput)
    requires ValidPassDraws(d, Len(prompt.entities))
    ensures encrypted == Cryptor.RunCryptor(o, prompt, theta, d.cryptor, d.timeTag)
    ensures encrypted.roleTag == RoleG5
    ensures encrypted.popSignature == Cryptor.GeneratePopSignature(o, encrypted.encryptedFields)
    ensures forall f :: f in encrypted.encryptedFields.order ==> CryptorField(f, prompt.entities.order)
    ensures forall e :: e in prompt.entities.order ==> EntityPrefix + e in Keys(encrypted.encryptedFields)
  {
    encrypted := Cryptor.RunCryptor(o, prompt, theta, d.cryptor, d.timeTag);
    CryptorFields(o, prompt, theta, d.cryptor, d.timeTag);
    forall e | e in prompt.entities.order ensures EntityPrefix + e in Keys(encrypted.encryptedFields) {
      Cryptor.EntityTagMember(prompt.entities.order, e);
    }
  }

  /** A pass from the decryptor on, over a record the cryptor signed and wrote
      for the prompt's entities: the decryptor accepts it, and the mimic, the
      prober and the calibrator run in turn. */
  method Downstream(o: Oracles, prompt: SemanticPromptOut, encrypted: EncryptedOutput, d: PassDraws)
    returns (r: Decryptor.Outcome<Pass>)
    requires Mimicus.ValidDraws(d.mimic) && Probator.ValidDraws(d.probe)
    requires encrypted.roleTag == RoleG5
    requires encrypted.popSignature == Cryptor.GeneratePopSignature(o, encrypted.encryptedFields)
    requires forall f :: f in encrypted.encryptedFields.order ==> CryptorField(f, prompt.entities.order)
    ensures r.Ok? && r.value.encrypted == encrypted
    ensures Decryptor.RunDecryptor(o, encrypted) == Decryptor.Ok(r.value.decrypted)
    ensures r.value.forged == Mimicus.RunMimicus(r.value.decrypted, d.mimic)
    ensures r.value.leakage == Probator.RunProbator(r.value.forged, d.probe)
    ensures r.value.update == Praeceptor.RunPraeceptor(r.value.leakage)
    ensures r.value.decrypted.intent == "transfer"
    ensures r.value.decrypted.authGrade == "Level-5"
    ensures r.value.decrypted.execStatus == "queued"
    ensures r.value.forged.spoofStatus == "mimic_attempt"
    ensures 0.0 <= r.value.leakage.leakageScore <= 1.0
    ensures r.value.leakage.hkProtection in {"active", "partial", "inactive"}
    ensures r.value.update.mode in Praeceptor.Modes
    ensures Keys(prompt.entities) <= Prompter.EntityKeys ==>
      && 0.47 <= r.value.leakage.leakageScore <= 0.66
      && r.value.leakage.hkProtection == "active"
      && !r.value.update.hkFeedback
      && r.value.update.mode in {"recalibrate", "aggressive_recalibrate"}
  {
    RoleG5Grade();
    match Decryptor.RunDecryptor(o, encrypted)
    case ValueError(message) =>
      assert false;
    case Ok(decrypted) =>
      if Keys(prompt.entities) <= Prompter.EntityKeys {
        PassOnMisreadRecord(o, encrypted, prompt.entities, decrypted, d);
      }
      var forged := Mimicus.RunMimicus(decrypted, d.mimic);
      var leakage := Probator.RunProbator(forged, d.probe);
      r := Decryptor.Ok(Pass(encrypted, decrypted, forged, leakage, Praeceptor.RunPraeceptor(leakage)));
  }

  /** One pass from the cryptor on. It could stop only where the decryptor
      rejects the signature, and it never does: the decryptor recomputes the
      very signature the cryptor attached. Over entities the prompter extracts,
      the decryptor's misread entity names leave the forgery without entity
      imitations, which fixes the score in [0.47, 0.66], the protection as
      active and the mode as a middle one. */
  method RunPass(o: Oracles, prompt: SemanticPromptOut, theta: Option<map<string, real>>, d: PassDraws)
    returns (r: Decryptor.Outcome<Pass>)
    requires ValidPassDraws(d, Len(prompt.entities))
    ensures r.Ok?
    ensures r.value.encrypted == Cryptor.RunCryptor(o, prompt, theta, d.cryptor, d.timeTag)
    ensures r.value.encrypted.roleTag == RoleG5
    ensures r.value.decrypted.intent == "transfer"
    ensures r.value.decrypted.authGrade == "Level-5"
    ensures r.value.decrypted.execStatus == "queued"
    ensures r.value.forged.spoofStatus == "mimic_attempt"
    ensures 0.0 <= r.value.leakage.leakageScore <= 1.0
    ensures r.value.leakage.hkProtection in {"active", "partial", "inactive"}
    ensures r.value.update.mode in Praeceptor.Modes
    ensures Keys(prompt.entities) <= Prompter.EntityKeys ==>
      && 0.47 <= r.value.leakage.leakageScore <= 0.66
      && r.value.leakage.hkProtection == "active"
      && !r.value.update.hkFeedback
      && r.value.update.mode in {"recalibrate", "aggressive_recalibrate"}
    ensures Keys(prompt.entities) <= Prompter.EntityKeys ==>
      (Len(r.value.decrypted.entities) > 0 <==> Len(prompt.entities) > 0)
  {
    var encrypted := Encrypt(o, prompt, theta, d);
    r := Downstream(o, prompt, encrypted, d);
    if Keys(prompt.entities) <= Prompter.EntityKeys {
      DecryptedEntitiesPresent(o, encrypted, prompt.entities.order, r.value.decrypted);
    }
  }

  /** The whole pipeline: the prompter once, then two passes, the second under
      the parameters the first pass's calibrator proposed. The initial
      parameters default to entropy 0.5, cipher strength 0.8, role decay 0.5.
      For every instruction the decryptor accepts the record, the role tag is
      "Γ5", the decrypted record is queued, the forgery is a mimic attempt, the
      score lies in [0.47, 0.66], no feedback is requested and the mode is
      "recalibrate" or "aggressive_recalibrate", in both passes. The decrypted
      record has an entity only when the prompter extracted one: an
      instruction without an amount or account decrypts to no entity at all. */
  method RunPipeline(o: Oracles, input: RawInstructionInput, now: string, initialTheta: Option<map<string, real>>,
                     first: PassDraws, second: PassDraws)
    returns (one: Decryptor.Outcome<Pass>, two: Decryptor.Outcome<Pass>)
    requires ValidPassDraws(first, Len(Prompter.RunPrompter(input, now).entities))
    requires ValidPassDraws(second, Len(Prompter.RunPrompter(input, now).entities))
    ensures one.Ok? && two.Ok?
    ensures var prompt := Prompter.RunPrompter(input, now);
      && one.value.encrypted == Cryptor.RunCryptor(o, prompt, Some(Cryptor.ThetaOrDefault(initialTheta)), first.cryptor, first.timeTag)
      && two.value.encrypted == Cryptor.RunCryptor(o, prompt, Some(one.value.update.thetaUpdate), second.cryptor, second.timeTag)
    ensures one.value.encrypted.roleTag == RoleG5
    ensures one.value.decrypted.intent == "transfer" && one.value.decrypted.authGrade == "Level-5"
    ensures one.value.decrypted.execStatus == "queued"
    ensures one.value.forged.spoofStatus == "mimic_attempt"
    ensures 0.47 <= one.value.leakage.leakageScore <= 0.66 && 0.47 <= two.value.leakage.leakageScore <= 0.66
    ensures one.value.leakage.hkProtection == "active" && two.value.leakage.hkProtection == "active"
    ensures !one.value.update.hkFeedback && !two.value.update.hkFeedback
    ensures one.value.update.mode in {"recalibrate", "aggressive_recalibrate"}
    ensures two.value.update.mode in {"recalibrate", "aggressive_recalibrate"}
    ensures var prompt := Prompter.RunPrompter(input, now);
      && (Len(one.value.decrypted.entities) > 0 <==> Len(prompt.entities) > 0)
      && (Len(two.value.decrypted.entities) > 0 <==> Len(prompt.entities) > 0)
  {
    var prompt := Prompter.RunPrompter(input, now);
    var theta := Cryptor.ThetaOrDefault(initialTheta);
    one := RunPass(o, prompt, Some(theta), first);
    two := RunPass(o, prompt, Some(one.value.update.thetaUpdate), second);
  }
}

=== FILE: praeceptor.dfy ===
/** The calibrating agent's rule-based path: from a leakage assessment it
    proposes new encryption parameters (always starting from the fixed bases
    0.5 / 0.8 / 0.5, never from the parameters in use), picks one of five
    calibration modes by severity, and tallies how effective the protocol's
    protections were. Python floats are modelled as reals; the final
    `round(..., 3)` is not modelled. */
module Praeceptor {
  import opened Schemas

  const EntropyKey: string := "entropy"
  const CipherStrengthKey: string := "cipher_strength"
  const RoleDecayKey: string := "role_decay"

  /** The three encryption parameters a calibration proposes. */
  const ThetaKeys: set<string> := {EntropyKey, CipherStrengthKey, RoleDecayKey}

  /** The detail keys the calibration reads. */
  const EntityRecoveryKey: string := "entity_recovery"
  const StructureFidelityKey: string := "structure_fidelity"
  const SemanticDriftKey: string := "semantic_drift"
  const PatternConsistencyKey: string := "pattern_consistency"
  const FieldMappingAccuracyKey: string := "field_mapping_accuracy"

  function Min(a: real, b: real): real { if a <= b then a else b }

  function Max(a: real, b: real): real { if a >= b then a else b }

  /** Python `details.get(k, 0)` */
  function DetailOr0(details: map<string, real>, k: string): real {
    if k in details then details[k] else 0.0
  }

  /** The three adjustments the leakage score alone calls for: proportional
      increases (capped at 0.3 / 0.2 / 0.3) above 0.5, and below it the
      "optimisation" branch, whose floor of -0.1 never takes effect because
      `(0.5 - score)` is not negative there. */
  function ScoreAdjustment(score: real, highFactor: real, highCap: real, lowFactor: real): (adj: real)
    requires 0.0 < highFactor && 0.0 < highCap && 0.0 < lowFactor
    ensures score > 0.5 ==> 0.0 < adj <= highCap
    ensures score <= 0.5 ==> adj == (0.5 - score) * lowFactor && 0.0 <= adj
  {
    if score > 0.5 then Min(highCap, score * highFactor)
    else Max(-0.1, (0.5 - score) * lowFactor)
  }

  /** The calibration as a function of the four numbers it reads: the score
      and the three detail values (absent ones read as 0). */
  function Calibrate(score: real, recovery: real, fidelity: real, drift: real): (t: map<string, real>)
    ensures t.Keys == ThetaKeys
    ensures 0.5 <= t[EntropyKey] <= 1.0
    ensures 0.8 <= t[CipherStrengthKey] <= 1.0
    ensures 0.4 <= t[RoleDecayKey] <= 1.0
    ensures recovery > 0.3 ==> 0.6 <= t[EntropyKey]
    ensures fidelity > 0.5 ==> 0.9 <= t[CipherStrengthKey]
    ensures score > 0.5 ==> 0.7 < t[EntropyKey] && 0.8 < t[CipherStrengthKey]
  {
    var entropyAdj := ScoreAdjustment(score, 0.4, 0.3, 0.2) + (if recovery > 0.3 then 0.1 else 0.0);
    var cipherAdj := ScoreAdjustment(score, 0.3, 0.2, 0.15) + (if fidelity > 0.5 then 0.1 else 0.0);
    var roleAdj := ScoreAdjustment(score, 0.5, 0.3, 0.25) - (if drift < 0.4 then 0.1 else 0.0);
    map[
      EntropyKey := Max(0.1, Min(1.0, 0.5 + entropyAdj)),
      CipherStrengthKey := Max(0.3, Min(1.0, 0.8 + cipherAdj)),
      RoleDecayKey := Max(0.1, Min(1.0, 0.5 + roleAdj))]
  }

  /** `calibrate_parameters`: exactly the three parameters, each within its
      clamp (entropy and role decay in [0.1, 1], cipher strength in [0.3, 1]),
      and in fact never below the bases for entropy and cipher strength. It
      reads only the score and three detail values. */
  function CalibrateParameters(a: LeakageVectorOut): (t: map<string, real>)
    ensures t.Keys == ThetaKeys
    ensures 0.1 <= t[EntropyKey] <= 1.0 && 0.3 <= t[CipherStrengthKey] <= 1.0 && 0.1 <= t[RoleDecayKey] <= 1.0
    ensures 0.5 <= t[EntropyKey] && 0.8 <= t[CipherStrengthKey]
  {
    Calibrate(a.leakageScore, DetailOr0(a.details, EntityRecoveryKey),
              DetailOr0(a.details, StructureFidelityKey), DetailOr0(a.details, SemanticDriftKey))
  }

  /** Two assessments that agree on the score and on the three detail values
      the calibration reads get the same parameters, whatever else they hold. */
  lemma {:induction false} CalibrationReadsOnlyFourValues(a: LeakageVectorOut, b: LeakageVectorOut)
    requires a.leakageScore == b.leakageScore
    requires DetailOr0(a.details, EntityRecoveryKey) == DetailOr0(b.details, EntityRecoveryKey)
    requires DetailOr0(a.details, StructureFidelityKey) == DetailOr0(b.details, StructureFidelityKey)
    requires DetailOr0(a.details, SemanticDriftKey) == DetailOr0(b.details, SemanticDriftKey)
    ensures CalibrateParameters(a) == CalibrateParameters(b)
  {
  }

  /** A missing semantic drift reads as 0, which counts as low drift and
      lowers the role decay by 0.1, exactly as a reported drift of 0 would. */
  lemma {:induction false} MissingDriftLowersRoleDecay(a: LeakageVectorOut)
    requires SemanticDriftKey !in a.details
    ensures CalibrateParameters(a) == CalibrateParameters(a.(details := a.details[SemanticDriftKey := 0.0]))
    ensures CalibrateParameters(a)[RoleDecayKey]
         == Max(0.1, Min(1.0, 0.5 + ScoreAdjustment(a.leakageScore, 0.5, 0.3, 0.25) - 0.1))
  {
    var b := a.(details := a.details[SemanticDriftKey := 0.0]);
    assert DetailOr0(b.details, EntityRecoveryKey) == DetailOr0(a.details, EntityRecoveryKey);
    assert DetailOr0(b.details, StructureFidelityKey) == DetailOr0(a.details, StructureFidelityKey);
  }

  /** The five calibration modes, from least to most severe. */
  const Modes: seq<string> := ["maintain", "fine_tune", "recalibrate", "aggressive_recalibrate", "emergency_recalibrate"]

  /** How severe a mode is: its position in `Modes`. */
  function Severity(score: real): (n: nat)
    ensures n < |Modes|
  {
    if score > 0.7 then 4 else if score > 0.5 then 3 else if score > 0.3 then 2 else if score > 0.1 then 1 else 0
  }

  /** `determine_calibration_mode`: the band the score falls in. */
  function DetermineCalibrationMode(score: real): (mode: string)
    ensures mode in Modes
    ensures mode == "emergency_recalibrate" <==> score > 0.7
    ensures mode == "aggressive_recalibrate" <==> 0.5 < score <= 0.7
    ensures mode == "recalibrate" <==> 0.3 < score <= 0.5
    ensures mode == "fine_tune" <==> 0.1 < score <= 0.3
    ensures mode == "maintain" <==> score <= 0.1
  {
    if score > 0.7 then "emergency_recalibrate"
    else if score > 0.5 then "aggressive_recalibrate"
    else if score > 0.3 then "recalibrate"
    else if score > 0.1 then "fine_tune"
    else "maintain"
  }

  /** The mode is the one at the score's severity, and a higher score never
      yields a less severe mode. */
  lemma {:induction false} ModeMonotone(s1: real, s2: real)
    requires s1 <= s2
    ensures DetermineCalibrationMode(s1) == Modes[Severity(s1)]
    ensures DetermineCalibrationMode(s2) == Modes[Severity(s2)]
    ensures Severity(s1) <= Severity(s2)
  {
  }

  /** The effectiveness tally of the three protections. */
  datatype HkpAnalysis = HkpAnalysis(
    roleProtection: string,
    timeProtection: string,
    popEffectiveness: string,
    overallHkpScore: real)

  /** "strong" when the metric is reported and below the threshold; an absent
      metric counts as weak. */
  function Verdict(details: map<string, real>, metric: string, threshold: real): (v: string)
    ensures v in {"strong", "weak"}
    ensures v == "strong" <==> metric in details && details[metric] < threshold
  {
    if metric in details && details[metric] < threshold then "strong" else "weak"
  }

  /** How many verdicts are "strong", counted one by one: all exactly when
      the count is the number of verdicts, none exactly when it is 0. */
  function StrongCount(verdicts: seq<string>): (n: nat)
    ensures n <= |verdicts|
    ensures n == |verdicts| <==> forall i :: 0 <= i < |verdicts| ==> verdicts[i] == "strong"
    ensures n == 0 <==> forall i :: 0 <= i < |verdicts| ==> verdicts[i] != "strong"
    ensures n == multiset(verdicts)["strong"]
  {
    if verdicts == [] then 0
    else
      var rest := StrongCount(verdicts[1..]);
      assert forall i :: 1 <= i < |verdicts| ==> verdicts[i] == verdicts[1..][i - 1];
      assert verdicts == [verdicts[0]] + verdicts[1..];
      (if verdicts[0] == "strong" then 1 else 0) + rest
  }

  /** Counting three verdicts: all three, none, or the number of "strong" ones. */
  lemma {:induction false} ThreeVerdicts(r: string, t: string, p: string)
    ensures var n := StrongCount([r, t, p]);
      && n <= 3
      && n == multiset([r, t, p])["strong"]
      && (n == 3 <==> r == "strong" && t == "strong" && p == "strong")
      && (n == 0 <==> r != "strong" && t != "strong" && p != "strong")
  {
    var v := [r, t, p];
    assert v[0] == r && v[1] == t && v[2] == p;
  }

  /** `analyze_hkp_effectiveness`: role protection is strong when pattern
      consistency stays below 0.5, time protection when structure fidelity
      stays below 0.6, the signature when field mapping accuracy stays below
      0.3; the overall score is the share of strong verdicts. */
  function AnalyzeHkpEffectiveness(a: LeakageVectorOut): (h: HkpAnalysis)
    ensures h.roleProtection == "strong" <==> PatternConsistencyKey in a.details && a.details[PatternConsistencyKey] < 0.5
    ensures h.timeProtection == "strong" <==> StructureFidelityKey in a.details && a.details[StructureFidelityKey] < 0.6
    ensures h.popEffectiveness == "strong" <==> FieldMappingAccuracyKey in a.details && a.details[FieldMappingAccuracyKey] < 0.3
    ensures h.overallHkpScore in {0.0, 1.0 / 3.0, 2.0 / 3.0, 1.0}
    ensures h.overallHkpScore == 1.0 <==> h.roleProtection == h.timeProtection == h.popEffectiveness == "strong"
    ensures h.overallHkpScore == 0.0 <==> h.roleProtection == h.timeProtection == h.popEffectiveness == "weak"
    ensures h.overallHkpScore == multiset([h.roleProtection, h.timeProtection, h.popEffectiveness])["strong"] as real / 3.0
  {
    var role := Verdict(a.details, PatternConsistencyKey, 0.5);
    var time := Verdict(a.details, StructureFidelityKey, 0.6);
    var pop := Verdict(a.details, FieldMappingAccuracyKey, 0.3);
    ThreeVerdicts(role, time, pop);
    HkpAnalysis(role, time, pop, StrongCount([role, time, pop]) as real / 3.0)
  }

  /** `run_praeceptor` on its rule-based path: feedback is requested exactly
      when the protection was not judged "active". */
  function RunPraeceptor(a: LeakageVectorOut): (u: ThetaUpdate)
    ensures u.thetaUpdate.Keys == ThetaKeys
    ensures 0.5 <= u.thetaUpdate[EntropyKey] <= 1.0 && 0.8 <= u.thetaUpdate[CipherStrengthKey] <= 1.0
    ensures 0.1 <= u.thetaUpdate[RoleDecayKey] <= 1.0
    ensures u.mode in Modes && u.mode == Modes[Severity(a.leakageScore)]
    ensures u.hkFeedback <==> a.hkProtection != "active"
  {
    ModeMonotone(a.leakageScore, a.leakageScore);
    ThetaUpdate(CalibrateParameters(a), DetermineCalibrationMode(a.leakageScore), a.hkProtection != "active")
  }
}

=== FILE: primitives.dfy ===
/** The primitives the agents call but whose internals are not modelled:
    SHA-256 and Python's `str(float)`. Both are passed in as values, so every
    property proved here holds for every hash function with SHA-256's output
    shape and for every float rendering. */
module Primitives {
  import opened Text

  /** `hashlib.sha256(...).hexdigest()`: 64 lowercase hexadecimal characters. */
  predicate IsHexDigest(s: string) {
    |s| == 64 && AllLowerHex(s)
  }

  const ZeroDigest: string := seq(64, _ => '0')

  /** The primitives one run of the agents uses: a hash function over text (the
      source hashes `text.encode()`; UTF-8 encoding is injective, so hashing the
      text itself loses nothing) and the rendering of a float. */
  datatype Oracles = Oracles(sha256: string -> string, floatStr: real -> string)

  /** The hex digest of `s`. SHA-256 always yields 64 lowercase hex digits; an
      oracle output of any other shape, which SHA-256 never produces, is read as
      the all-zero digest, so that every digest has the shape of a real one. */
  function Digest(o: Oracles, s: string): (h: string)
    ensures IsHexDigest(h)
    ensures IsHexDigest(o.sha256(s)) ==> h == o.sha256(s)
  {
    if IsHexDigest(o.sha256(s)) then o.sha256(s) else ZeroDigest
  }

  /** `hashlib.sha256(s.encode()).hexdigest()[:n]`. */
  function HexDigest(o: Oracles, s: string, n: nat): (r: string)
    requires n <= 64
    ensures |r| == n && AllLowerHex(r)
  {
    Digest(o, s)[..n]
  }
}

=== FILE: probator.dfy ===
/** The probing agent's rule-based path: it inspects a forged record, rates
    five leakage factors, folds them into one weighted score in [0, 1], and
    judges whether the protocol's role and time markers are in place. The two
    uniform random draws are explicit arguments. */
module Probator {
  import opened Text
  import opened Dicts
  import opened Tags
  import opened Schemas

  /** The two `random.uniform` draws: entity recovery in [0.1, 0.4] and
      semantic drift in [0.3, 0.8]. */
  datatype ProbeDraws = ProbeDraws(entityRecovery: real, semanticDrift: real)

  predicate ValidDraws(d: ProbeDraws) {
    0.1 <= d.entityRecovery <= 0.4 && 0.3 <= d.semanticDrift <= 0.8
  }

  const EntityRecovery: string := "entity_recovery"
  const StructureFidelity: string := "structure_fidelity"
  const SemanticDrift: string := "semantic_drift"
  const PatternConsistency: string := "pattern_consistency"
  const FieldMappingAccuracy: string := "field_mapping_accuracy"

  /** The five leakage factors every assessment rates. */
  const Factors: set<string> := {EntityRecovery, StructureFidelity, SemanticDrift, PatternConsistency, FieldMappingAccuracy}

  /** The fields a faithful imitation of an encrypted record carries, in the
      source's order. */
  const ExpectedFields: seq<string> := [IntentTag, BlockTag, GammaTag, NodeTag]

  /** The protocol markers whose presence counts as protection. */
  const PopSignatureKey: string := "pop_signature"

  /** 1 when the field is present, else 0. */
  function Present(fields: Dict, k: string): nat {
    if k in Keys(fields) then 1 else 0
  }

  /** How many of the listed names are keys, counted one by one. All of them
      exactly when the count is the list's length, none exactly when it is 0. */
  function CountPresent(ks: seq<string>, keys: set<string>): (n: nat)
    ensures n <= |ks|
    ensures n == |ks| <==> forall i :: 0 <= i < |ks| ==> ks[i] in keys
    ensures n == 0 <==> forall i :: 0 <= i < |ks| ==> ks[i] !in keys
  {
    if ks == [] then 0
    else
      var rest := CountPresent(ks[1..], keys);
      assert forall i :: 1 <= i < |ks| ==> ks[i] == ks[1..][i - 1];
      (if ks[0] in keys then 1 else 0) + rest
  }

  /** Over names listed once each, the count is the number of listed names
      that are keys. */
  lemma {:induction false} CountPresentCounts(ks: seq<string>, keys: set<string>)
    requires forall i, j :: 0 <= i < j < |ks| ==> ks[i] != ks[j]
    ensures CountPresent(ks, keys) == |(set k | k in ks) * keys|
  {
    if ks == [] {
      assert (set k | k in ks) == {};
    } else {
      assert forall i, j :: 0 <= i < j < |ks[1..]| ==> ks[1..][i] != ks[1..][j] by {
        forall i, j | 0 <= i < j < |ks[1..]| ensures ks[1..][i] != ks[1..][j] {
          assert ks[1..][i] == ks[i + 1] && ks[1..][j] == ks[j + 1];
        }
      }
      CountPresentCounts(ks[1..], keys);
      ListedCons(ks);
      AddOnePresent((set k | k in ks[1..]), ks[0], keys);
    }
  }

  /** The names listed in a non-empty list: its head and those of its tail,
      the head not among them when no name repeats. */
  lemma {:induction false} ListedCons(ks: seq<string>)
    requires ks != []
    requires forall i, j :: 0 <= i < j < |ks| ==> ks[i] != ks[j]
    ensures (set k | k in ks) == (set k | k in ks[1..]) + {ks[0]}
    ensures ks[0] !in (set k | k in ks[1..])
  {
    assert forall k :: k in ks <==> k == ks[0] || k in ks[1..];
  }

  /** Adding a new name adds one to the count of names that are keys exactly
      when it is a key. */
  lemma {:induction false} AddOnePresent(names: set<string>, x: string, keys: set<string>)
    requires x !in names
    ensures |(names + {x}) * keys| == |names * keys| + (if x in keys then 1 else 0)
  {
    if x in keys {
      assert (names + {x}) * keys == names * keys + {x};
    } else {
      assert (names + {x}) * keys == names * keys;
    }
  }

  /** The pattern checks of the source, one per expected field. */
  predicate IntentPattern(fields: Dict) {
    IntentTag in Keys(fields) && (StartsWith(Get(fields, IntentTag), "ZYNQ") || StartsWith(Get(fields, IntentTag), "DYNX"))
  }

  predicate BlockPattern(fields: Dict) {
    BlockTag in Keys(fields) && Contains(Get(fields, BlockTag), "blk_")
  }

  predicate GammaPattern(fields: Dict) {
    GammaTag in Keys(fields) && Contains(Get(fields, GammaTag), "AKR_")
  }

  predicate NodePattern(fields: Dict) {
    NodeTag in Keys(fields) && Contains(Get(fields, NodeTag), "E")
  }

  /** Pattern consistency: 0.3 + 0.3 + 0.2 + 0.2 for the four checks. */
  function PatternScore(fields: Dict): (s: real)
    ensures 0.0 <= s <= 1.0
    ensures s == 1.0 <==> IntentPattern(fields) && BlockPattern(fields) && GammaPattern(fields) && NodePattern(fields)
    ensures s == 0.0 <==> !IntentPattern(fields) && !BlockPattern(fields) && !GammaPattern(fields) && !NodePattern(fields)
  {
    (if IntentPattern(fields) then 0.3 else 0.0)
      + (if BlockPattern(fields) then 0.3 else 0.0)
      + (if GammaPattern(fields) then 0.2 else 0.0)
      + (if NodePattern(fields) then 0.2 else 0.0)
  }

  /** Field mapping accuracy: 0.4 for each entity imitation present. */
  function MappingScore(fields: Dict): (s: real)
    ensures s == 0.4 * (Present(fields, AmountMimicTag) + Present(fields, AccountMimicTag)) as real
  {
    (if AmountMimicTag in Keys(fields) then 0.4 else 0.0) + (if AccountMimicTag in Keys(fields) then 0.4 else 0.0)
  }

  /** `analyze_leakage_patterns`: exactly the five factors, each in [0, 1]. */
  function AnalyzeLeakagePatterns(fields: Dict, d: ProbeDraws): (v: map<string, real>)
    requires ValidDraws(d)
    ensures v.Keys == Factors
    ensures forall f :: f in v ==> 0.0 <= v[f] <= 1.0
    ensures v[EntityRecovery] > 0.0 <==> IntentTag in Keys(fields)
    ensures IntentTag in Keys(fields) ==> v[EntityRecovery] == d.entityRecovery
    ensures v[StructureFidelity] == CountPresent(ExpectedFields, Keys(fields)) as real / 4.0
    ensures v[StructureFidelity] == 1.0 <==> forall k :: k in ExpectedFields ==> k in Keys(fields)
    ensures v[SemanticDrift] == d.semanticDrift
    ensures v[PatternConsistency] == PatternScore(fields)
    ensures v[FieldMappingAccuracy] == 0.4 * (Present(fields, AmountMimicTag) + Present(fields, AccountMimicTag)) as real
  {
    var recovery := if IntentTag in Keys(fields) then d.entityRecovery else 0.0;
    var fidelity := CountPresent(ExpectedFields, Keys(fields)) as real / |ExpectedFields| as real;
    map[
      EntityRecovery := recovery,
      StructureFidelity := fidelity,
      SemanticDrift := d.semanticDrift,
      PatternConsistency := PatternScore(fields),
      FieldMappingAccuracy := MappingScore(fields)]
  }

  /** The four expected field names are pairwise distinct: their first
      letters already differ. */
  lemma ExpectedFieldsDistinct()
    ensures forall i, j :: 0 <= i < j < |ExpectedFields| ==> ExpectedFields[i] != ExpectedFields[j]
  {
    var ks := ExpectedFields;
    assert ks[0][0] != ks[1][0] && ks[0][0] != ks[2][0] && ks[0][0] != ks[3][0];
    assert ks[1][0] != ks[2][0] && ks[1][0] != ks[3][0] && ks[2][0] != ks[3][0];
  }

  /** Structure fidelity is the share of the four expected fields present
      among the record's keys, counted as a set. */
  lemma StructureFidelityCounts(fields: Dict, d: ProbeDraws)
    requires ValidDraws(d)
    ensures AnalyzeLeakagePatterns(fields, d)[StructureFidelity]
            == |{IntentTag, BlockTag, GammaTag, NodeTag} * Keys(fields)| as real / 4.0
  {
    ExpectedFieldsDistinct();
    CountPresentCounts(ExpectedFields, Keys(fields));
    ExpectedFieldSet();
  }

  lemma ExpectedFieldSet()
    ensures (set k | k in ExpectedFields) == {IntentTag, BlockTag, GammaTag, NodeTag}
  {
  }

  /** One factor's weighted contribution; an absent factor contributes
      nothing, and semantic drift counts inversely (less drift, more leakage). */
  function Contribution(details: map<string, real>, factor: string, weight: real): real {
    if factor !in details then 0.0
    else if factor == SemanticDrift then weight * (1.0 - details[factor])
    else weight * details[factor]
  }

  /** The weighted sum before clamping, in the source's weight order. */
  function RawLeakageScore(details: map<string, real>): real {
    Contribution(details, EntityRecovery, 0.3)
      + Contribution(details, StructureFidelity, 0.25)
      + Contribution(details, SemanticDrift, 0.2)
      + Contribution(details, PatternConsistency, 0.15)
      + Contribution(details, FieldMappingAccuracy, 0.1)
  }

  /** `calculate_leakage_score`: the weighted sum clamped into [0, 1]; the
      clamp changes the sum only when it lies outside. */
  function CalculateLeakageScore(details: map<string, real>): (s: real)
    ensures 0.0 <= s <= 1.0
    ensures s == RawLeakageScore(details) <==> 0.0 <= RawLeakageScore(details) <= 1.0
    ensures RawLeakageScore(details) > 1.0 ==> s == 1.0
    ensures RawLeakageScore(details) < 0.0 ==> s == 0.0
  {
    var raw := RawLeakageScore(details);
    var lower := if 0.0 < raw then raw else 0.0;
    if 1.0 < lower then 1.0 else lower
  }

  /** Every factor present and in [0, 1]: the weights sum to 1, so the score
      is the plain weighted sum and no clamping happens. */
  lemma {:induction false} FactorsInRangeNeedNoClamp(details: map<string, real>)
    requires forall f :: f in Factors ==> f in details && 0.0 <= details[f] <= 1.0
    ensures CalculateLeakageScore(details) == RawLeakageScore(details)
  {
    assert EntityRecovery in Factors && StructureFidelity in Factors && SemanticDrift in Factors;
    assert PatternConsistency in Factors && FieldMappingAccuracy in Factors;
    assert 0.0 <= Contribution(details, EntityRecovery, 0.3) <= 0.3;
    assert 0.0 <= Contribution(details, StructureFidelity, 0.25) <= 0.25;
    assert 0.0 <= Contribution(details, SemanticDrift, 0.2) <= 0.2;
    assert 0.0 <= Contribution(details, PatternConsistency, 0.15) <= 0.15;
    assert 0.0 <= Contribution(details, FieldMappingAccuracy, 0.1) <= 0.1;
  }

  /** A missing factor counts as 0, except semantic drift, which counts as 1
      (full drift, no leakage). */
  lemma {:induction false} MissingFactorIsNeutral(details: map<string, real>, f: string)
    requires f in Factors && f !in details
    ensures CalculateLeakageScore(details)
         == CalculateLeakageScore(details[f := if f == SemanticDrift then 1.0 else 0.0])
  {
    var e := details[f := if f == SemanticDrift then 1.0 else 0.0];
    assert Contribution(e, f, 0.3) == 0.0 && Contribution(e, f, 0.25) == 0.0 && Contribution(e, f, 0.2) == 0.0;
    assert Contribution(e, f, 0.15) == 0.0 && Contribution(e, f, 0.1) == 0.0;
    assert RawLeakageScore(e) == RawLeakageScore(details);
  }

  /** More leakage in any factor (less drift) never lowers the score. */
  lemma {:induction false} ScoreMonotone(a: map<string, real>, b: map<string, real>)
    requires forall f :: f in Factors ==> f in a && f in b
    requires forall f :: f in Factors && f != SemanticDrift ==> a[f] <= b[f]
    requires b[SemanticDrift] <= a[SemanticDrift]
    ensures CalculateLeakageScore(a) <= CalculateLeakageScore(b)
  {
    assert EntityRecovery in Factors && StructureFidelity in Factors && SemanticDrift in Factors;
    assert PatternConsistency in Factors && FieldMappingAccuracy in Factors;
    assert Contribution(a, EntityRecovery, 0.3) <= Contribution(b, EntityRecovery, 0.3);
    assert Contribution(a, StructureFidelity, 0.25) <= Contribution(b, StructureFidelity, 0.25);
    assert Contribution(a, PatternConsistency, 0.15) <= Contribution(b, PatternConsistency, 0.15);
    assert Contribution(a, FieldMappingAccuracy, 0.1) <= Contribution(b, FieldMappingAccuracy, 0.1);
    assert RawLeakageScore(a) <= RawLeakageScore(b);
  }

  /** `assess_hkp_protection`: "active" when the forged record carries both the
      (wrong) role marker and the time marker, "partial" when it carries some
      protocol marker, "inactive" otherwise. */
  function AssessHkpProtection(fields: Dict): (r: string)
    ensures r in {"active", "partial", "inactive"}
    ensures r == "active" <==> RoleG3Tag in Keys(fields) && TimeTag in Keys(fields)
    ensures r == "inactive" <==> RoleG5Tag !in Keys(fields) && TimeTag !in Keys(fields) && PopSignatureKey !in Keys(fields)
  {
    var hkpPresent := RoleG5Tag in Keys(fields) || TimeTag in Keys(fields) || PopSignatureKey in Keys(fields);
    var roleProtection := RoleG3Tag in Keys(fields);
    var timeProtection := TimeTag in Keys(fields);
    if hkpPresent && roleProtection && timeProtection then "active"
    else if hkpPresent then "partial"
    else "inactive"
  }

  /** `run_probator` on its rule-based path. */
  function RunProbator(input: MimicOutput, d: ProbeDraws): (r: LeakageVectorOut)
    requires ValidDraws(d)
    ensures r.details == AnalyzeLeakagePatterns(input.mimicFields, d)
    ensures r.details.Keys == Factors
    ensures 0.0 <= r.leakageScore <= 1.0
    ensures r.leakageScore == RawLeakageScore(r.details)
    ensures r.hkProtection == AssessHkpProtection(input.mimicFields)
    ensures r.hkProtection == "active" <==> RoleG3Tag in Keys(input.mimicFields) && TimeTag in Keys(input.mimicFields)
    ensures r.hkProtection == "inactive" <==>
      RoleG5Tag !in Keys(input.mimicFields) && TimeTag !in Keys(input.mimicFields) && PopSignatureKey !in Keys(input.mimicFields)
  {
    var details := AnalyzeLeakagePatterns(input.mimicFields, d);
    FactorsInRangeNeedNoClamp(details);
    LeakageVectorOut(CalculateLeakageScore(details), details, AssessHkpProtection(input.mimicFields))
  }
}

=== FILE: prompter.dfy ===
/** The prompting agent's rule-based path: it turns a free-text instruction
    into an intent label and a dict of entities, using keyword tests and two
    regular expressions. Each regular expression is modelled twice: as a
    declarative statement of what a match is, and as a search that scans the
    text in the order Python's backtracking matcher does; the search's contract
    says it finds the match the matcher would report (leftmost start, greedy
    and lazy repetitions resolved in the matcher's order). */
module Prompter {
  import opened Text
  import opened Dicts
  import opened Schemas

  // ---------------------------------------------------------------- intent

  const SendEmail: string := "send_email"
  const Transfer: string := "transfer"
  const BookFlight: string := "book_flight"
  const Unknown: string := "unknown"

  /** The four intents the keyword rules can produce. */
  const Intents: set<string> := {SendEmail, Transfer, BookFlight, Unknown}

  predicate MentionsTransfer(lower: string) {
    Contains(lower, "transfer") || Contains(lower, "send") || Contains(lower, "move")
  }

  predicate MentionsBooking(lower: string) {
    Contains(lower, "book") || Contains(lower, "reserve") || Contains(lower, "schedule")
  }

  /** `extract_intent`: keyword tests on the lower-cased instruction, e-mail
      words first so that "send an email" is not read as a transfer. Testing
      for "email" adds nothing to testing for "mail", so the e-mail intent is
      chosen exactly when "mail" occurs. */
  function ExtractIntent(instruction: string): (intent: string)
    ensures intent in Intents
    ensures intent == SendEmail <==> Contains(Lower(instruction), "mail")
    ensures intent == Transfer <==> !Contains(Lower(instruction), "mail") && MentionsTransfer(Lower(instruction))
    ensures intent == BookFlight <==>
      !Contains(Lower(instruction), "mail") && !MentionsTransfer(Lower(instruction)) && MentionsBooking(Lower(instruction))
    ensures intent == Unknown <==>
      !Contains(Lower(instruction), "mail") && !MentionsTransfer(Lower(instruction)) && !MentionsBooking(Lower(instruction))
  {
    var lower := Lower(instruction);
    assert Contains(lower, "email") ==> Contains(lower, "mail") by {
      if Contains(lower, "email") {
        assert "e" + "mail" == "email";
        ContainsSuffix(lower, "e", "mail");
      }
    }
    if Contains(lower, "email") || Contains(lower, "mail") then SendEmail
    else if MentionsTransfer(lower) then Transfer
    else if MentionsBooking(lower) then BookFlight
    else Unknown
  }

  /** The intent does not depend on letter case. */
  lemma {:induction false} IntentIgnoresCase(instruction: string)
    ensures ExtractIntent(Lower(instruction)) == ExtractIntent(instruction)
  {
    LowerIdempotent(instruction);
  }

  // ---------------------------------------------------------------- amount

  predicate DigitsBetween(s: string, a: nat, b: nat) {
    a <= b <= |s| && forall j :: a <= j < b ==> IsDigit(s[j])
  }

  /** The amount pattern `\$(\d{1,3},\d{3})` matches at `i` with `k` digits
      before the comma: a dollar sign, `k` digits, a comma, three digits.
      Nothing is required after the last digit. */
  predicate AmountAt(s: string, i: nat, k: nat) {
    && 1 <= k <= 3
    && i + k + 5 <= |s|
    && s[i] == '$'
    && DigitsBetween(s, i + 1, i + 1 + k)
    && s[i + 1 + k] == ','
    && DigitsBetween(s, i + 2 + k, i + 5 + k)
  }

  /** The pattern matches somewhere. */
  ghost predicate HasAmount(s: string) {
    exists i: nat, k: nat :: AmountAt(s, i, k)
  }

  /** At a given position the pattern matches with at most one width, so the
      order in which the greedy `\d{1,3}` tries widths does not matter. */
  lemma {:induction false} AmountWidthUnique(s: string, i: nat, k1: nat, k2: nat)
    requires AmountAt(s, i, k1) && AmountAt(s, i, k2)
    ensures k1 == k2
  {
  }

  /** Where the amount pattern matches and how many digits precede the comma. */
  datatype AmountMatch = AmountMatch(at: nat, width: nat)

  /** `re.search` for the amount pattern from position `from` on: the leftmost
      match, trying three, two and one leading digits in that order. */
  function FindAmount(s: string, from: nat): (m: Option<AmountMatch>)
    ensures m.Some? ==> from <= m.value.at && AmountAt(s, m.value.at, m.value.width)
    ensures m.Some? ==> forall i: nat, k: nat :: from <= i < m.value.at ==> !AmountAt(s, i, k)
    ensures m.None? ==> forall i: nat, k: nat :: from <= i ==> !AmountAt(s, i, k)
    decreases |s| - from
  {
    if |s| <= from then None
    else if AmountAt(s, from, 3) then Some(AmountMatch(from, 3))
    else if AmountAt(s, from, 2) then Some(AmountMatch(from, 2))
    else if AmountAt(s, from, 1) then Some(AmountMatch(from, 1))
    else FindAmount(s, from + 1)
  }

  /** The search finds a match exactly when there is one. */
  lemma {:induction false} FindAmountComplete(s: string)
    ensures FindAmount(s, 0).Some? <==> HasAmount(s)
  {
    if FindAmount(s, 0).Some? {
      var m := FindAmount(s, 0).value;
      assert AmountAt(s, m.at, m.width);
    }
  }

  /** Removing the comma from digits, a comma and digits runs the digits together. */
  lemma {:induction false} RemoveSeparator(front: string, back: string)
    requires AllDigits(front) && AllDigits(back)
    ensures RemoveChar(front + [','] + back, ',') == front + back
  {
    RemoveCharConcat(front + [','], back, ',');
    RemoveCharConcat(front, [','], ',');
    assert RemoveChar([','], ',') == [];
  }

  /** The `amount` entity: the matched group with its comma removed, then
      " USD"; that is, the digits before and after the comma, run together. */
  function AmountValue(s: string, m: AmountMatch): (v: string)
    requires AmountAt(s, m.at, m.width)
    ensures |v| == m.width + 7 && v[m.width + 3..] == " USD"
    ensures forall j :: 0 <= j < m.width ==> v[j] == s[m.at + 1 + j]
    ensures forall j :: m.width <= j < m.width + 3 ==> v[j] == s[m.at + 2 + j]
    ensures forall j :: 0 <= j < m.width + 3 ==> IsDigit(v[j])
  {
    var front := s[m.at + 1 .. m.at + 1 + m.width];
    var back := s[m.at + 2 + m.width .. m.at + 5 + m.width];
    assert s[m.at + 1 .. m.at + 5 + m.width] == front + [','] + back;
    RemoveSeparator(front, back);
    RemoveChar(s[m.at + 1 .. m.at + 5 + m.width], ',') + " USD"
  }

  // ---------------------------------------------------------------- accounts

  /** The account pairs the rules recognise, as (to, from), in the order they
      are tried. */
  const AccountPairs: seq<(string, string)> := [
    ("7395-8845-2291", "1559-6623-4401"),
    ("1234-5678-9012-3456", "9876-5432-1098-7654"),
    ("1111-2222-3333-4444", "5555-6666-7777-8888")]

  /** The single account recognised when no pair is. */
  const SingleAccount: string := "1234-5678-9012-3456"

  predicate MentionsPair(s: string, q: nat)
    requires q < |AccountPairs|
  {
    Contains(s, AccountPairs[q].0) && Contains(s, AccountPairs[q].1)
  }

  predicate HasPair(s: string) {
    exists q: nat :: 0 <= q < |AccountPairs| && MentionsPair(s, q)
  }

  /** The first pair, from position `from` on, both of whose numbers occur. */
  function FirstPair(s: string, from: nat): (r: Option<nat>)
    ensures r.Some? ==> from <= r.value < |AccountPairs| && MentionsPair(s, r.value)
    ensures r.Some? ==> forall q: nat :: from <= q < r.value ==> !MentionsPair(s, q)
    ensures r.None? ==> forall q: nat :: from <= q < |AccountPairs| ==> !MentionsPair(s, q)
    decreases |AccountPairs| - from
  {
    if |AccountPairs| <= from then None
    else if MentionsPair(s, from) then Some(from)
    else FirstPair(s, from + 1)
  }

  // ---------------------------------------------------------------- destination

  /** The character class `[A-Za-z\s]`. */
  predicate InDestinationClass(c: char) {
    'A' <= c <= 'Z' || 'a' <= c <= 'z' || IsSpace(c)
  }

  predicate SpacesBetween(s: string, a: nat, b: nat) {
    a <= b <= |s| && forall j :: a <= j < b ==> IsSpace(s[j])
  }

  predicate ClassBetween(s: string, a: nat, b: nat) {
    a <= b <= |s| && forall j :: a <= j < b ==> InDestinationClass(s[j])
  }

  /** `\s+` followed by the word `w` matches at `e`. */
  ghost predicate SpacedWordAt(s: string, e: nat, w: string) {
    exists q: nat :: e < q && SpacesBetween(s, e, q) && OccursAt(s, w, q)
  }

  /** The alternatives `\s+from|\s+account|$` match at `e`; without the
      multi-line flag `$` matches at the end and before a final newline. */
  ghost predicate DestinationEndsAt(s: string, e: nat) {
    || SpacedWordAt(s, e, "from")
    || SpacedWordAt(s, e, "account")
    || e == |s|
    || (e + 1 == |s| && s[e] == '\n')
  }

  /** The group `([A-Za-z\s]+?)` can span `g` to `e` and be followed by a
      matching alternative. */
  ghost predicate GroupEndsAt(s: string, g: nat, e: nat) {
    g < e && ClassBetween(s, g, e) && DestinationEndsAt(s, e)
  }

  /** The whole pattern `to\s+([A-Za-z\s]+?)(?:\s+from|\s+account|$)` matches
      with "to" at `i` and the group spanning `g` to `e`. */
  ghost predicate DestinationAt(s: string, i: nat, g: nat, e: nat) {
    i + 2 < g && OccursAt(s, "to", i) && SpacesBetween(s, i + 2, g) && GroupEndsAt(s, g, e)
  }

  ghost predicate HasDestination(s: string) {
    exists i: nat, g: nat, e: nat :: DestinationAt(s, i, g, e)
  }

  /** The longest run of whitespace starting at `p`. */
  function SpaceRun(s: string, p: nat): (n: nat)
    requires p <= |s|
    ensures SpacesBetween(s, p, p + n)
    ensures p + n < |s| ==> !IsSpace(s[p + n])
    decreases |s| - p
  {
    if p < |s| && IsSpace(s[p]) then 1 + SpaceRun(s, p + 1) else 0
  }

  /** Checking `\s+w` at `e`: the whitespace run must be followed directly by
      `w`, since `w` does not start with whitespace. */
  function SpacedWordCheck(s: string, e: nat, w: string): (b: bool)
    requires e <= |s| && w != [] && !IsSpace(w[0])
    ensures b <==> SpacedWordAt(s, e, w)
  {
    var n := SpaceRun(s, e);
    assert SpacedWordAt(s, e, w) ==> 1 <= n && OccursAt(s, w, e + n) by {
      if SpacedWordAt(s, e, w) {
        var q: nat :| e < q && SpacesBetween(s, e, q) && OccursAt(s, w, q);
        assert q == e + n;
      }
    }
    1 <= n && OccursAt(s, w, e + n)
  }

  function DestinationEndCheck(s: string, e: nat): (b: bool)
    requires e <= |s|
    ensures b <==> DestinationEndsAt(s, e)
  {
    SpacedWordCheck(s, e, "from") || SpacedWordCheck(s, e, "account") || e == |s| || (e + 1 == |s| && s[e] == '\n')
  }

  /** The lazy group `[A-Za-z\s]+?` starting at `g`, already extended to `e`:
      the shortest extension from `e` on after which an alternative matches. */
  function LazyGroupEnd(s: string, g: nat, e: nat): (r: Option<nat>)
    requires g < e <= |s| && ClassBetween(s, g, e)
    ensures r.Some? ==> e <= r.value && GroupEndsAt(s, g, r.value)
    ensures r.Some? ==> forall x: nat :: e <= x < r.value ==> !GroupEndsAt(s, g, x)
    ensures r.None? ==> forall x: nat :: e <= x ==> !GroupEndsAt(s, g, x)
    decreases |s| - e
  {
    if DestinationEndCheck(s, e) then Some(e)
    else if e < |s| && InDestinationClass(s[e]) then LazyGroupEnd(s, g, e + 1)
    else
      assert forall x: nat :: e < x ==> !ClassBetween(s, g, x);
      None
  }

  /** The lazy group starting at `g`: its shortest successful extent. */
  function GroupAt(s: string, g: nat): (r: Option<nat>)
    requires g <= |s|
    ensures r.Some? ==> GroupEndsAt(s, g, r.value)
    ensures r.Some? ==> forall x: nat :: x < r.value ==> !GroupEndsAt(s, g, x)
    ensures r.None? ==> forall x: nat :: !GroupEndsAt(s, g, x)
  {
    if g < |s| && InDestinationClass(s[g]) then LazyGroupEnd(s, g, g + 1)
    else
      assert forall x: nat :: g < x ==> !ClassBetween(s, g, x);
      None
  }

  /** Where the destination pattern matches: "to" at `at`, the group from
      `group` to `end`. */
  datatype DestinationMatch = DestinationMatch(at: nat, group: nat, end: nat)

  /** Where the group of the destination pattern can start and end. */
  datatype GroupSpan = GroupSpan(group: nat, end: nat)

  /** The greedy `\s+` after "to", currently ending at `g`, where the run
      began just after `lo`: it gives back one whitespace character at a time,
      down to a single one, until the group can match. */
  function GreedyFrom(s: string, lo: nat, g: nat): (m: Option<GroupSpan>)
    requires lo < g <= |s|
    ensures m.Some? ==> lo < m.value.group <= g && GroupEndsAt(s, m.value.group, m.value.end)
    ensures m.Some? ==> forall y: nat, x: nat :: m.value.group < y <= g ==> !GroupEndsAt(s, y, x)
    ensures m.Some? ==> forall x: nat :: x < m.value.end ==> !GroupEndsAt(s, m.value.group, x)
    ensures m.None? ==> forall y: nat, x: nat :: lo < y <= g ==> !GroupEndsAt(s, y, x)
    decreases g
  {
    match GroupAt(s, g)
    case Some(e) => Some(GroupSpan(g, e))
    case None =>
      if lo + 1 < g then
        var m := GreedyFrom(s, lo, g - 1);
        assert forall y: nat, x: nat :: g - 1 < y <= g ==> y == g && !GroupEndsAt(s, y, x);
        m
      else None
  }

  /** The pattern tried with "to" at `i`: the whitespace run after "to" taken
      whole first. */
  function MatchAt(s: string, i: nat): (m: Option<DestinationMatch>)
    ensures m.Some? ==> m.value.at == i && DestinationAt(s, i, m.value.group, m.value.end)
    ensures m.Some? ==> forall y: nat, x: nat :: m.value.group < y ==> !DestinationAt(s, i, y, x)
    ensures m.Some? ==> forall x: nat :: x < m.value.end ==> !DestinationAt(s, i, m.value.group, x)
    ensures m.None? ==> forall y: nat, x: nat :: !DestinationAt(s, i, y, x)
  {
    if OccursAt(s, "to", i) then
      var p := i + 2;
      var n := SpaceRun(s, p);
      assert forall y: nat :: p + n < y ==> !SpacesBetween(s, p, y);
      assert forall y: nat :: p < y <= p + n ==> SpacesBetween(s, p, y);
      if 1 <= n then
        match GreedyFrom(s, p, p + n)
        case Some(span) => Some(DestinationMatch(i, span.group, span.end))
        case None => None
      else None
    else None
  }

  /** `re.search` for the destination pattern from position `from` on. */
  function FindDestination(s: string, from: nat): (m: Option<DestinationMatch>)
    ensures m.Some? ==> from <= m.value.at && DestinationAt(s, m.value.at, m.value.group, m.value.end)
    ensures m.Some? ==> forall i: nat, y: nat, x: nat :: from <= i < m.value.at ==> !DestinationAt(s, i, y, x)
    ensures m.Some? ==> forall y: nat, x: nat :: m.value.group < y ==> !DestinationAt(s, m.value.at, y, x)
    ensures m.Some? ==> forall x: nat :: x < m.value.end ==> !DestinationAt(s, m.value.at, m.value.group, x)
    ensures m.None? ==> forall i: nat, y: nat, x: nat :: from <= i ==> !DestinationAt(s, i, y, x)
    decreases |s| - from
  {
    if |s| <= from then None
    else
      match MatchAt(s, from)
      case Some(m) => Some(m)
      case None => FindDestination(s, from + 1)
  }

  /** The search finds a match exactly when there is one. */
  lemma {:induction false} FindDestinationComplete(s: string)
    ensures FindDestination(s, 0).Some? <==> HasDestination(s)
  {
    if FindDestination(s, 0).Some? {
      var m := FindDestination(s, 0).value;
      assert DestinationAt(s, m.at, m.group, m.end);
    }
  }

  /** The `destination` entity: the group with surrounding whitespace stripped,
      that is, the part of the group between its leading and trailing
      whitespace. */
  function DestinationValue(s: string, m: DestinationMatch): (v: string)
    requires m.group <= m.end <= |s|
    ensures v != [] ==> !IsSpace(v[0]) && !IsSpace(v[|v| - 1])
    ensures |v| <= m.end - m.group
    ensures exists a, b :: && m.group <= a <= b <= m.end && v == s[a..b]
                           && (forall i :: m.group <= i < a ==> IsSpace(s[i]))
                           && (forall i :: b <= i < m.end ==> IsSpace(s[i]))
  {
    StripWithin(s, m.group, m.end);
    Strip(s[m.group..m.end])
  }

  // ---------------------------------------------------------------- entities

  const AmountKey: string := "amount"
  const ToAccountKey: string := "to_account"
  const FromAccountKey: string := "from_account"
  const AccountKey: string := "account"
  const DestinationKey: string := "destination"

  /** Every entity the rules can extract. */
  const EntityKeys: set<string> := {AmountKey, ToAccountKey, FromAccountKey, AccountKey, DestinationKey}

  /** The five entity names are distinct. */
  lemma {:induction false} EntityKeysDistinct()
    ensures AmountKey != ToAccountKey && AmountKey != FromAccountKey && AmountKey != AccountKey && AmountKey != DestinationKey
    ensures ToAccountKey != FromAccountKey && ToAccountKey != AccountKey && ToAccountKey != DestinationKey
    ensures FromAccountKey != AccountKey && FromAccountKey != DestinationKey && AccountKey != DestinationKey
  {
    assert AmountKey[0] == 'a' && ToAccountKey[0] == 't' && FromAccountKey[0] == 'f';
    assert AccountKey[0] == 'a' && DestinationKey[0] == 'd' && AmountKey[1] != AccountKey[1];
  }

  /** The amount, when the pattern matches. */
  function AmountEntities(s: string): (r: Dict)
    ensures Keys(r) <= {AmountKey}
    ensures AmountKey in Keys(r) <==> HasAmount(s)
    ensures AmountKey in Keys(r) ==> Get(r, AmountKey) == AmountValue(s, FindAmount(s, 0).value)
  {
    FindAmountComplete(s);
    match FindAmount(s, 0)
    case Some(m) => Put(Empty, AmountKey, AmountValue(s, m))
    case None => Empty
  }

  /** `d` with a to-account and a from-account added, in that order. */
  function PutPair(d: Dict, to: string, from: string): (r: Dict)
    requires ToAccountKey !in Keys(d) && FromAccountKey !in Keys(d)
    ensures Keys(r) == Keys(d) + {ToAccountKey, FromAccountKey}
    ensures Get(r, ToAccountKey) == to && Get(r, FromAccountKey) == from
    ensures forall k :: k in Keys(d) ==> Get(r, k) == Get(d, k)
    ensures r.order == d.order + [ToAccountKey, FromAccountKey]
  {
    EntityKeysDistinct();
    var withTo := Put(d, ToAccountKey, to);
    assert FromAccountKey !in Keys(withTo) && ToAccountKey in Keys(withTo);
    assert withTo.order == d.order + [ToAccountKey];
    Put(withTo, FromAccountKey, from)
  }

  /** The account entities, added after `d`: a recognised pair, else the
      single account, else nothing. */
  function AccountEntities(s: string, d: Dict): (r: Dict)
    requires Keys(d) <= {AmountKey}
    ensures Keys(d) <= Keys(r) <= Keys(d) + {ToAccountKey, FromAccountKey, AccountKey}
    ensures forall k :: k in Keys(d) ==> Get(r, k) == Get(d, k)
    ensures ToAccountKey in Keys(r) <==> HasPair(s)
    ensures FromAccountKey in Keys(r) <==> HasPair(s)
    ensures ToAccountKey in Keys(r) ==>
      (Get(r, ToAccountKey), Get(r, FromAccountKey)) == AccountPairs[FirstPair(s, 0).value]
    ensures AccountKey in Keys(r) <==> !HasPair(s) && Contains(s, SingleAccount)
    ensures AccountKey in Keys(r) ==> Get(r, AccountKey) == SingleAccount
  {
    EntityKeysDistinct();
    match FirstPair(s, 0)
    case Some(q) =>
      PutPair(d, AccountPairs[q].0, AccountPairs[q].1)
    case None =>
      if Contains(s, SingleAccount) then Put(d, AccountKey, SingleAccount) else d
  }

  /** The destination entity, added after `d` when the pattern matches. */
  function DestinationEntities(s: string, d: Dict): (r: Dict)
    requires DestinationKey !in Keys(d)
    ensures Keys(d) <= Keys(r) <= Keys(d) + {DestinationKey}
    ensures forall k :: k in Keys(d) ==> Get(r, k) == Get(d, k)
    ensures DestinationKey in Keys(r) <==> HasDestination(s)
    ensures DestinationKey in Keys(r) ==> Get(r, DestinationKey) == DestinationValue(s, FindDestination(s, 0).value)
  {
    FindDestinationComplete(s);
    match FindDestination(s, 0)
    case Some(m) => Put(d, DestinationKey, DestinationValue(s, m))
    case None => d
  }

  /** `extract_entities`: the amount, the accounts and the destination, each
      added when its rule fires, in that insertion order. */
  function ExtractEntities(s: string): (r: Dict)
    ensures Keys(r) <= EntityKeys
  {
    var amount := AmountEntities(s);
    var accounts := AccountEntities(s, amount);
    assert Keys(accounts) <= {AmountKey, ToAccountKey, FromAccountKey, AccountKey};
    EntityKeysDistinct();
    DestinationEntities(s, accounts)
  }

  /** The amount entity is there exactly when some "$d,ddd" occurs, and holds
      the leftmost one without its separator, followed by " USD". */
  lemma {:induction false} ExtractedAmount(s: string)
    ensures var r := ExtractEntities(s);
      && (AmountKey in Keys(r) <==> HasAmount(s))
      && (AmountKey in Keys(r) ==> Get(r, AmountKey) == AmountValue(s, FindAmount(s, 0).value))
  {
    EntityKeysDistinct();
  }

  /** The two account entities are there exactly when some known pair is
      mentioned, and hold the first such pair; otherwise the single account is
      there exactly when its number is mentioned. */
  lemma {:induction false} ExtractedAccounts(s: string)
    ensures var r := ExtractEntities(s);
      && (ToAccountKey in Keys(r) <==> HasPair(s))
      && (FromAccountKey in Keys(r) <==> HasPair(s))
      && (ToAccountKey in Keys(r) ==>
            (Get(r, ToAccountKey), Get(r, FromAccountKey)) == AccountPairs[FirstPair(s, 0).value])
      && (AccountKey in Keys(r) <==> !HasPair(s) && Contains(s, SingleAccount))
      && (AccountKey in Keys(r) ==> Get(r, AccountKey) == SingleAccount)
  {
    EntityKeysDistinct();
  }

  /** The destination entity is there exactly when "to" followed by a
      destination occurs, and holds the leftmost match's group, stripped. */
  lemma {:induction false} ExtractedDestination(s: string)
    ensures var r := ExtractEntities(s);
      && (DestinationKey in Keys(r) <==> HasDestination(s))
      && (DestinationKey in Keys(r) ==> Get(r, DestinationKey) == DestinationValue(s, FindDestination(s, 0).value))
  {
    EntityKeysDistinct();
  }

  /** `run_prompter` on its rule-based path; `now` is the clock reading the
      source takes, in ISO format. The requested language is not consulted. */
  function RunPrompter(input: RawInstructionInput, now: string): (r: SemanticPromptOut)
    ensures r.intent in Intents && r.intent == ExtractIntent(input.instruction)
    ensures Keys(r.entities) <= EntityKeys
    ensures AmountKey in Keys(r.entities) <==> HasAmount(input.instruction)
    ensures ToAccountKey in Keys(r.entities) <==> HasPair(input.instruction)
    ensures r.authLevel == "L4" && r.status == "ready for execution"
    ensures r.timestamp == Some(now + "Z")
  {
    ExtractedAmount(input.instruction);
    ExtractedAccounts(input.instruction);
    SemanticPromptOut(ExtractIntent(input.instruction), ExtractEntities(input.instruction),
                      "L4", Some(now + "Z"), "ready for execution")
  }
}

=== FILE: repr.dfy ===
/** Python's `repr` of strings and of dicts of strings, which is also what
    `str` gives for a dict. A string is written between quotes with its
    backslash, its quote and its non-printable characters escaped; a dict is
    written as "{" and its items "key: value", joined with ", ", then "}". */
module Repr {
  import opened Text
  import opened Dicts

  /** Python's `str.isprintable()` below U+0100: the C0 and C1 controls, DEL,
      the no-break space U+00A0 and the soft hyphen U+00AD are not printable. */
  predicate Latin1Printable(c: char) {
    (0x20 <= c as int < 0x7f) || (0xa1 <= c as int <= 0xff && c as int != 0xad)
  }

  /** Python's `str.isprintable()` on one character. From U+0100 on it follows
      the Unicode character database, which is not part of this model: `wide`
      answers for those characters. */
  predicate Printable(c: char, wide: char -> bool) {
    if c as int < 0x100 then Latin1Printable(c) else wide(c)
  }

  /** The quote `repr` puts around `s`: a double quote when `s` holds a single
      quote and no double quote, a single quote otherwise. */
  function QuoteFor(s: string): (q: char)
    ensures q == '"' <==> '\'' in s && '"' !in s
    ensures q == '\'' <==> !('\'' in s && '"' !in s)
  {
    if '\'' in s && '"' !in s then '"' else '\''
  }

  /** A character `repr` writes as itself inside either quote. */
  predicate Plain(c: char, wide: char -> bool) {
    && c != '\'' && c != '"' && c != '\\'
    && 0x20 <= c as int && c as int != 0x7f
    && (c as int < 0x7f || Printable(c, wide))
  }

  predicate AllPlain(s: string, wide: char -> bool) {
    forall i :: 0 <= i < |s| ==> Plain(s[i], wide)
  }

  /** How `repr` writes one character between quotes `q`: as itself when it is
      printable and neither the quote nor a backslash; the quote and the
      backslash behind a backslash; tab, newline and carriage return as `\t`,
      `\n`, `\r`; any other character as `\x`, `\u` or `\U` followed by two,
      four or eight lower-case hexadecimal digits that read back as its code
      point, the shortest of the three that fits. */
  function EscapeChar(c: char, q: char, wide: char -> bool): (r: string)
    ensures r == [c] <==> c != q && c != '\\' && 0x20 <= c as int && c as int != 0x7f
                          && (c as int < 0x7f || Printable(c, wide))
    ensures r != [c] ==> 2 <= |r| <= 10 && r[0] == '\\'
    ensures c == q || c == '\\' ==> r == ['\\', c]
    ensures |r| == 2 && c != q && c != '\\' ==>
      || (c == '\t' && r == "\\t") || (c == '\n' && r == "\\n") || (c == '\r' && r == "\\r")
    ensures |r| > 2 ==>
      && r[1] == (if c as int <= 0xff then 'x' else if c as int <= 0xffff then 'u' else 'U')
      && |r| == (if c as int <= 0xff then 4 else if c as int <= 0xffff then 6 else 10)
      && AllLowerHex(r[2..]) && HexStringValue(r[2..]) == c as int
  {
    var n := c as int;
    assert Pow16(2) == 0x100 && Pow16(4) == 0x1_0000 && Pow16(8) == 0x1_0000_0000;
    if c == q || c == '\\' then ['\\', c]
    else if c == '\t' then "\\t"
    else if c == '\n' then "\\n"
    else if c == '\r' then "\\r"
    else if n < 0x20 || n == 0x7f then HexEscape('x', HexDigits(n, 2, false))
    else if n < 0x7f then [c]
    else if Printable(c, wide) then [c]
    else if n <= 0xff then HexEscape('x', HexDigits(n, 2, false))
    else if n <= 0xffff then HexEscape('u', HexDigits(n, 4, false))
    else HexEscape('U', HexDigits(n, 8, false))
  }

  /** A backslash, the escape letter and the digits. */
  function HexEscape(letter: char, digits: string): (r: string)
    ensures |r| == |digits| + 2 && r[0] == '\\' && r[1] == letter && r[2..] == digits
  {
    ['\\', letter] + digits
  }

  /** The characters of `s` as `repr` writes them between quotes `q`. */
  function EscapeBody(s: string, q: char, wide: char -> bool): (r: string)
    ensures |r| >= |s|
  {
    if s == [] then [] else EscapeChar(s[0], q, wide) + EscapeBody(s[1..], q, wide)
  }

  /** A string of plain characters is written unchanged. */
  lemma {:induction false} EscapePlainBody(s: string, q: char, wide: char -> bool)
    requires q == '\'' || q == '"'
    requires AllPlain(s, wide)
    ensures EscapeBody(s, q, wide) == s
  {
    if s != [] {
      assert AllPlain(s[1..], wide) by {
        forall i | 0 <= i < |s[1..]| ensures Plain(s[1..][i], wide) {
          assert s[1..][i] == s[i + 1];
        }
      }
      EscapePlainBody(s[1..], q, wide);
      assert Plain(s[0], wide);
      assert EscapeChar(s[0], q, wide) == [s[0]];
      assert EscapeBody(s, q, wide) == [s[0]] + EscapeBody(s[1..], q, wide);
      assert s == [s[0]] + s[1..];
    }
  }

  /** `repr(s)` */
  function ReprStr(s: string, wide: char -> bool): (r: string)
    ensures |r| >= |s| + 2
    ensures r[0] == r[|r| - 1] == QuoteFor(s)
  {
    var q := QuoteFor(s);
    [q] + EscapeBody(s, q, wide) + [q]
  }

  /** `repr` of one item of a dict. */
  function ReprItem(d: Dict, k: string, wide: char -> bool): string
    requires k in Keys(d)
  {
    ReprStr(k, wide) + ": " + ReprStr(Get(d, k), wide)
  }

  /** The items of `d` under the keys `ks`, joined with ", ". */
  function ReprItems(d: Dict, ks: seq<string>, wide: char -> bool): string
    requires forall k :: k in ks ==> k in Keys(d)
  {
    if ks == [] then ""
    else if |ks| == 1 then ReprItem(d, ks[0], wide)
    else ReprItem(d, ks[0], wide) + ", " + ReprItems(d, ks[1..], wide)
  }

  /** `str(d)`, which for a dict is `repr(d)`: its items in insertion order. */
  function ReprDict(d: Dict, wide: char -> bool): (r: string)
    ensures |r| >= 2 + 6 * Len(d)
    ensures r[0] == '{' && r[|r| - 1] == '}'
  {
    ItemsLength(d, d.order, wide);
    "{" + ReprItems(d, d.order, wide) + "}"
  }

  lemma {:induction false} ItemsLength(d: Dict, ks: seq<string>, wide: char -> bool)
    requires forall k :: k in ks ==> k in Keys(d)
    ensures |ReprItems(d, ks, wide)| >= 6 * |ks|
  {
    if |ks| > 1 {
      ItemsLength(d, ks[1..], wide);
    }
  }

  /** A string of plain characters is written between single quotes, unchanged. */
  lemma {:induction false} ReprPlainStr(s: string, wide: char -> bool)
    requires AllPlain(s, wide)
    ensures ReprStr(s, wide) == "'" + s + "'"
  {
    assert '\'' !in s by {
      forall i | 0 <= i < |s| ensures s[i] != '\'' {
        assert Plain(s[i], wide);
      }
    }
    EscapePlainBody(s, '\'', wide);
  }

  /** A search word made of characters `repr` never adds around strings. */
  predicate Wordlike(sub: string) {
    |sub| > 0 && forall n :: 0 <= n < |sub| ==> sub[n] !in {'\'', ':', ' ', ',', '{', '}'}
  }

  /** Quotes around a text add no occurrence of a word free of quotes. */
  lemma {:induction false} QuotedMentions(x: string, sub: string)
    requires Wordlike(sub)
    ensures Contains("'" + x, sub) <==> Contains(x, sub)
    ensures Contains(x + "'", sub) <==> Contains(x, sub)
  {
    ContainsAcross("", "'", x, sub);
    assert "" + "'" + x == "'" + x;
    ContainsAcross(x, "'", "", sub);
    assert x + "'" + "" == x + "'";
    assert !Contains("", sub);
  }

  /** Lower-casing an item lower-cases its key and value and keeps its punctuation. */
  lemma {:induction false} LowerItem(k: string, v: string)
    ensures Lower("'" + k + "': '" + v + "'") == ("'" + Lower(k)) + "': '" + (Lower(v) + "'")
  {
    LowerConcat("'", k);
    LowerConcat("'" + k, "': '");
    LowerConcat("'" + k + "': '", v);
    LowerConcat("'" + k + "': '" + v, "'");
    assert Lower("'") == "'" && Lower("': '") == "': '";
  }

  /** Within one item of plain strings, a word occurs in the lower-cased text
      exactly when it occurs in the lower-cased key or value. */
  lemma {:induction false} ItemMentions(d: Dict, k: string, wide: char -> bool, sub: string)
    requires k in Keys(d) && AllPlain(k, wide) && AllPlain(Get(d, k), wide)
    requires Wordlike(sub)
    ensures Contains(Lower(ReprItem(d, k, wide)), sub)
        <==> Contains(Lower(k), sub) || Contains(Lower(Get(d, k)), sub)
  {
    var v := Get(d, k);
    ReprPlainStr(k, wide);
    ReprPlainStr(v, wide);
    assert ReprItem(d, k, wide) == "'" + k + "': '" + v + "'";
    LowerItem(k, v);
    ContainsAcross("'" + Lower(k), "': '", Lower(v) + "'", sub);
    QuotedMentions(Lower(k), sub);
    QuotedMentions(Lower(v), sub);
  }

  /** Joining two texts with ", " adds no occurrence of a word free of commas
      and spaces. */
  lemma {:induction false} JoinMentions(first: string, rest: string, sub: string)
    requires Wordlike(sub)
    ensures Contains(Lower(first + ", " + rest), sub) <==> Contains(Lower(first), sub) || Contains(Lower(rest), sub)
  {
    LowerConcat(first, ", ");
    LowerConcat(first + ", ", rest);
    assert Lower(", ") == ", ";
    ContainsAcross(Lower(first), ", ", Lower(rest), sub);
  }

  /** Over items of plain strings, a word occurs in the lower-cased text
      exactly when it occurs in the lower-cased key or value of one of them. */
  lemma {:induction false} ItemsMention(d: Dict, ks: seq<string>, wide: char -> bool, sub: string)
    requires forall k :: k in ks ==> k in Keys(d) && AllPlain(k, wide) && AllPlain(Get(d, k), wide)
    requires Wordlike(sub)
    ensures Contains(Lower(ReprItems(d, ks, wide)), sub)
        <==> exists k :: k in ks && (Contains(Lower(k), sub) || Contains(Lower(Get(d, k)), sub))
  {
    if ks == [] {
      assert !Contains("", sub);
    } else if |ks| == 1 {
      ItemMentions(d, ks[0], wide, sub);
    } else {
      ItemMentions(d, ks[0], wide, sub);
      ItemsMention(d, ks[1..], wide, sub);
      JoinMentions(ReprItem(d, ks[0], wide), ReprItems(d, ks[1..], wide), sub);
      assert forall k :: k in ks <==> k == ks[0] || k in ks[1..];
    }
  }

  /** When every key and value is plain, a word occurs in the lower-cased
      `str(d)` exactly when it occurs in some lower-cased key or value: the
      quotes, colons, commas, spaces and braces around them cannot complete it. */
  lemma {:induction false} ReprDictMentions(d: Dict, wide: char -> bool, sub: string)
    requires forall k :: k in Keys(d) ==> AllPlain(k, wide) && AllPlain(Get(d, k), wide)
    requires Wordlike(sub)
    ensures Contains(Lower(ReprDict(d, wide)), sub)
        <==> exists k :: k in Keys(d) && (Contains(Lower(k), sub) || Contains(Lower(Get(d, k)), sub))
  {
    var items := ReprItems(d, d.order, wide);
    ItemsMention(d, d.order, wide, sub);
    LowerConcat("{", items);
    LowerConcat("{" + items, "}");
    assert Lower("{") == "{" && Lower("}") == "}";
    ContainsAcross("", "{", Lower(items) + "}", sub);
    ContainsAcross(Lower(items), "}", "", sub);
    assert "" + "{" + (Lower(items) + "}") == "{" + Lower(items) + "}";
    assert Lower(items) + "}" + "" == Lower(items) + "}";
    assert !Contains("", sub);
  }

  /** A dict of one entry is written as that one item between braces. */
  lemma {:induction false} ReprSingle(d: Dict, wide: char -> bool)
    requires |d.order| == 1
    ensures ReprDict(d, wide) == "{" + ReprStr(d.order[0], wide) + ": " + ReprStr(Get(d, d.order[0]), wide) + "}"
  {
  }
}

=== FILE: schemas.dfy ===
/** The records the agents pass along the pipeline, with the source's field
    defaults as constructor defaults. Entity and field maps are insertion-ordered
    string dicts; score and parameter maps are maps to reals (floats in the source). */
module Schemas {
  import opened Dicts

  datatype Option<T> = None | Some(value: T)

  /** A raw user instruction; the language defaults to "EN". */
  datatype RawInstructionInput = RawInstructionInput(instruction: string, language: string := "EN")

  /** The prompter's structured output. */
  datatype SemanticPromptOut = SemanticPromptOut(
    intent: string,
    entities: Dict,
    authLevel: string := "L4",
    timestamp: Option<string> := None,
    status: string := "ready")

  /** The cryptor's output: obfuscated fields, role and time tags, and the
      Proof-of-Protocol signature. */
  datatype EncryptedOutput = EncryptedOutput(
    encryptedFields: Dict,
    roleTag: string,
    popSignature: string,
    timeTag: string)

  /** The decryptor's output; exactly these five fields. */
  datatype DecryptedFieldsOut = DecryptedFieldsOut(
    intent: string,
    entities: Dict,
    authGrade: string,
    timeIssued: string,
    execStatus: string)

  /** The mimic agent's spoofed record. */
  datatype MimicOutput = MimicOutput(mimicFields: Dict, spoofStatus: string)

  /** The leakage assessment; protection defaults to "active". */
  datatype LeakageVectorOut = LeakageVectorOut(
    leakageScore: real,
    details: map<string, real>,
    hkProtection: string := "active")

  /** The calibrator's proposal; mode defaults to "recalibrate" and feedback to true. */
  datatype ThetaUpdate = ThetaUpdate(
    thetaUpdate: map<string, real>,
    mode: string := "recalibrate",
    hkFeedback: bool := true)
}

=== FILE: tags.dfy ===
/** The protocol's obfuscated field names and value prefixes. They are spelled
    with escapes because several letters have look-alikes: the Omega of the
    intent tag is U+2126 OHM SIGN, not the Greek capital letter U+03A9, and the
    delta of the time tag is U+2206 INCREMENT. */
module Tags {
  /** "Ωα": the encrypted intent. */
  const IntentTag: string := "\U{2126}\U{3b1}"
  /** "βΞ_": the prefix of every encrypted entity. */
  const EntityPrefix: string := "\U{3b2}\U{39e}_"
  /** "βΞ": the block field of a mimic record. */
  const BlockTag: string := "\U{3b2}\U{39e}"
  /** "$γΦ" */
  const GammaTag: string := "$\U{3b3}\U{3a6}"
  /** "Node_ζτ" */
  const NodeTag: string := "Node_\U{3b6}\U{3c4}"
  /** "Role=Γ5": the cryptor's role marker. */
  const RoleG5Tag: string := "Role=\U{393}5"
  /** "Role=Γ3": the mimic's (wrong) role marker. */
  const RoleG3Tag: string := "Role=\U{393}3"
  /** "Time=∆τ" */
  const TimeTag: string := "Time=\U{2206}\U{3c4}"
  /** "ΨV" */
  const PsiTag: string := "\U{3a8}V"
  /** "Σπ" */
  const SigmaTag: string := "\U{3a3}\U{3c0}"
  /** "Γ5": the role tag of every record the cryptor emits. */
  const RoleG5: string := "\U{393}5"
  /** "βΞ_amount_mimic" and "βΞ_account_mimic": the mimic's entity imitations. */
  const AmountMimicTag: string := EntityPrefix + "amount_mimic"
  const AccountMimicTag: string := EntityPrefix + "account_mimic"
  /** "βΞ_amount" */
  const AmountTag: string := EntityPrefix + "amount"

  /** Value prefixes: "BXR_Λ", "ZYNQ_∆", "AKR_Ξ", "Λ". */
  const GammaValuePrefix: string := "BXR_\U{39b}"
  const MimicIntentPrefix: string := "ZYNQ_\U{2206}"
  const MimicGammaPrefix: string := "AKR_\U{39e}"
  const Lambda: string := "\U{39b}"
}

=== FILE: text.dfy ===
/** String operations with the Python semantics the agents rely on: substring
    and prefix tests, ASCII lower-casing, character replacement, and the decimal
    and hexadecimal renderings of the random draws that end up in field values. */
module Text {

  /** `sub` occurs in `s` starting at index `i`. */
  predicate OccursAt(s: string, sub: string, i: int) {
    0 <= i && i + |sub| <= |s| && s[i..i + |sub|] == sub
  }

  /** Python `sub in s`. */
  predicate Contains(s: string, sub: string) {
    exists i :: 0 <= i <= |s| && OccursAt(s, sub, i)
  }

  /** Python `s.startswith(p)`. */
  predicate StartsWith(s: string, p: string) {
    |p| <= |s| && s[..|p|] == p
  }

  /** Python slicing `s[n:]`, which yields the empty string when `s` is shorter than `n`. */
  function SliceFrom(s: string, n: nat): string {
    if n <= |s| then s[n..] else ""
  }

  predicate IsDigit(c: char) { '0' <= c <= '9' }

  predicate IsLowerHex(c: char) { IsDigit(c) || 'a' <= c <= 'f' }

  predicate IsUpperHex(c: char) { IsDigit(c) || 'A' <= c <= 'F' }

  predicate AllDigits(s: string) { forall i :: 0 <= i < |s| ==> IsDigit(s[i]) }

  predicate AllLowerHex(s: string) { forall i :: 0 <= i < |s| ==> IsLowerHex(s[i]) }

  predicate AllUpperHex(s: string) { forall i :: 0 <= i < |s| ==> IsUpperHex(s[i]) }

  /** Every character of `s` is drawn from `alphabet`. */
  predicate Over(s: string, alphabet: set<char>) { forall i :: 0 <= i < |s| ==> s[i] in alphabet }

  /** Python `str.lower()` on one character, for the ASCII letters. */
  function LowerChar(c: char): char {
    if 'A' <= c <= 'Z' then (c as int + 32) as char else c
  }

  /** Python `str.lower()`, for the ASCII letters. */
  function Lower(s: string): string {
    seq(|s|, i requires 0 <= i < |s| => LowerChar(s[i]))
  }

  /** Python `s.replace(a, b)` for single characters `a` and `b`. */
  function ReplaceChar(s: string, a: char, b: char): (r: string)
    ensures |r| == |s|
    ensures forall i :: 0 <= i < |s| ==> r[i] == (if s[i] == a then b else s[i])
    ensures a != b ==> forall i :: 0 <= i < |r| ==> r[i] != a
  {
    if s == [] then [] else [if s[0] == a then b else s[0]] + ReplaceChar(s[1..], a, b)
  }

  function DigitChar(d: nat): (c: char)
    requires d < 10
  {
    ('0' as int + d) as char
  }

  function DigitValue(c: char): nat
    requires IsDigit(c)
  {
    c as int - '0' as int
  }

  function HexChar(d: nat, upper: bool): char
    requires d < 16
  {
    if d < 10 then DigitChar(d)
    else if upper then ('A' as int + d - 10) as char
    else ('a' as int + d - 10) as char
  }

  function HexValue(c: char): nat
    requires IsLowerHex(c) || IsUpperHex(c)
  {
    if IsDigit(c) then DigitValue(c)
    else if 'a' <= c <= 'f' then c as int - 'a' as int + 10
    else c as int - 'A' as int + 10
  }

  /** The number a string of decimal digits denotes (Python `int(s)`). */
  function DecimalValue(s: string): nat
    requires AllDigits(s)
  {
    if s == [] then 0 else 10 * DecimalValue(s[..|s| - 1]) + DigitValue(s[|s| - 1])
  }

  /** The number a string of hexadecimal digits denotes (Python `int(s, 16)`). */
  function HexStringValue(s: string): nat
    requires forall i :: 0 <= i < |s| ==> IsLowerHex(s[i]) || IsUpperHex(s[i])
  {
    if s == [] then 0 else 16 * HexStringValue(s[..|s| - 1]) + HexValue(s[|s| - 1])
  }

  /** Python `str(n)` for a natural number: no sign, no leading zero. */
  function Decimal(n: nat): (r: string)
    ensures 1 <= |r| && AllDigits(r)
    ensures DecimalValue(r) == n
    ensures r[0] == '0' ==> n == 0
    ensures n < 10 ==> |r| == 1
    ensures 10 <= n < 100 ==> |r| == 2
    ensures 1000 <= n < 10000 ==> |r| == 4
  {
    if n < 10 then [DigitChar(n)]
    else
      var r := Decimal(n / 10) + [DigitChar(n % 10)];
      assert r[..|r| - 1] == Decimal(n / 10);
      assert DigitValue(r[|r| - 1]) == n % 10;
      r
  }

  /** Python `f"{n:02d}"` for `n < 100`. */
  function Pad2(n: nat): (r: string)
    requires n < 100
    ensures |r| == 2 && AllDigits(r)
    ensures DecimalValue(r) == n
  {
    var r := [DigitChar(n / 10), DigitChar(n % 10)];
    assert r[..1] == [DigitChar(n / 10)] && r[..1][..0] == [];
    assert DecimalValue(r[..1]) == n / 10;
    r
  }

  function Pow16(k: nat): (p: nat)
    ensures p >= 1
  {
    if k == 0 then 1 else 16 * Pow16(k - 1)
  }

  /** `width` hexadecimal digits of `n`, most significant first (Python
      `f"{n:0{width}x}"`, or `f"{n:0{width}X}"` when `upper`). */
  function HexDigits(n: nat, width: nat, upper: bool): (r: string)
    requires n < Pow16(width)
    ensures |r| == width
    ensures upper ==> AllUpperHex(r)
    ensures !upper ==> AllLowerHex(r)
    ensures HexStringValue(r) == n
  {
    if width == 0 then []
    else
      HexShift(n, width);
      var prefix := HexDigits(n / 16, width - 1, upper);
      var c := HexChar(n % 16, upper);
      HexCharValue(n % 16, upper);
      var r := prefix + [c];
      assert r[..|r| - 1] == prefix && r[|r| - 1] == c;
      assert forall i :: 0 <= i < |prefix| ==> r[i] == prefix[i];
      assert HexStringValue(r) == 16 * (n / 16) + n % 16;
      r
  }

  /** Dropping the last hex digit of a `width`-digit number leaves `width - 1` digits. */
  lemma {:induction false} HexShift(n: nat, width: nat)
    requires 0 < width && n < Pow16(width)
    ensures n / 16 < Pow16(width - 1) && n == 16 * (n / 16) + n % 16
  {
  }

  lemma {:induction false} HexCharValue(d: nat, upper: bool)
    requires d < 16
    ensures upper ==> IsUpperHex(HexChar(d, upper))
    ensures !upper ==> IsLowerHex(HexChar(d, upper))
    ensures HexValue(HexChar(d, upper)) == d
  {
  }

  /** Four hexadecimal digits of `n < 0x10000`. */
  function Hex4(n: nat, upper: bool): (r: string)
    requires n < 0x10000
    ensures |r| == 4
    ensures upper ==> AllUpperHex(r)
    ensures !upper ==> AllLowerHex(r)
    ensures HexStringValue(r) == n
  {
    assert Pow16(4) == 0x10000;
    HexDigits(n, 4, upper)
  }

  /** An occurrence of `sub` in `s` is impossible when `s` is written over an
      alphabet that misses one of the characters of `sub`. */
  lemma {:induction false} AbsentOutsideAlphabet(s: string, sub: string, alphabet: set<char>, j: nat)
    requires Over(s, alphabet)
    requires j < |sub| && sub[j] !in alphabet
    ensures !Contains(s, sub)
  {
    forall i | 0 <= i && i + |sub| <= |s|
      ensures !OccursAt(s, sub, i)
    {
      assert s[i..i + |sub|][j] == s[i + j];
    }
  }

  /** An occurrence of `a + b` contains an occurrence of `b`; in particular every
      input mentioning "email" mentions "mail". */
  lemma {:induction false} ContainsSuffix(s: string, a: string, b: string)
    requires Contains(s, a + b)
    ensures Contains(s, b)
  {
    var i :| 0 <= i <= |s| && OccursAt(s, a + b, i);
    var j := i + |a|;
    assert s[j..j + |b|] == s[i..i + |a + b|][|a|..];
    assert 0 <= j <= |s| && OccursAt(s, b, j);
  }

  /** An occurrence of `a + b` contains an occurrence of `a`; in particular every
      key mentioning "to_account" mentions "to". */
  lemma {:induction false} ContainsPrefix(s: string, a: string, b: string)
    ensures Contains(s, a + b) ==> Contains(s, a)
  {
    if Contains(s, a + b) {
      var i :| 0 <= i <= |s| && OccursAt(s, a + b, i);
      assert s[i..i + |a|] == s[i..i + |a + b|][..|a|];
      assert OccursAt(s, a, i);
    }
  }

  /** Python's `lower()` is idempotent. */
  lemma {:induction false} LowerIdempotent(s: string)
    ensures Lower(Lower(s)) == Lower(s)
  {
  }

  /** Lower-casing works character by character. */
  lemma {:induction false} LowerConcat(a: string, b: string)
    ensures Lower(a + b) == Lower(a) + Lower(b)
  {
    assert forall i :: 0 <= i < |a| ==> Lower(a + b)[i] == Lower(a)[i];
    assert forall i :: |a| <= i < |a + b| ==> Lower(a + b)[i] == Lower(b)[i - |a|];
  }

  /** `w` occurs in any text it is part of. */
  lemma {:induction false} ContainsMiddle(a: string, w: string, b: string)
    ensures Contains(a + w + b, w)
  {
    assert (a + w + b)[|a|..|a| + |w|] == w;
    assert OccursAt(a + w + b, w, |a|);
  }

  /** An occurrence cannot overlap a separator that shares no character with it. */
  lemma {:induction false} NoStraddle(a: string, sep: string, b: string, sub: string, i: int)
    requires |sub| > 0 && |sep| > 0
    requires forall m, n :: 0 <= m < |sep| && 0 <= n < |sub| ==> sep[m] != sub[n]
    requires 0 <= i < |a| + |sep| && |a| < i + |sub|
    ensures !OccursAt(a + sep + b, sub, i)
  {
    var s := a + sep + b;
    if i + |sub| <= |s| {
      var p := if i < |a| then |a| else i;
      assert |a| <= p < |a| + |sep| && i <= p < i + |sub|;
      assert s[p] == sep[p - |a|];
      assert s[i..i + |sub|][p - i] == s[p];
    }
  }

  /** A slice of the right part of `x + y`, read in `y`. */
  lemma {:induction false} SliceOfRight(x: string, y: string, j: nat, len: nat)
    requires j + len <= |y|
    ensures (x + y)[|x| + j..|x| + j + len] == y[j..j + len]
  {
  }

  /** A separator sharing no character with `sub` cannot hold part of an
      occurrence: `sub` occurs in `a + sep + b` exactly when it occurs in `a`
      or in `b`. */
  lemma {:induction false} ContainsAcross(a: string, sep: string, b: string, sub: string)
    requires |sub| > 0 && |sep| > 0
    requires forall i, j :: 0 <= i < |sep| && 0 <= j < |sub| ==> sep[i] != sub[j]
    ensures Contains(a + sep + b, sub) <==> Contains(a, sub) || Contains(b, sub)
  {
    var s := a + sep + b;
    if Contains(s, sub) {
      var i :| 0 <= i <= |s| && OccursAt(s, sub, i);
      if i + |sub| <= |a| {
        assert a[i..i + |sub|] == s[i..i + |sub|];
        assert OccursAt(a, sub, i);
      } else if i >= |a| + |sep| {
        var j := i - |a| - |sep|;
        SliceOfRight(a + sep, b, j, |sub|);
        assert OccursAt(b, sub, j);
      } else {
        NoStraddle(a, sep, b, sub, i);
        assert false;
      }
    }
    if Contains(a, sub) {
      var i :| 0 <= i <= |a| && OccursAt(a, sub, i);
      assert s[i..i + |sub|] == a[i..i + |sub|];
      assert OccursAt(s, sub, i);
    }
    if Contains(b, sub) {
      var j :| 0 <= j <= |b| && OccursAt(b, sub, j);
      var i := |a| + |sep| + j;
      SliceOfRight(a + sep, b, j, |sub|);
      assert OccursAt(s, sub, i);
    }
  }

  /** Python `str.isspace()` on one character, which is also what `\s` matches
      in a regular expression over `str`. */
  predicate IsSpace(c: char) {
    || c == ' ' || c == '\t' || c == '\n' || c == '\r' || c == '\U{b}' || c == '\U{c}'
    || ('\U{1c}' <= c <= '\U{1f}') || c == '\U{85}' || c == '\U{a0}' || c == '\U{1680}'
    || ('\U{2000}' <= c <= '\U{200a}') || c == '\U{2028}' || c == '\U{2029}' || c == '\U{202f}'
    || c == '\U{205f}' || c == '\U{3000}'
  }

  /** How many whitespace characters `s` starts with. */
  function LeadingSpace(s: string): (n: nat)
    ensures n <= |s|
    ensures forall i :: 0 <= i < n ==> IsSpace(s[i])
    ensures n < |s| ==> !IsSpace(s[n])
  {
    if s != [] && IsSpace(s[0]) then
      var n := 1 + LeadingSpace(s[1..]);
      assert forall i :: 1 <= i < n ==> s[i] == s[1..][i - 1];
      n
    else 0
  }

  /** How many whitespace characters `s` ends with. */
  function TrailingSpace(s: string): (n: nat)
    ensures n <= |s|
    ensures forall i :: |s| - n <= i < |s| ==> IsSpace(s[i])
    ensures n < |s| ==> !IsSpace(s[|s| - n - 1])
  {
    if s != [] && IsSpace(s[|s| - 1]) then
      var n := 1 + TrailingSpace(s[..|s| - 1]);
      assert forall i :: |s| - n <= i < |s| - 1 ==> s[i] == s[..|s| - 1][i];
      n
    else 0
  }

  /** Python `s.strip()`: the part of `s` between its leading and trailing
      whitespace, which neither starts nor ends with whitespace. */
  function Strip(s: string): (r: string)
    ensures |r| <= |s|
    ensures r != [] ==> !IsSpace(r[0]) && !IsSpace(r[|r| - 1])
    ensures r == [] <==> forall i :: 0 <= i < |s| ==> IsSpace(s[i])
    ensures exists a, b :: && 0 <= a <= b <= |s| && r == s[a..b]
                           && (forall i :: 0 <= i < a ==> IsSpace(s[i]))
                           && (forall i :: b <= i < |s| ==> IsSpace(s[i]))
  {
    var a := LeadingSpace(s);
    var t := s[a..];
    var k := TrailingSpace(t);
    var b := |s| - k;
    SliceMargins(s, a, |s|, 0, b - a, IsSpace);
    assert b > a ==> !IsSpace(s[b - 1]) by {
      if b > a {
        assert s[b - 1] == t[|t| - k - 1];
      }
    }
    s[a..b]
  }

  /** Stripping a slice `s[lo..hi]` keeps the part of `s` between the slice's
      leading and trailing whitespace. */
  lemma {:induction false} StripWithin(s: string, lo: nat, hi: nat)
    requires lo <= hi <= |s|
    ensures exists a, b :: && lo <= a <= b <= hi && Strip(s[lo..hi]) == s[a..b]
                           && (forall i :: lo <= i < a ==> IsSpace(s[i]))
                           && (forall i :: b <= i < hi ==> IsSpace(s[i]))
  {
    var g := s[lo..hi];
    var a, b :| && 0 <= a <= b <= |g| && Strip(g) == g[a..b]
                && (forall i :: 0 <= i < a ==> IsSpace(g[i]))
                && (forall i :: b <= i < |g| ==> IsSpace(g[i]));
    SliceMargins(s, lo, hi, a, b, IsSpace);
  }

  /** Margins of a slice `s[lo..hi]` are margins of `s` itself, shifted by `lo`. */
  lemma {:induction false} SliceMargins(s: string, lo: nat, hi: nat, a: nat, b: nat, p: char -> bool)
    requires lo <= hi <= |s| && a <= b <= hi - lo
    requires forall i :: 0 <= i < a ==> p(s[lo..hi][i])
    requires forall i :: b <= i < hi - lo ==> p(s[lo..hi][i])
    ensures s[lo..hi][a..b] == s[lo + a..lo + b]
    ensures forall i :: lo <= i < lo + a ==> p(s[i])
    ensures forall i :: lo + b <= i < hi ==> p(s[i])
  {
    var g := s[lo..hi];
    forall j | 0 <= j < b - a ensures g[a..b][j] == s[lo + a..lo + b][j] {
      assert g[a + j] == s[lo + a + j];
    }
    forall i | lo <= i < lo + a ensures p(s[i]) {
      assert s[i] == g[i - lo];
    }
    forall i | lo + b <= i < hi ensures p(s[i]) {
      assert s[i] == g[i - lo];
    }
  }

  /** Stripping a string that neither starts nor ends with whitespace leaves
      it as it is; in particular `strip` is idempotent. */
  lemma {:induction false} StripClean(s: string)
    requires s != [] ==> !IsSpace(s[0]) && !IsSpace(s[|s| - 1])
    ensures Strip(s) == s
  {
    assert LeadingSpace(s) == 0;
    assert s[0..] == s;
    assert TrailingSpace(s) == 0;
  }

  /** Python `s.replace(c, "")` for a single character `c`. */
  function RemoveChar(s: string, c: char): (r: string)
    ensures |r| <= |s|
    ensures forall i :: 0 <= i < |r| ==> r[i] != c
    ensures (forall i :: 0 <= i < |s| ==> s[i] != c) ==> r == s
  {
    if s == [] then []
    else
      assert forall i :: 1 <= i < |s| ==> s[i] == s[1..][i - 1];
      (if s[0] == c then [] else [s[0]]) + RemoveChar(s[1..], c)
  }

  /** Removing a character from a concatenation removes it from each part. */
  lemma {:induction false} RemoveCharConcat(a: string, b: string, c: char)
    ensures RemoveChar(a + b, c) == RemoveChar(a, c) + RemoveChar(b, c)
  {
    if a == [] {
      assert a + b == b;
    } else {
      assert (a + b)[1..] == a[1..] + b;
      RemoveCharConcat(a[1..], b, c);
    }
  }
}
